=== FILE: README.md ===
# Lost-and-found matching engine

A Dafny model of the matching core of the Treasure Trace lost-and-found web
application. The application keeps users, lost and found reports ("items"),
proposed matches and notifications in the browser's local storage.

- **Saving a report.** Every new report is scored against every report of the
  opposite kind. A weighted word-overlap score decides, and pairs scoring at
  least 0.4 are offered as pending matches, with a notice to both owners.
- **The match-search page.** It has its own additive scorer, a text search and
  an image search over classifier output. It offers the shown results to the
  match table. Users confirm, reject or contact through it.
- **The report form.** It derives keywords from the typed fields.
- **Smaller pieces.** The sign-up check, the labels and expansion state of
  the match cards, and the navigation bar's initials and active link.

The whole store is one immutable value (`Records.Store`). Every operation is a
pure function from the store before to the store after, paired with what the
application function returns. A missing record is `None` where the
application returns `undefined` or `null`.

Things the application draws from outside become parameters:
- fresh ids: `ids: nat -> string`, `Env`;
- the clock: `now`;
- the logged-in user;
- the image classifier's output: `Analysis`, `analysisOf`;
- the photo description;
- the rendering of percentages.

Modules follow the source files:

| module | file | models |
|---|---|---|
| `Records` | `records.dfy` | the record types and the store |
| `Database` | `database.dfy` | `localStorageDB.ts`: users, items, matches, notifications |
| `Similarity` | `similarity.dfy` | `calculateSimilarity`, `compareStrings`, `compareKeywords` |
| `Matching` | `matching.dfy` | `saveItem` and `checkForMatches` |
| `ItemForm` | `keywords.dfy` | `ItemForm.tsx` |
| `Images` | `images.dfy` | `imageRecognition.ts` |
| `Search` | `search.dfy` | `MatchSearch.tsx` |
| `Signup` | `signup.dfy` | `Signup.tsx` |
| `MatchCards` | `itemmatches.dfy` | `ItemMatches.tsx` |
| `Navbar` | `navbar.dfy` | `Navbar.tsx` |
| `Text`, `Seqs`, `Sorting`, `Options` | | the string and sequence primitives the above share |

Where the code's own comments and its statements disagree, the model
follows the statements:

- The comments call `compareStrings` a "score between 0 and 1"
  (`localStorageDB.ts`, line 247) and its ratio the "Jaccard similarity
  coefficient" (line 263). But the loop counts every word of the first
  argument, repeated ones included. So with a repeated word the score can
  exceed 1 and is not symmetric, and so can `calculateSimilarity`. The model
  keeps this. It proves the [0, 1] bound, the Jaccard value and the symmetry
  only for duplicate-free tokens (`CompareStringsIsJaccard`), and it proves
  concrete inputs that break both (`CompareStringsCanExceedOne`,
  `SimilarityCanExceedOne`).
- An empty keyword list is truthy in JavaScript. So two reports that both
  carry `keywords: []` add weight 2 with score 0 (`EmptyKeywordListsStillWeigh`).
- When a pair is already on record, `saveMatch` keeps the old match. The
  notices still name the id of the match that was offered and dropped
  (`KnownPairLeavesDanglingMatchId`).

## Model

| member | source | states |
|---|---|---|
| Database.SaveUser | treasure-trace-platform-main/src/utils/localStorageDB.ts:45-50 | the account is appended and nothing else in the store changes |
| Database.GetUserById | treasure-trace-platform-main/src/utils/localStorageDB.ts:52-55 | `None` exactly when no account has the id; otherwise the earliest account with it |
| Database.GetUserByEmail | treasure-trace-platform-main/src/utils/localStorageDB.ts:57-60 | `None` exactly when no account has the address; otherwise the earliest account with it |
| Database.LoginUser | treasure-trace-platform-main/src/utils/localStorageDB.ts:62-70 | succeeds exactly when the earliest account with the address has that password; then the session holds it; a failure changes nothing |
| Database.LogoutUser | treasure-trace-platform-main/src/utils/localStorageDB.ts:77-79 | the session is cleared and nothing else changes |
| Database.SaveUserThenLookup | treasure-trace-platform-main/src/utils/localStorageDB.ts:45-60 | a new address is found right after saving; lookups of other addresses are unaffected |
| Database.LoginThenLogout | treasure-trace-platform-main/src/utils/localStorageDB.ts:62-79 | logging out after any login attempt leaves the same store as logging out |
| Database.LaterAccountCannotLogIn | treasure-trace-platform-main/src/utils/localStorageDB.ts:57-70 | when an earlier account already holds the address, a later account with it whose password differs from the earlier one's can never log in |
| Database.GetItemById | treasure-trace-platform-main/src/utils/localStorageDB.ts:106-109 | `None` exactly when no report has the id; otherwise the earliest report with it |
| Database.AppendedItemIsFound | treasure-trace-platform-main/src/utils/localStorageDB.ts:87-109 | a report appended under a new id is what a lookup of that id returns |
| Database.UpdateItem | treasure-trace-platform-main/src/utils/localStorageDB.ts:111-122 | an unknown id changes nothing and returns `None`; otherwise only the earliest report with the id is replaced |
| Database.UpdateThenGet | treasure-trace-platform-main/src/utils/localStorageDB.ts:106-122 | after an update, a lookup of the id returns the new version |
| Database.UpdateItemIdempotent | treasure-trace-platform-main/src/utils/localStorageDB.ts:111-122 | writing the same version twice equals writing it once |
| Database.GetItemsByUserId | treasure-trace-platform-main/src/utils/localStorageDB.ts:124-127 | exactly the stored reports of that user, in stored order and each as often as stored |
| Database.LostItems | treasure-trace-platform-main/src/utils/localStorageDB.ts:129-132 | exactly the stored lost reports, in stored order and each as often as stored |
| Database.FoundItems | treasure-trace-platform-main/src/utils/localStorageDB.ts:134-137 | exactly the stored found reports, in stored order and each as often as stored |
| Database.LostAndFoundPartition | treasure-trace-platform-main/src/utils/localStorageDB.ts:129-137 | the lost and the found reports together account for every report |
| Database.Raised | treasure-trace-platform-main/src/utils/localStorageDB.ts:306-313 | the kept match changes only its similarity, which becomes the larger of the two |
| Database.SaveMatch | treasure-trace-platform-main/src/utils/localStorageDB.ts:297-320 | a new pair is appended and returned; a known pair keeps its earliest match, whose similarity can only rise |
| Database.SaveMatchKeepsPairsUnique | treasure-trace-platform-main/src/utils/localStorageDB.ts:297-320 | saving never creates a second match for a (lost, found) pair |
| Database.SaveMatchRecordsPair | treasure-trace-platform-main/src/utils/localStorageDB.ts:297-320 | afterwards the pair is on record with at least the offered similarity; earlier matches stay in place and do not drop |
| Database.SaveKnownPairKeepsIds | treasure-trace-platform-main/src/utils/localStorageDB.ts:301-314 | offering a known pair adds no match and changes no match id |
| Database.SaveMatchIdempotent | treasure-trace-platform-main/src/utils/localStorageDB.ts:297-320 | offering the same match twice equals offering it once |
| Database.GetMatchesByItemId | treasure-trace-platform-main/src/utils/localStorageDB.ts:322-325 | exactly the matches with the item on either side, in stored order and each as often as stored |
| Database.MarkMatched | treasure-trace-platform-main/src/utils/localStorageDB.ts:337-348 | only the earliest report with the id becomes matched |
| Database.UpdateMatchStatus | treasure-trace-platform-main/src/utils/localStorageDB.ts:327-355 | an unknown id changes nothing; otherwise the earliest match takes the status; approval marks the earliest report of each side as matched; nothing else changes |
| Database.UpdateMatchStatusWrites | treasure-trace-platform-main/src/utils/localStorageDB.ts:327-355 | for a known id, the match table differs only in the earliest match with the id, which takes the status; approval marks exactly the earliest report with each side's id as matched, any other status leaves the reports as they were; accounts, notices and session are unchanged |
| Database.ApprovalMarksBothItems | treasure-trace-platform-main/src/utils/localStorageDB.ts:336-349 | after approval, each side of the match is absent or looks up as matched |
| Database.MarkedItemIsMatched | treasure-trace-platform-main/src/utils/localStorageDB.ts:337-348 | the earliest report with a marked id is a matched one |
| Database.UpdateMatchStatusIdempotent | treasure-trace-platform-main/src/utils/localStorageDB.ts:327-355 | setting the same status twice equals setting it once, items included |
| Database.UpdateMatchStatusAgain | treasure-trace-platform-main/src/utils/localStorageDB.ts:327-333 | the second update returns the match the first one wrote and leaves the match table as it was |
| Database.MarkMatchedTwice | treasure-trace-platform-main/src/utils/localStorageDB.ts:337-348 | marking the same two ids again changes nothing |
| Database.CreateNotification | treasure-trace-platform-main/src/utils/localStorageDB.ts:377-382 | the notice is appended and nothing else changes |
| Database.GetUserNotifications | treasure-trace-platform-main/src/utils/localStorageDB.ts:384-389 | exactly the user's notices, each as often as stored, newest first |
| Database.GetUserNotificationsKeepsTies | treasure-trace-platform-main/src/utils/localStorageDB.ts:384-389 | notices created at the same moment keep the order in which they were stored |
| Database.CreatedNotificationIsListed | treasure-trace-platform-main/src/utils/localStorageDB.ts:377-389 | a notice just created is in its addressee's list |
| Database.MarkNotificationAsRead | treasure-trace-platform-main/src/utils/localStorageDB.ts:391-399 | only the earliest notice with the id becomes read; an unknown id changes nothing |
| Database.MarkNotificationAsReadIdempotent | treasure-trace-platform-main/src/utils/localStorageDB.ts:391-399 | marking read twice equals marking once |
| Similarity.Overlap | treasure-trace-platform-main/src/utils/localStorageDB.ts:256-266 | never negative; 0 when either list is empty |
| Similarity.TokensShape | treasure-trace-platform-main/src/utils/localStorageDB.ts:249-254 | every token is lower case, longer than two characters and made of word characters; every such word of the lowered text is a token |
| Similarity.CompareStrings | treasure-trace-platform-main/src/utils/localStorageDB.ts:247-267 | never negative; 0 when either text has no word longer than two characters |
| Similarity.CompareStringsIsJaccard | treasure-trace-platform-main/src/utils/localStorageDB.ts:247-267 | when the first text repeats no word, the score is the Jaccard coefficient \|A∩B\|/\|A∪B\| of the two word sets, as the comment at line 263 says, and so at most 1 |
| Similarity.CompareKeywords | treasure-trace-platform-main/src/utils/localStorageDB.ts:270-280 | never negative; 0 when either list is empty |
| Similarity.CompareKeywordsIsJaccard | treasure-trace-platform-main/src/utils/localStorageDB.ts:270-280 | when the first list repeats no keyword, the score is the Jaccard coefficient of the two keyword sets, and so at most 1 |
| Similarity.OverlapIsJaccard | treasure-trace-platform-main/src/utils/localStorageDB.ts:256-266 | with a duplicate-free first list the ratio is \|A∩B\|/\|A∪B\| for the two lists' entry sets |
| Similarity.OverlapAtMostOne | treasure-trace-platform-main/src/utils/localStorageDB.ts:270-280 | with a duplicate-free first list the score is in [0, 1] |
| Similarity.OverlapSymmetric | treasure-trace-platform-main/src/utils/localStorageDB.ts:247-280 | with duplicate-free lists the score is \|A∩B\|/\|A∪B\| and does not depend on the order |
| Similarity.CompareStringsCanExceedOne | treasure-trace-platform-main/src/utils/localStorageDB.ts:248-267 | "phone phone" against "phone" scores 2, and the reverse scores 1 |
| Similarity.SubScore | treasure-trace-platform-main/src/utils/localStorageDB.ts:195-241 | an attribute is scored exactly when both reports populate it, and the score is never negative |
| Similarity.TextSubScores | treasure-trace-platform-main/src/utils/localStorageDB.ts:195-227 | the name, category, location and description sub-scores are `compareStrings` of the two fields |
| Similarity.BrandSubScore | treasure-trace-platform-main/src/utils/localStorageDB.ts:209-213 | the brand sub-score is `compareStrings` of the two brands |
| Similarity.AiDescriptionSubScore | treasure-trace-platform-main/src/utils/localStorageDB.ts:230-234 | the photo-description sub-score is `compareStrings` of the two descriptions |
| Similarity.KeywordsSubScore | treasure-trace-platform-main/src/utils/localStorageDB.ts:237-241 | the keyword sub-score is `compareKeywords` of the two lists |
| Similarity.CalculateSimilarity | treasure-trace-platform-main/src/utils/localStorageDB.ts:190-245 | the score is never negative |
| Similarity.TermBounds | treasure-trace-platform-main/src/utils/localStorageDB.ts:195-241 | each attribute adds at most its weight to the score when its sub-score is at most 1 |
| Similarity.SimilarityAtMostOne | treasure-trace-platform-main/src/utils/localStorageDB.ts:243-244 | the score is a weighted average: in [0, 1] when every sub-score is |
| Similarity.WeightOfPopulatedAttributes | treasure-trace-platform-main/src/utils/localStorageDB.ts:195-241 | the denominator is the summed weight (3, 2, 2.5, 1.5, 1, 1.5, 2) of the attributes both reports populate |
| Similarity.NothingSharedScoresZero | treasure-trace-platform-main/src/utils/localStorageDB.ts:244 | reports that share no populated attribute score 0 |
| Similarity.DistinctTokensScoreAtMostOne | treasure-trace-platform-main/src/utils/localStorageDB.ts:190-280 | without repeated tokens in the first report, every sub-score and the score lie in [0, 1] |
| Similarity.SimilaritySymmetric | treasure-trace-platform-main/src/utils/localStorageDB.ts:190-280 | without repeated tokens on either side, swapping the reports keeps the score |
| Similarity.TermSymmetric | treasure-trace-platform-main/src/utils/localStorageDB.ts:195-241 | one attribute's contribution is symmetric for duplicate-free token lists |
| Similarity.SparseReportsScoreOne | treasure-trace-platform-main/src/utils/localStorageDB.ts:190-245 | two reports that share only the category "Electronics" score 1, because missing attributes do not count |
| Similarity.OnlyCategoriesPopulated | treasure-trace-platform-main/src/utils/localStorageDB.ts:201-244 | with only categories on both sides, the score is the category sub-score |
| Similarity.OnlyNamesPopulated | treasure-trace-platform-main/src/utils/localStorageDB.ts:194-244 | with only names on both sides, the score is the name sub-score |
| Similarity.EmptyKeywordListsStillWeigh | treasure-trace-platform-main/src/utils/localStorageDB.ts:236-244 | empty keyword lists on both sides add weight 2 with score 0: the score is 3/5 of the name sub-score |
| Similarity.SimilarityCanExceedOne | treasure-trace-platform-main/src/utils/localStorageDB.ts:190-267 | a repeated name word scores 2 one way and 1 the other |
| Similarity.BlueBackpackExample | treasure-trace-platform-main/src/utils/localStorageDB.ts:190-267 | equal names and categories, with "Library" against "Library Cafe", score 5.75 / 6.5 |
| Similarity.ThreeTextsPopulated | treasure-trace-platform-main/src/utils/localStorageDB.ts:194-244 | with name, category and location on both sides, the score is (3x + 2y + 1.5z) / 6.5 for the name, category and location sub-scores x, y, z |
| Similarity.LibraryLocations | treasure-trace-platform-main/src/utils/localStorageDB.ts:248-267 | "Library" against "Library Cafe" scores one shared word of two |
| Matching.AllPairs | treasure-trace-platform-main/src/utils/localStorageDB.ts:142-145 | every pair comes from the two lists and every combination is visited |
| Matching.CheckPair | treasure-trace-platform-main/src/utils/localStorageDB.ts:146-184 | a qualifying pair ends up on record with its score; both owners get an unread notice naming the offered match id; the match table changes only by that offer; pairs stay unique |
| Matching.CheckPairs | treasure-trace-platform-main/src/utils/localStorageDB.ts:144-186 | two unread match notices are appended per qualifying pair; users, items and session are unchanged |
| Matching.CheckPairsKeepsPairsUnique | treasure-trace-platform-main/src/utils/localStorageDB.ts:140-187 | matching never stores a second match for a pair |
| Matching.CheckPairsOnlyOffers | treasure-trace-platform-main/src/utils/localStorageDB.ts:140-187 | every earlier match stays in place; a match that is new or whose similarity changed comes from one of the loop's offers, at that offer's score |
| Matching.Offers | treasure-trace-platform-main/src/utils/localStorageDB.ts:146-160 | the loop makes one offer per pair scoring at least 0.4 |
| Matching.OffersQualify | treasure-trace-platform-main/src/utils/localStorageDB.ts:146-160 | each offer is a pending match, made now, for a pair scoring at least 0.4, at that pair's score |
| Matching.SaveMatchOnlyOffers | treasure-trace-platform-main/src/utils/localStorageDB.ts:297-320 | saving one match changes the table only by that match: it is appended, or the kept match of its pair takes its score |
| Matching.CheckPairsRecordsQualifying | treasure-trace-platform-main/src/utils/localStorageDB.ts:146-160 | every pair scoring at least 0.4 ends up on record with at least its score |
| Matching.CheckPairsNotifiesBothOwners | treasure-trace-platform-main/src/utils/localStorageDB.ts:162-183 | both owners of every qualifying pair get an unread notice about their report |
| Matching.NothingQualifiesNothingChanges | treasure-trace-platform-main/src/utils/localStorageDB.ts:148-149 | when no pair reaches 0.4, the store is unchanged |
| Matching.KnownPairLeavesDanglingMatchId | treasure-trace-platform-main/src/utils/localStorageDB.ts:151-180 | for a pair already on record, the notices name a match id that is not in the table |
| Matching.CheckForMatches | treasure-trace-platform-main/src/utils/localStorageDB.ts:140-187 | users, items and session are unchanged; earlier notices are kept and exactly two unread match notices are appended per pair scoring at least 0.4; earlier matches are kept, and the match table changes only by offers for such pairs |
| Matching.SaveItem | treasure-trace-platform-main/src/utils/localStorageDB.ts:87-104 | the report is appended; earlier notices are kept and exactly two unread match notices are appended per pair of the new report with a stored opposite report that scores at least 0.4; earlier matches are kept, and the match table changes only by offers for those pairs |
| Matching.SaveItemKeepsPairsUnique | treasure-trace-platform-main/src/utils/localStorageDB.ts:87-104 | saving a report never stores a second match for a pair |
| Matching.SaveItemMatchesOppositeReports | treasure-trace-platform-main/src/utils/localStorageDB.ts:94-101 | a stored report of the opposite kind scoring at least 0.4 is on record afterwards, and both owners are notified |
| Matching.OppositePairListed | treasure-trace-platform-main/src/utils/localStorageDB.ts:95-101 | every stored report of the opposite kind is paired with the new one, lost side first |
| Matching.PairsFor | treasure-trace-platform-main/src/utils/localStorageDB.ts:95-101 | a new lost report is paired, as the lost side, with stored found reports only; a new found report, as the found side, with stored lost reports only |
| ItemForm.KeywordsOf | treasure-trace-platform-main/src/components/lost-found/ItemForm.tsx:137-146 | duplicate-free, non-empty and lower case; each keyword is a lowered non-empty candidate, each non-empty candidate's lowered form is a keyword, and keywords keep the order of their first occurrence among the candidates |
| ItemForm.GenerateKeywords | treasure-trace-platform-main/src/components/lost-found/ItemForm.tsx:136-147 | the same, for name, category, brand, location and the long description and feature words, in that order |
| ItemForm.NameIsFirstKeyword | treasure-trace-platform-main/src/components/lost-found/ItemForm.tsx:137-146 | a named report's first keyword is its lowered name |
| ItemForm.KeywordScoreAtMostOne | treasure-trace-platform-main/src/components/lost-found/ItemForm.tsx:146 | form keywords are duplicate-free, so comparing them scores in [0, 1] |
| ItemForm.OwnerId | treasure-trace-platform-main/src/components/lost-found/ItemForm.tsx:60-64 | the logged-in user, else a `demo-user-` account |
| ItemForm.NewItem | treasure-trace-platform-main/src/components/lost-found/ItemForm.tsx:67-102 | blank optional fields become undefined; the time falls back to the clock; reward is the "yes" answer; with a photo the description is the classifier's text, or "" without one, and without a photo it is ""; the keywords are the form's |
| ItemForm.Optional | treasure-trace-platform-main/src/components/lost-found/ItemForm.tsx:90-95 | a blank field is left out, any other is kept as typed |
| ItemForm.HandleSubmit | treasure-trace-platform-main/src/components/lost-found/ItemForm.tsx:104-121 | the report is stored; earlier matches and notices are kept, the match table changes only by offers for the new report's pairs scoring at least 0.4, and exactly two unread match notices are appended per such pair; a lost report opens its match search, a found one the dashboard |
| ItemForm.SubmittedReportIsStored | treasure-trace-platform-main/src/components/lost-found/ItemForm.tsx:84-105 | a report submitted under a new id is what a lookup of that id returns |
| Images.AnalyzeImage | treasure-trace-platform-main/src/utils/imageRecognition.ts:47-62 | one match per prediction with its label and score, missing ones read as "" and 0; the top match is the first, absent exactly when there is none |
| Images.AnalyzeImageConfidences | treasure-trace-platform-main/src/utils/imageRecognition.ts:48-51 | raw scores that are probabilities give confidences in [0, 1] |
| Images.CompareImages | treasure-trace-platform-main/src/utils/imageRecognition.ts:73-107 | at most 1; 0 unless both images have a top match; with different top labels, half the summed confidence products of every pair of equal labels, capped at 1 |
| Images.EqualTopLabelsScore | treasure-trace-platform-main/src/utils/imageRecognition.ts:83-88 | agreeing top labels score 0.8 plus a fifth of the product of their confidences, which lies between 0.8 and 1 |
| Images.CompareImagesInUnitRange | treasure-trace-platform-main/src/utils/imageRecognition.ts:73-107 | the score lies in [0, 1] for confidences in [0, 1] |
| Images.PairSumSymmetric | treasure-trace-platform-main/src/utils/imageRecognition.ts:91-98 | the partial score's double sum does not depend on the order of the images |
| Images.CompareImagesSymmetric | treasure-trace-platform-main/src/utils/imageRecognition.ts:73-107 | comparing two images gives the same score in either order |
| Images.FindPotentialMatches | treasure-trace-platform-main/src/utils/imageRecognition.ts:110-135 | best first; a permutation of the candidates' scores reaching 0.65: every result is a candidate with its score of at least 0.65, every such candidate is a result, and each score appears as often as among the candidates |
| Images.PotentialMatchesFromCandidates | treasure-trace-platform-main/src/utils/imageRecognition.ts:127-130 | every filtered, sorted score is a candidate's score reaching 0.65, and every candidate reaching 0.65 is among them |
| Images.PotentialMatchesCounted | treasure-trace-platform-main/src/utils/imageRecognition.ts:127-130 | the filtered, sorted scores hold each score reaching 0.65 exactly as often as the candidates' scores do, and no other |
| Images.GenerateImageDescription | treasure-trace-platform-main/src/utils/imageRecognition.ts:138-164 | "Unrecognized item" without a top match; one class gives "This appears to be a" and the lowered label; more classes start the same way |
| Images.DescriptionUsesThreeClasses | treasure-trace-platform-main/src/utils/imageRecognition.ts:146-159 | only the three most confident classes are described |
| Search.ResultFor | treasure-trace-platform-main/src/pages/MatchSearch.tsx:122-135 | a displayed result has a `match-` id, the given score and the report's summary |
| Search.Summarize | treasure-trace-platform-main/src/pages/MatchSearch.tsx:125-134 | the summary keeps the report's id, uses the placeholder without an image, and is reported by "Anonymous User" |
| Search.DescriptionSignal | treasure-trace-platform-main/src/pages/MatchSearch.tsx:113-119 | 0.03 per shared long description word, never above 0.15 |
| Search.AdditiveScore | treasure-trace-platform-main/src/pages/MatchSearch.tsx:91-119 | the additive score lies in [0, 1] |
| Search.ShownPairHasTwoSignals | treasure-trace-platform-main/src/pages/MatchSearch.tsx:91-121 | no single signal reaches 0.4, so a shown pair agrees on at least two of name, category, location, brand and description |
| Search.EmptyNameAlwaysSignals | treasure-trace-platform-main/src/pages/MatchSearch.tsx:94-97 | an empty name is contained in every name, so it always earns 0.3 |
| Search.Scored | treasure-trace-platform-main/src/pages/MatchSearch.tsx:91-139 | at most one result per candidate, each at or above the threshold with a `match-` id |
| Search.ScoredSound | treasure-trace-platform-main/src/pages/MatchSearch.tsx:87-139 | every result shows an eligible candidate with its score |
| Search.ScoredComplete | treasure-trace-platform-main/src/pages/MatchSearch.tsx:87-139 | every eligible candidate at or above the threshold is shown, at the returned position |
| Search.ExistingMatchesFor | treasure-trace-platform-main/src/pages/MatchSearch.tsx:87-139 | every result shows an open report of the other kind, scoring at least 0.4 |
| Search.ExistingMatchesComplete | treasure-trace-platform-main/src/pages/MatchSearch.tsx:87-139 | every open report of the other kind scoring at least 0.4 is shown |
| Search.FindExistingMatches | treasure-trace-platform-main/src/pages/MatchSearch.tsx:81-140 | an unknown id finds nothing; otherwise the matches of the report with that id |
| Search.MatchedTerms | treasure-trace-platform-main/src/pages/MatchSearch.tsx:206 | at most the number of terms; positive exactly when some term occurs |
| Search.SearchTermsShape | treasure-trace-platform-main/src/pages/MatchSearch.tsx:187 | every term is lower case, longer than two characters and free of spaces; every such part of the lowered query is a term |
| Search.ItemTextHoldsFields | treasure-trace-platform-main/src/pages/MatchSearch.tsx:199-206 | the searched text is lower case and holds the lowered name, description, category and brand, in that order, one space apart |
| Search.TextSimilarity | treasure-trace-platform-main/src/pages/MatchSearch.tsx:207-211 | a text hit scores above 0.3 and at most 1 |
| Search.TextHitShownIff | treasure-trace-platform-main/src/pages/MatchSearch.tsx:207-211 | a text hit is shown exactly when at least one in seven terms matched |
| Search.TextScore | treasure-trace-platform-main/src/pages/MatchSearch.tsx:199-211 | in (0.3, 1] for a report containing a term, otherwise 0 |
| Search.TextResults | treasure-trace-platform-main/src/pages/MatchSearch.tsx:199-223 | every result shows a report containing a term, with its text score |
| Search.TextResultsComplete | treasure-trace-platform-main/src/pages/MatchSearch.tsx:199-223 | every report containing a term is shown |
| Search.TextSearch | treasure-trace-platform-main/src/pages/MatchSearch.tsx:186-226 | aborts exactly when no term is longer than two characters |
| Search.ImageScore | treasure-trace-platform-main/src/pages/MatchSearch.tsx:238-259 | at most 1, and at least 0.5 for a hit |
| Search.ImageSearch | treasure-trace-platform-main/src/pages/MatchSearch.tsx:228-267 | nothing without a top match; otherwise every result shows a report with an image scoring at least 0.5 |
| Search.ImageSearchComplete | treasure-trace-platform-main/src/pages/MatchSearch.tsx:236-265 | with a classified image, every report whose image scores at least 0.5 is shown |
| Search.SidesFollowSelectedKind | treasure-trace-platform-main/src/pages/MatchSearch.tsx:152-153 | the selected report is on its own side of a saved match and the result's report on the other |
| Search.SaveResults | treasure-trace-platform-main/src/pages/MatchSearch.tsx:148-159 | only the match table changes; earlier matches are kept, and the table changes only by offers for the saved results' pairs at their scores |
| Search.ResultOffers | treasure-trace-platform-main/src/pages/MatchSearch.tsx:150-157 | one pending offer per shown result, made now under a fresh id, with the selected report on its own side and the result's score |
| Search.SaveResultsRecords | treasure-trace-platform-main/src/pages/MatchSearch.tsx:148-159 | every saved result's pair ends up on record with at least its score |
| Search.SaveResultsKeepsPairsUnique | treasure-trace-platform-main/src/pages/MatchSearch.tsx:148-159 | saving shown results never stores a second match for a pair |
| Search.ShownResults | treasure-trace-platform-main/src/pages/MatchSearch.tsx:143-147 | a best-first permutation of exactly the results at or above 0.4 |
| Sorting.SortDescStable | treasure-trace-platform-main/src/pages/MatchSearch.tsx:146 | the sort is stable: results with the same score keep their order |
| Search.FormatAndDisplayMatches | treasure-trace-platform-main/src/pages/MatchSearch.tsx:142-165 | shows the results at or above 0.4, best first; with a selected report each is also on record; otherwise the store is untouched |
| Search.SearchPool | treasure-trace-platform-main/src/pages/MatchSearch.tsx:182-184 | exactly the stored reports of the other kind when a report is selected, otherwise all stored reports; in stored order and each as often as stored |
| Search.PoolOfOtherKind | treasure-trace-platform-main/src/pages/MatchSearch.tsx:182-184 | results drawn from a selected report's pool show stored reports of the other kind |
| Search.RunSearch | treasure-trace-platform-main/src/pages/MatchSearch.tsx:186-285 | results come from the pool; every result shows a hit of the chosen tab with its score, and every hit is shown; the text tab aborts exactly without terms, the image tab exactly without a classified image |
| Search.TextTabFindsHits | treasure-trace-platform-main/src/pages/MatchSearch.tsx:186-226 | a text search with terms shows exactly the pool's reports containing a term, each with its text score |
| Search.ImageTabFindsHits | treasure-trace-platform-main/src/pages/MatchSearch.tsx:228-267 | an image search with a classified image shows exactly the pool's reports whose image scores at least 0.5, each with that score |
| Search.DisplayedHits | treasure-trace-platform-main/src/pages/MatchSearch.tsx:143-147 | every hit at or above 0.4 passes the display filter |
| Search.HandleSearch | treasure-trace-platform-main/src/pages/MatchSearch.tsx:177-296 | shows results at or above 0.4, best first, of the other kind when a report is selected; every shown result is a report of the pool that the search finds, with that report's own score, and every report of the pool that the search finds at 0.4 or more is shown with its score; with a selected report the match table changes only by offers for the shown results; an aborted search shows nothing and changes nothing |
| Search.ShowSearch | treasure-trace-platform-main/src/pages/MatchSearch.tsx:199-267 | a search that does not stop early shows, best first, only the pool's hits at or above 0.4, each with its own score, and every such hit; with a selected report the match table changes only by offers for the shown results |
| Search.Without | treasure-trace-platform-main/src/pages/MatchSearch.tsx:309 | exactly the displayed results with another id, in order and each as often as shown |
| Search.HandleFeedback | treasure-trace-platform-main/src/pages/MatchSearch.tsx:298-311 | approval removes exactly the results with that id from the display; for a stored id, the earliest match with it takes approved or rejected status and approval marks both its reports, as `updateMatchStatus` does; rejection keeps the display; an unknown id changes no record |
| Search.DisplayedIdsNameNoStoredMatch | treasure-trace-platform-main/src/pages/MatchSearch.tsx:298-311 | feedback on a displayed result changes nothing when no stored match id starts with `match-` |
| Search.HandleSendMessage | treasure-trace-platform-main/src/pages/MatchSearch.tsx:328-405 | the checks run in the source's order and each outcome holds exactly when its check is the first to fail: blank text or a missing selection, then no session, then an unknown report, each changing nothing; otherwise an unread notice to the owner with the sender's contact details, a read copy for the sender, the stored match with the selected id approved, and the result leaves the display |
| Search.DeliverMessage | treasure-trace-platform-main/src/pages/MatchSearch.tsx:358-397 | sending appends an unread notice to the report's owner with the sender's address and name and a read copy for the sender, approves the stored match with that id as `updateMatchStatus` does, keeps the accounts and session, and removes exactly the results with that id from the display |
| Search.OwnerMessage | treasure-trace-platform-main/src/pages/MatchSearch.tsx:359-371 | the owner's notice is unread, names the report and the match, quotes the message and carries the sender's name and address |
| Search.SenderCopy | treasure-trace-platform-main/src/pages/MatchSearch.tsx:373-384 | the sender's copy is read and quotes the message; without an owner id it shows "Item Owner" and an empty address, otherwise the details of the earliest account with the owner's id, and none when no account has it |
| Signup.HandleSignup | treasure-trace-platform-main/src/pages/Signup.tsx:24-65 | mismatched passwords, then a taken address, are refused without change; otherwise exactly one account is appended |
| Signup.SignupKeepsEmailsDistinct | treasure-trace-platform-main/src/pages/Signup.tsx:42-65 | signing up never gives two accounts the same address |
| Signup.SignupThenLogin | treasure-trace-platform-main/src/pages/Signup.tsx:56-65 | a new account can log in at once with its password |
| Signup.SignupTwiceIsRefused | treasure-trace-platform-main/src/pages/Signup.tsx:42-54 | a registered address is refused the second time |
| MatchCards.SimilarityLabel | treasure-trace-platform-main/src/components/lost-found/ItemMatches.tsx:58-63 | strong from 0.9, good from 0.75, possible from 0.65, else weak |
| MatchCards.LabelMonotone | treasure-trace-platform-main/src/components/lost-found/ItemMatches.tsx:58-63 | a higher score never earns a weaker label |
| MatchCards.ImageMatchesAreNotWeak | treasure-trace-platform-main/src/components/lost-found/ItemMatches.tsx:61-62 | every image match at the 0.65 threshold is at least a possible match, and every lower score is weak |
| MatchCards.ToggleExpand | treasure-trace-platform-main/src/components/lost-found/ItemMatches.tsx:42-44 | the card becomes expanded exactly when it was not, and no other card is expanded |
| MatchCards.ToggleTwice | treasure-trace-platform-main/src/components/lost-found/ItemMatches.tsx:42-44 | toggling twice restores the state, unless another card was expanded |
| MatchCards.ViewDescription | treasure-trace-platform-main/src/components/lost-found/ItemMatches.tsx:122-134 | clamped unless expanded; a button only above 120 characters, reading "Show less" exactly when expanded |
| MatchCards.ToggleFlipsCaption | treasure-trace-platform-main/src/components/lost-found/ItemMatches.tsx:126-133 | pressing a long card's button flips its caption |
| MatchCards.AvatarFallback | treasure-trace-platform-main/src/components/lost-found/ItemMatches.tsx:136-143 | no avatar without a reporter; otherwise at most one letter per space-separated part |
| MatchCards.TwoWordReporterAvatar | treasure-trace-platform-main/src/components/lost-found/ItemMatches.tsx:136-143 | a two-word reporter name, such as "Anonymous User", shows the first letters of both words, not upper-cased |
| Navbar.AtMostOneActiveLink | treasure-trace-platform-main/src/components/layout/Navbar.tsx:51-61 | the links have distinct paths, so at most one is highlighted |
| Navbar.IsActive | treasure-trace-platform-main/src/components/layout/Navbar.tsx:59-61 | the exact current path highlights a link; a path of another length, such as a sub-page, does not |
| Navbar.GetInitials | treasure-trace-platform-main/src/components/layout/Navbar.tsx:74-76 | the upper-cased first letter of every non-empty space-separated part |
| Navbar.GetInitialsOfWord | treasure-trace-platform-main/src/components/layout/Navbar.tsx:74-76 | a name without spaces gives its first letter upper-cased; the empty name gives nothing |
| Navbar.GetInitialsStep | treasure-trace-platform-main/src/components/layout/Navbar.tsx:74-76 | a space-free word, a space and the rest give the word's upper-cased first letter followed by the rest's initials |
| Navbar.GetInitialsOfFullName | treasure-trace-platform-main/src/components/layout/Navbar.tsx:74-76 | a first and last name give their two upper-cased initials |
| Navbar.GetInitialsSkipsEmptyParts | treasure-trace-platform-main/src/components/layout/Navbar.tsx:74-76 | a doubled space adds no letter |
| Text.SplitSpaceJoinRoundTrip | treasure-trace-platform-main/src/components/layout/Navbar.tsx:75 | splitting on the space and joining with a space gives back the string |
| Text.ContainsAtOffset | treasure-trace-platform-main/src/pages/MatchSearch.tsx:94-95 | `includes` holds exactly when the text occurs at some offset |
| Text.LongerThan | treasure-trace-platform-main/src/utils/localStorageDB.ts:253-254 | exactly the parts longer than the bound |
| Text.WordsShape | treasure-trace-platform-main/src/utils/localStorageDB.ts:253-254 | every token is longer than the bound and free of separators |

## Left out

- Storage I/O: reading and writing local storage and JSON round-trips are not modelled. The store is a value, and a missing key reads as an empty list.
- Randomness and the clock: `generateId`, `Math.random` and `new Date()` become the parameters `ids`, `Env` and `now`. Every timestamp of one call is the same value, and ISO timestamps are integers.
- The UI around the logic: React state, effects, toasts, navigation, the 800 ms delay and rendering are not modelled. Handlers take their state as parameters and return it.
- The automatic search when the page opens (`MatchSearch.tsx`, lines 45-79): the tab and query it picks are left out. Both search paths it triggers are modelled.
- The image classifier: the vision model is outside the application. Its predictions are the input of `AnalyzeImage`, and each image's analysis is the parameter `analysisOf`. Feature vectors are not modelled.
- Error handlers: the `catch` branches that log and show a toast are left out. So are the fallback answers of `analyzeImage`, `compareImages` and `generateImageDescription` when the model throws.
- Numbers: scores are exact reals rather than IEEE doubles. `Math.round` for percentages is the parameter `percent`. `toLocaleDateString`, `toLocaleTimeString` and the picked-date formatting are inputs.
- Text: characters are ASCII for case mapping and for `\w` and `\s`. Unicode case folding and UTF-16 code units are not modelled.
- Regex splits: `split(/\W+/)` and `split(/\s+/)` become a split at each separator followed by the length filter. The two give the same tokens, because a run of separators only adds empty parts and the filter drops those.
- Form attributes: HTML `required` fields and the date picker are not modelled. Any text may be blank.
- `handleContactOwner` and `handleViewDetails` only set dialog state and are not modelled. Their selection is the input of `HandleSendMessage`.
- Images.GenerateImageDescription: for two or more classes it states the common prefix and the number of classes used (`DescriptionUsesThreeClasses`), not the full text. The confidence percentages depend on `Math.round`, which is a parameter.
- MatchCards.AvatarFallback: states only that there is at most one letter per part. The letters themselves are stated for two-word names (`TwoWordReporterAvatar`), the only kind the search page produces.
- Similarity.OverlapSymmetric and Similarity.SimilaritySymmetric: symmetry is proved only for duplicate-free token lists, because the code is not symmetric otherwise (`CompareStringsCanExceedOne`).
- Similarity.SimilarityAtMostOne: the [0, 1] bound holds only when every sub-score is at most 1. Repeated words break it (`SimilarityCanExceedOne`).

=== FILE: database.dfy ===
/** The local-storage database: registered users and the session, lost and
    found reports, proposed matches and notifications. Every operation takes
    the whole store and gives back the store it leaves behind, paired with
    what the application function returns. A missing record is `None` where
    the application returns `undefined` or `null`. */
module Database {
  import opened Options
  import opened Records
  import opened Seqs
  import opened Sorting

  // Keys by which records are looked up.

  function UserId(u: User): string { u.id }
  function UserEmail(u: User): string { u.email }
  function ItemId(x: Item): string { x.id }
  function MatchId(m: Match): string { m.id }
  function NotificationId(n: Notification): string { n.id }

  /** The (lost item, found item) pair a match is about. */
  function PairOf(m: Match): (string, string) { (m.lostItemId, m.foundItemId) }

  /** Notifications are shown newest first. */
  function CreatedKey(n: Notification): real { n.createdAt as real }

  // ---------------------------------------------------------------- users

  function SaveUser(st: Store, u: User): (r: Store)
    ensures r.users == st.users + [u]
    ensures r.(users := st.users) == st
  {
    st.(users := st.users + [u])
  }

  /** `users.find(user => user.id === id)`. */
  function GetUserById(st: Store, id: string): (r: Option<User>)
    ensures r.None? <==> !HasKey(st.users, UserId, id)
    ensures r.Some? ==> exists i :: FirstWith(st.users, UserId, id, i) && st.users[i] == r.value
  {
    match IndexOfKey(st.users, UserId, id)
    case None => None
    case Some(i) => Some(st.users[i])
  }

  /** `users.find(user => user.email === email)`: the earliest account with
      that address, when several share it. */
  function GetUserByEmail(st: Store, email: string): (r: Option<User>)
    ensures r.None? <==> !HasKey(st.users, UserEmail, email)
    ensures r.Some? ==> exists i :: FirstWith(st.users, UserEmail, email, i) && st.users[i] == r.value
  {
    match IndexOfKey(st.users, UserEmail, email)
    case None => None
    case Some(i) => Some(st.users[i])
  }

  /** Logs in when the earliest account with that email has exactly that
      password; the session then holds that account. A failed attempt
      changes nothing. */
  function LoginUser(st: Store, email: string, password: string): (r: (Option<User>, Store))
    ensures r.0.Some? <==>
      exists i :: FirstWith(st.users, UserEmail, email, i) && st.users[i].password == Some(password)
    ensures r.0.Some? ==> r.0.value in st.users && r.0.value.email == email
    ensures r.0.Some? ==> r.1 == st.(currentUser := r.0)
    ensures r.0.None? ==> r.1 == st
  {
    match GetUserByEmail(st, email)
    case Some(u) =>
      if u.password == Some(password) then (Some(u), st.(currentUser := Some(u)))
      else (None, st)
    case None => (None, st)
  }

  function LogoutUser(st: Store): (r: Store)
    ensures r.currentUser.None?
    ensures r.(currentUser := st.currentUser) == st
  {
    st.(currentUser := None)
  }

  /** A freshly registered address is found by the next lookup, and earlier
      lookups of other addresses are unaffected. */
  lemma SaveUserThenLookup(st: Store, u: User, email: string)
    requires !HasKey(st.users, UserEmail, u.email)
    ensures GetUserByEmail(SaveUser(st, u), u.email) == Some(u)
    ensures email != u.email ==> GetUserByEmail(SaveUser(st, u), email) == GetUserByEmail(st, email)
  {
    var users := st.users + [u];
    assert users[|st.users|] == u;
    if email != u.email {
      var before := GetUserByEmail(st, email);
      var now := GetUserByEmail(SaveUser(st, u), email);
      if before.Some? {
        var k :| FirstWith(st.users, UserEmail, email, k) && st.users[k] == before.value;
        assert users[k] == st.users[k];
        var m :| FirstWith(users, UserEmail, email, m) && users[m] == now.value;
        assert FirstWith(users, UserEmail, email, k);
        FirstWithUnique(users, UserEmail, email, k, m);
      } else {
        assert !HasKey(users, UserEmail, email) by {
          forall j | 0 <= j < |users| ensures users[j].email != email {
            if j < |st.users| { assert users[j] == st.users[j]; }
          }
        }
      }
    }
  }

  /** Logging out after logging in leaves the same store as logging out. */
  lemma LoginThenLogout(st: Store, email: string, password: string)
    ensures LogoutUser(LoginUser(st, email, password).1) == LogoutUser(st)
  {
  }

  /** Only the earliest account with an address can log in: a later account
      registered with the same address is unreachable with its own password
      unless that is also the earliest account's password. */
  lemma LaterAccountCannotLogIn(st: Store, i: int, j: int, password: string)
    requires 0 <= i < j < |st.users| && FirstWith(st.users, UserEmail, st.users[j].email, i)
    requires st.users[j].password == Some(password) && st.users[i].password != Some(password)
    ensures LoginUser(st, st.users[j].email, password).0.None?
  {
  }

  // ---------------------------------------------------------------- items

  /** `items.find(item => item.id === id)`. */
  function GetItemById(st: Store, id: string): (r: Option<Item>)
    ensures r.None? <==> !HasKey(st.items, ItemId, id)
    ensures r.Some? ==> exists i :: FirstWith(st.items, ItemId, id, i) && st.items[i] == r.value
  {
    match IndexOfKey(st.items, ItemId, id)
    case None => None
    case Some(i) => Some(st.items[i])
  }

  /** A report appended under an id no stored report has is what a lookup
      of that id finds. */
  lemma AppendedItemIsFound(st: Store, after: Store, x: Item)
    requires !HasKey(st.items, ItemId, x.id)
    requires after.items == st.items + [x]
    ensures GetItemById(after, x.id) == Some(x)
  {
    var n := |st.items|;
    forall j | 0 <= j < n ensures after.items[j].id != x.id {
      assert after.items[j] == st.items[j];
    }
    assert FirstWith(after.items, ItemId, x.id, n);
    var i :| FirstWith(after.items, ItemId, x.id, i) && after.items[i] == GetItemById(after, x.id).value;
    FirstWithUnique(after.items, ItemId, x.id, i, n);
  }

  /** Replaces the earliest item with the same id; an unknown id changes
      nothing and returns `None`. */
  function UpdateItem(st: Store, item: Item): (r: (Option<Item>, Store))
    ensures r.0.None? <==> !HasKey(st.items, ItemId, item.id)
    ensures r.0.None? ==> r.1 == st
    ensures r.0.Some? ==> (r.0.value == item &&
      exists k :: FirstWith(st.items, ItemId, item.id, k) && r.1 == st.(items := st.items[k := item]))
  {
    match IndexOfKey(st.items, ItemId, item.id)
    case None => (None, st)
    case Some(k) => (Some(item), st.(items := st.items[k := item]))
  }

  /** After an update, looking the id up yields the new version. */
  lemma UpdateThenGet(st: Store, item: Item)
    requires HasKey(st.items, ItemId, item.id)
    ensures GetItemById(UpdateItem(st, item).1, item.id) == Some(item)
  {
    var s2 := UpdateItem(st, item).1;
    var k :| FirstWith(st.items, ItemId, item.id, k) && s2 == st.(items := st.items[k := item]);
    assert FirstWith(s2.items, ItemId, item.id, k);
    var r := GetItemById(s2, item.id);
    var m :| FirstWith(s2.items, ItemId, item.id, m) && s2.items[m] == r.value;
    FirstWithUnique(s2.items, ItemId, item.id, k, m);
  }

  /** Writing the same version twice is the same as writing it once. */
  lemma UpdateItemIdempotent(st: Store, item: Item)
    ensures UpdateItem(UpdateItem(st, item).1, item).1 == UpdateItem(st, item).1
  {
    var s2 := UpdateItem(st, item).1;
    if HasKey(st.items, ItemId, item.id) {
      var k :| FirstWith(st.items, ItemId, item.id, k) && s2 == st.(items := st.items[k := item]);
      assert FirstWith(s2.items, ItemId, item.id, k);
      var s3 := UpdateItem(s2, item).1;
      var m :| FirstWith(s2.items, ItemId, item.id, m) && s3 == s2.(items := s2.items[m := item]);
      FirstWithUnique(s2.items, ItemId, item.id, k, m);
    }
  }

  function GetItemsByUserId(st: Store, userId: string): (r: seq<Item>)
    ensures forall i :: 0 <= i < |r| ==> r[i].userId == userId && r[i] in st.items
    ensures forall i :: 0 <= i < |st.items| && st.items[i].userId == userId ==> st.items[i] in r
    ensures Subsequence(r, st.items)
    ensures forall x :: Occurrences(r, x) == if x.userId == userId then Occurrences(st.items, x) else 0
  {
    var p := (x: Item) => x.userId == userId;
    FilterMeetsContract(st.items, p);
    Filter(st.items, p)
  }

  function LostItems(st: Store): (r: seq<Item>)
    ensures forall i :: 0 <= i < |r| ==> r[i].kind == Lost && r[i] in st.items
    ensures forall i :: 0 <= i < |st.items| && st.items[i].kind == Lost ==> st.items[i] in r
    ensures Subsequence(r, st.items)
    ensures forall x :: Occurrences(r, x) == if x.kind == Lost then Occurrences(st.items, x) else 0
  {
    var p := (x: Item) => x.kind == Lost;
    FilterMeetsContract(st.items, p);
    Filter(st.items, p)
  }

  function FoundItems(st: Store): (r: seq<Item>)
    ensures forall i :: 0 <= i < |r| ==> r[i].kind == Found && r[i] in st.items
    ensures forall i :: 0 <= i < |st.items| && st.items[i].kind == Found ==> st.items[i] in r
    ensures Subsequence(r, st.items)
    ensures forall x :: Occurrences(r, x) == if x.kind == Found then Occurrences(st.items, x) else 0
  {
    var p := (x: Item) => x.kind == Found;
    FilterMeetsContract(st.items, p);
    Filter(st.items, p)
  }

  /** Every report is either a lost one or a found one. */
  lemma LostAndFoundPartition(st: Store)
    ensures |LostItems(st)| + |FoundItems(st)| == |st.items|
  {
    FilterSplits(st.items, (x: Item) => x.kind == Lost, (x: Item) => x.kind == Found);
  }

  // -------------------------------------------------------------- matches

  /** No two stored matches are about the same (lost, found) pair. */
  ghost predicate UniquePairs(ms: seq<Match>) {
    forall i, j :: 0 <= i < j < |ms| ==> PairOf(ms[i]) != PairOf(ms[j])
  }

  /** The existing match for a pair keeps its id, status and creation time
      and takes the higher of the two similarities. */
  function Raised(existing: Match, m: Match): (r: Match)
    ensures r.similarity >= existing.similarity && r.similarity >= m.similarity
    ensures r.similarity == existing.similarity || r.similarity == m.similarity
    ensures r.(similarity := existing.similarity) == existing
  {
    if existing.similarity < m.similarity then existing.(similarity := m.similarity) else existing
  }

  /** Records a proposed match. A new pair is appended; for a pair already on
      record the earliest such match is kept and only its similarity may
      rise. Returns the stored match. */
  function SaveMatch(st: Store, m: Match): (r: (Match, Store))
    ensures r.1.(matches := st.matches) == st
    ensures !HasKey(st.matches, PairOf, PairOf(m)) ==> r.1.matches == st.matches + [m] && r.0 == m
    ensures HasKey(st.matches, PairOf, PairOf(m)) ==>
      exists k :: FirstWith(st.matches, PairOf, PairOf(m), k) &&
        r.0 == Raised(st.matches[k], m) && r.1.matches == st.matches[k := r.0]
  {
    match IndexOfKey(st.matches, PairOf, PairOf(m))
    case None => (m, st.(matches := st.matches + [m]))
    case Some(k) =>
      var kept := Raised(st.matches[k], m);
      (kept, st.(matches := st.matches[k := kept]))
  }

  /** Saving never creates a second match for a pair. */
  lemma SaveMatchKeepsPairsUnique(st: Store, m: Match)
    requires UniquePairs(st.matches)
    ensures UniquePairs(SaveMatch(st, m).1.matches)
  {
    var ms := SaveMatch(st, m).1.matches;
    if !HasKey(st.matches, PairOf, PairOf(m)) {
      forall i, j | 0 <= i < j < |ms| ensures PairOf(ms[i]) != PairOf(ms[j]) {
        if j == |st.matches| {
          assert ms[i] == st.matches[i];
        } else {
          assert ms[i] == st.matches[i] && ms[j] == st.matches[j];
        }
      }
    } else {
      var k :| FirstWith(st.matches, PairOf, PairOf(m), k) &&
        ms == st.matches[k := Raised(st.matches[k], m)];
      forall i | 0 <= i < |ms| ensures PairOf(ms[i]) == PairOf(st.matches[i]) {
      }
    }
  }

  /** After saving, the pair is on record with at least the offered
      similarity, and every earlier match keeps its id, pair and status with
      a similarity that has not dropped. */
  lemma SaveMatchRecordsPair(st: Store, m: Match)
    ensures var ms := SaveMatch(st, m).1.matches;
      exists k :: 0 <= k < |ms| && PairOf(ms[k]) == PairOf(m) && ms[k].similarity >= m.similarity
    ensures var ms := SaveMatch(st, m).1.matches;
      |ms| >= |st.matches| &&
      forall i :: 0 <= i < |st.matches| ==>
        ms[i].(similarity := st.matches[i].similarity) == st.matches[i] &&
        ms[i].similarity >= st.matches[i].similarity
  {
    var ms := SaveMatch(st, m).1.matches;
    if !HasKey(st.matches, PairOf, PairOf(m)) {
      assert ms[|st.matches|] == m;
    } else {
      var k :| FirstWith(st.matches, PairOf, PairOf(m), k) &&
        ms == st.matches[k := Raised(st.matches[k], m)];
      assert PairOf(ms[k]) == PairOf(m);
    }
  }

  /** Offering a pair already on record adds no match and renames none. */
  lemma SaveKnownPairKeepsIds(st: Store, m: Match)
    requires HasKey(st.matches, PairOf, PairOf(m))
    ensures var ms := SaveMatch(st, m).1.matches;
      |ms| == |st.matches| && forall i :: 0 <= i < |ms| ==> ms[i].id == st.matches[i].id
  {
    var ms := SaveMatch(st, m).1.matches;
    var k :| FirstWith(st.matches, PairOf, PairOf(m), k) && ms == st.matches[k := Raised(st.matches[k], m)];
    assert ms[k] == Raised(st.matches[k], m);
  }

  /** Offering the same match twice is the same as offering it once. */
  lemma SaveMatchIdempotent(st: Store, m: Match)
    ensures SaveMatch(SaveMatch(st, m).1, m).1 == SaveMatch(st, m).1
  {
    var s2 := SaveMatch(st, m).1;
    var s3 := SaveMatch(s2, m).1;
    var k: int;
    if !HasKey(st.matches, PairOf, PairOf(m)) {
      k := |st.matches|;
      forall j | 0 <= j < k ensures PairOf(s2.matches[j]) != PairOf(m) {
        assert s2.matches[j] == st.matches[j];
      }
    } else {
      k :| FirstWith(st.matches, PairOf, PairOf(m), k) &&
        s2.matches == st.matches[k := Raised(st.matches[k], m)];
    }
    assert FirstWith(s2.matches, PairOf, PairOf(m), k);
    var k2 :| FirstWith(s2.matches, PairOf, PairOf(m), k2) &&
      s3.matches == s2.matches[k2 := Raised(s2.matches[k2], m)];
    FirstWithUnique(s2.matches, PairOf, PairOf(m), k, k2);
    assert Raised(s2.matches[k], m) == s2.matches[k];
  }

  /** Matches in which the item takes part, on either side. */
  function GetMatchesByItemId(st: Store, itemId: string): (r: seq<Match>)
    ensures forall i :: 0 <= i < |r| ==>
      (r[i].lostItemId == itemId || r[i].foundItemId == itemId) && r[i] in st.matches
    ensures forall i :: (0 <= i < |st.matches| &&
      (st.matches[i].lostItemId == itemId || st.matches[i].foundItemId == itemId)) ==> st.matches[i] in r
    ensures Subsequence(r, st.matches)
    ensures forall m :: Occurrences(r, m) ==
                        if m.lostItemId == itemId || m.foundItemId == itemId then Occurrences(st.matches, m) else 0
  {
    var p := (m: Match) => m.lostItemId == itemId || m.foundItemId == itemId;
    FilterMeetsContract(st.matches, p);
    Filter(st.matches, p)
  }

  /** Sets the status of the earliest item with that id to matched; nothing
      happens when there is none. */
  function MarkMatched(items: seq<Item>, id: string): (r: seq<Item>)
    ensures |r| == |items|
    ensures forall i :: 0 <= i < |items| ==>
      r[i] == if FirstWith(items, ItemId, id, i) then items[i].(status := Matched) else items[i]
  {
    match IndexOfKey(items, ItemId, id)
    case None => items
    case Some(k) =>
      assert forall i :: 0 <= i < |items| && FirstWith(items, ItemId, id, i) ==> i == k;
      items[k := items[k].(status := Matched)]
  }

  /** Sets the status of the earliest match with that id and returns it.
      Approving it also marks both of its items as matched; both items are
      read before either is written, which changes nothing because each
      write replaces only the earliest item with the written id. An unknown
      id changes nothing. */
  function UpdateMatchStatus(st: Store, matchId: string, status: MatchStatus): (r: (Option<Match>, Store))
    ensures r.0.None? <==> !HasKey(st.matches, MatchId, matchId)
    ensures r.0.None? ==> r.1 == st
    ensures r.0.Some? ==> exists k ::
      && FirstWith(st.matches, MatchId, matchId, k)
      && r.0.value == st.matches[k].(status := status)
      && r.1.matches == st.matches[k := r.0.value]
    ensures r.1.users == st.users && r.1.notifications == st.notifications
    ensures r.1.currentUser == st.currentUser
    ensures status != Approved || r.0.None? ==> r.1.items == st.items
    ensures status == Approved && r.0.Some? ==>
      |r.1.items| == |st.items| &&
      forall i :: 0 <= i < |st.items| ==>
        r.1.items[i] ==
          if FirstWith(st.items, ItemId, r.0.value.lostItemId, i)
             || FirstWith(st.items, ItemId, r.0.value.foundItemId, i)
          then st.items[i].(status := Matched) else st.items[i]
  {
    match IndexOfKey(st.matches, MatchId, matchId)
    case None => (None, st)
    case Some(k) =>
      var m := st.matches[k].(status := status);
      var items :=
        if status == Approved then MarkMatched(MarkMatched(st.items, m.lostItemId), m.foundItemId)
        else st.items;
      (Some(m), st.(matches := st.matches[k := m], items := items))
  }

  /** `after` is `before` with the status of the earliest match carrying
      `matchId` set to `status`; approval also marks the earliest items with
      the match's two ids as matched, and nothing else changes. */
  ghost predicate StatusWritten(before: Store, after: Store, matchId: string, status: MatchStatus) {
    && after.users == before.users && after.notifications == before.notifications
    && after.currentUser == before.currentUser
    && exists k :: FirstWith(before.matches, MatchId, matchId, k) &&
         after.matches == before.matches[k := before.matches[k].(status := status)] &&
         (status != Approved ==> after.items == before.items) &&
         (status == Approved ==> ItemsMarked(before.items, after.items, before.matches[k]))
  }

  /** `after` is `before` with the earliest report of each side of `m` matched. */
  ghost predicate ItemsMarked(before: seq<Item>, after: seq<Item>, m: Match) {
    && |after| == |before|
    && forall i :: 0 <= i < |before| ==>
         after[i] == if FirstWith(before, ItemId, m.lostItemId, i) || FirstWith(before, ItemId, m.foundItemId, i)
                     then before[i].(status := Matched) else before[i]
  }

  /** A stored id gets its status written. */
  lemma UpdateMatchStatusWrites(st: Store, matchId: string, status: MatchStatus)
    ensures HasKey(st.matches, MatchId, matchId) ==>
      StatusWritten(st, UpdateMatchStatus(st, matchId, status).1, matchId, status)
  {
    var r := UpdateMatchStatus(st, matchId, status);
    if r.0.None? {
      return;
    }
    var k :| FirstWith(st.matches, MatchId, matchId, k) && r.0.value == st.matches[k].(status := status) &&
      r.1.matches == st.matches[k := r.0.value];
    assert r.0.value.lostItemId == st.matches[k].lostItemId && r.0.value.foundItemId == st.matches[k].foundItemId;
  }

  /** Approving a match leaves both of its items marked as matched. */
  lemma ApprovalMarksBothItems(st: Store, matchId: string)
    requires HasKey(st.matches, MatchId, matchId)
    ensures var r := UpdateMatchStatus(st, matchId, Approved);
      forall id :: id == r.0.value.lostItemId || id == r.0.value.foundItemId ==>
        GetItemById(r.1, id).None? || GetItemById(r.1, id).value.status == Matched
  {
    var r := UpdateMatchStatus(st, matchId, Approved);
    forall id | id == r.0.value.lostItemId || id == r.0.value.foundItemId
      ensures GetItemById(r.1, id).None? || GetItemById(r.1, id).value.status == Matched
    {
      var g := GetItemById(r.1, id);
      if g.Some? {
        var i :| FirstWith(r.1.items, ItemId, id, i) && r.1.items[i] == g.value;
        MarkedItemIsMatched(st.items, r.1.items, r.0.value.lostItemId, r.0.value.foundItemId, id, i);
      }
    }
  }

  /** Marking keeps every id in place, so the earliest item with a marked id
      is the one that was marked. */
  lemma MarkedItemIsMatched(items: seq<Item>, marked: seq<Item>, a: string, b: string, id: string, i: int)
    requires |marked| == |items|
    requires forall k :: 0 <= k < |items| ==>
      marked[k] == if FirstWith(items, ItemId, a, k) || FirstWith(items, ItemId, b, k)
                   then items[k].(status := Matched) else items[k]
    requires id == a || id == b
    requires FirstWith(marked, ItemId, id, i)
    ensures marked[i].status == Matched
  {
    forall j | 0 <= j <= i ensures ItemId(marked[j]) == ItemId(items[j]) { }
    assert FirstWith(items, ItemId, id, i);
  }

  /** Setting the same status twice is the same as setting it once. */
  lemma UpdateMatchStatusIdempotent(st: Store, matchId: string, status: MatchStatus)
    ensures var s2 := UpdateMatchStatus(st, matchId, status).1;
      UpdateMatchStatus(s2, matchId, status).1 == s2
  {
    var s2 := UpdateMatchStatus(st, matchId, status).1;
    if HasKey(st.matches, MatchId, matchId) {
      var m := UpdateMatchStatusAgain(st, matchId, status);
      var s3 := UpdateMatchStatus(s2, matchId, status).1;
      if status == Approved {
        MarkMatchedTwice(st.items, s2.items, m.lostItemId, m.foundItemId);
      }
      assert s3.items == s2.items;
    }
  }

  /** The second update finds the match the first one wrote, already
      carrying the status, and writes it back unchanged. */
  lemma UpdateMatchStatusAgain(st: Store, matchId: string, status: MatchStatus) returns (m: Match)
    requires HasKey(st.matches, MatchId, matchId)
    ensures var s2 := UpdateMatchStatus(st, matchId, status).1;
      && UpdateMatchStatus(st, matchId, status).0 == Some(m)
      && UpdateMatchStatus(s2, matchId, status).0 == Some(m)
      && UpdateMatchStatus(s2, matchId, status).1.matches == s2.matches
  {
    var r := UpdateMatchStatus(st, matchId, status);
    var s2 := r.1;
    m := r.0.value;
    var k :| FirstWith(st.matches, MatchId, matchId, k) &&
      m == st.matches[k].(status := status) && s2.matches == st.matches[k := m];
    assert FirstWith(s2.matches, MatchId, matchId, k) by {
      assert forall j :: 0 <= j < k ==> s2.matches[j] == st.matches[j];
    }
    var r3 := UpdateMatchStatus(s2, matchId, status);
    var k3 :| FirstWith(s2.matches, MatchId, matchId, k3) &&
      r3.0.value == s2.matches[k3].(status := status) && r3.1.matches == s2.matches[k3 := r3.0.value];
    FirstWithUnique(s2.matches, MatchId, matchId, k, k3);
    assert s2.matches[k] == m && r3.0.value == m;
  }

  /** Marking the same two items again changes nothing. */
  lemma MarkMatchedTwice(items: seq<Item>, marked: seq<Item>, a: string, b: string)
    requires |marked| == |items|
    requires forall i :: 0 <= i < |items| ==>
      marked[i] == if FirstWith(items, ItemId, a, i) || FirstWith(items, ItemId, b, i)
                   then items[i].(status := Matched) else items[i]
    ensures MarkMatched(MarkMatched(marked, a), b) == marked
  {
    forall i | 0 <= i < |items| ensures ItemId(marked[i]) == ItemId(items[i]) { }
    forall i | 0 <= i < |items|
      ensures FirstWith(marked, ItemId, a, i) == FirstWith(items, ItemId, a, i)
      ensures FirstWith(marked, ItemId, b, i) == FirstWith(items, ItemId, b, i)
    {
    }
    var once := MarkMatched(marked, a);
    forall i | 0 <= i < |items| ensures ItemId(once[i]) == ItemId(items[i]) { }
    forall i | 0 <= i < |items|
      ensures FirstWith(once, ItemId, b, i) == FirstWith(items, ItemId, b, i)
    {
    }
  }

  // -------------------------------------------------------- notifications

  function CreateNotification(st: Store, n: Notification): (r: Store)
    ensures r.notifications == st.notifications + [n]
    ensures r.(notifications := st.notifications) == st
  {
    st.(notifications := st.notifications + [n])
  }

  /** The user's notices in the order they were stored. */
  function NotificationsOf(st: Store, userId: string): seq<Notification> {
    Filter(st.notifications, (n: Notification) => n.userId == userId)
  }

  /** The user's notices, newest first: each of them exactly as often as it
      is stored, and nothing addressed to anyone else. */
  function GetUserNotifications(st: Store, userId: string): (r: seq<Notification>)
    ensures SortedDesc(r, CreatedKey)
    ensures forall i :: 0 <= i < |r| ==> r[i].userId == userId && r[i] in st.notifications
    ensures forall i :: 0 <= i < |st.notifications| && st.notifications[i].userId == userId ==>
              st.notifications[i] in r
    ensures forall n :: Occurrences(r, n) ==
                        if n.userId == userId then Occurrences(st.notifications, n) else 0
  {
    var mine := NotificationsOf(st, userId);
    FilterMeetsContract(st.notifications, (n: Notification) => n.userId == userId);
    SortDescSameElements(mine, CreatedKey);
    SameMultisetSameOccurrences(SortDesc(mine, CreatedKey), mine);
    SortDesc(mine, CreatedKey)
  }

  /** `Array.prototype.sort` is stable, so notices created at the same moment
      keep the order in which they were stored. */
  lemma GetUserNotificationsKeepsTies(st: Store, userId: string, t: real)
    ensures Filter(GetUserNotifications(st, userId), KeyIs(CreatedKey, t)) ==
            Filter(NotificationsOf(st, userId), KeyIs(CreatedKey, t))
  {
    SortDescStable(NotificationsOf(st, userId), CreatedKey, t);
  }

  /** A notification just created appears in its addressee's list. */
  lemma CreatedNotificationIsListed(st: Store, n: Notification)
    ensures n in GetUserNotifications(CreateNotification(st, n), n.userId)
  {
    var s2 := CreateNotification(st, n);
    assert s2.notifications[|st.notifications|] == n;
  }

  /** Marks the earliest notification with that id as read; an unknown id
      changes nothing. */
  function MarkNotificationAsRead(st: Store, id: string): (r: Store)
    ensures r.(notifications := st.notifications) == st
    ensures |r.notifications| == |st.notifications|
    ensures forall i :: 0 <= i < |st.notifications| ==>
      r.notifications[i] ==
        if FirstWith(st.notifications, NotificationId, id, i)
        then st.notifications[i].(isRead := true) else st.notifications[i]
  {
    match IndexOfKey(st.notifications, NotificationId, id)
    case None => st
    case Some(k) =>
      assert forall i :: 0 <= i < |st.notifications| && FirstWith(st.notifications, NotificationId, id, i) ==> i == k;
      st.(notifications := st.notifications[k := st.notifications[k].(isRead := true)])
  }

  /** Marking a notification read twice is the same as marking it once. */
  lemma MarkNotificationAsReadIdempotent(st: Store, id: string)
    ensures MarkNotificationAsRead(MarkNotificationAsRead(st, id), id) == MarkNotificationAsRead(st, id)
  {
    var s2 := MarkNotificationAsRead(st, id);
    forall i | 0 <= i < |st.notifications|
      ensures NotificationId(s2.notifications[i]) == NotificationId(st.notifications[i])
    {
    }
    forall i | 0 <= i < |st.notifications|
      ensures FirstWith(s2.notifications, NotificationId, id, i) == FirstWith(st.notifications, NotificationId, id, i)
    {
    }
  }
}

=== FILE: images.dfy ===
/** Image matching over classifier output. The classifier itself is not part
    of this model: each image is represented by the list of predictions the
    classifier returned for it, most confident first. */
module Images {
  import opened Options
  import opened Seqs
  import opened Sorting
  import opened Text

  /** One raw prediction; either field may be missing. */
  datatype Prediction = Prediction(labelText: Option<string>, score: Option<real>)

  datatype ClassMatch = ClassMatch(className: string, confidence: real)

  /** The shaped result of analysing one image. */
  datatype Analysis = Analysis(topMatch: Option<ClassMatch>, allMatches: seq<ClassMatch>)

  const SimilarityThreshold: real := 0.65

  /** `{ className: label || '', confidence: score || 0 }`. */
  function Shape(p: Prediction): ClassMatch {
    ClassMatch(if p.labelText.Some? then p.labelText.value else "",
               if p.score.Some? then p.score.value else 0.0)
  }

  /** `analyzeImage`: every prediction shaped, the first one as top match. */
  function AnalyzeImage(raw: seq<Prediction>): (a: Analysis)
    ensures |a.allMatches| == |raw|
    ensures forall i :: 0 <= i < |raw| ==>
      (raw[i].labelText.None? ==> a.allMatches[i].className == "") &&
      (raw[i].labelText.Some? ==> a.allMatches[i].className == raw[i].labelText.value) &&
      (raw[i].score.None? ==> a.allMatches[i].confidence == 0.0) &&
      (raw[i].score.Some? ==> a.allMatches[i].confidence == raw[i].score.value)
    ensures a.topMatch.None? <==> |raw| == 0
    ensures a.topMatch.Some? ==> a.topMatch.value == a.allMatches[0]
  {
    var all := seq(|raw|, i requires 0 <= i < |raw| => Shape(raw[i]));
    Analysis(if |all| > 0 then Some(all[0]) else None, all)
  }

  /** Raw scores are probabilities. */
  ghost predicate ScoresInUnitRange(raw: seq<Prediction>) {
    forall i :: 0 <= i < |raw| ==> raw[i].score.Some? ==> 0.0 <= raw[i].score.value <= 1.0
  }

  /** Every confidence of the analysis lies in [0, 1]. */
  ghost predicate ConfidencesInUnitRange(a: Analysis) {
    && (forall i :: 0 <= i < |a.allMatches| ==> 0.0 <= a.allMatches[i].confidence <= 1.0)
    && (a.topMatch.Some? ==> 0.0 <= a.topMatch.value.confidence <= 1.0)
  }

  /** An analysis of probabilities has confidences in [0, 1]. */
  lemma AnalyzeImageConfidences(raw: seq<Prediction>)
    requires ScoresInUnitRange(raw)
    ensures ConfidencesInUnitRange(AnalyzeImage(raw))
  {
  }

  /** What two coinciding labels contribute to the partial score. */
  function PairTerm(x: ClassMatch, y: ClassMatch): real {
    if x.className == y.className then x.confidence * y.confidence * 0.5 else 0.0
  }

  /** Sum of `PairTerm(x, y)` over the `y` in `ys`. */
  function RowSum(x: ClassMatch, ys: seq<ClassMatch>): real
    decreases |ys|
  {
    if |ys| == 0 then 0.0 else PairTerm(x, ys[0]) + RowSum(x, ys[1..])
  }

  /** Sum of `PairTerm(x, y)` over every `x` in `xs` and `y` in `ys`: the
      nested loop over both lists of predictions. */
  function PairSum(xs: seq<ClassMatch>, ys: seq<ClassMatch>): real
    decreases |xs|
  {
    if |xs| == 0 then 0.0 else RowSum(xs[0], ys) + PairSum(xs[1..], ys)
  }

  /** Sum of `PairTerm(x, y)` over the `x` in `xs`, for one `y`. */
  function ColSum(xs: seq<ClassMatch>, y: ClassMatch): real
    decreases |xs|
  {
    if |xs| == 0 then 0.0 else PairTerm(xs[0], y) + ColSum(xs[1..], y)
  }

  function Min(a: real, b: real): (r: real)
    ensures r <= a && r <= b && (r == a || r == b)
  {
    if a <= b then a else b
  }

  /** `compareImages`: 0 unless both images have a top match; 0.8 plus a
      confidence bonus when the top labels agree; otherwise the partial score
      over all coinciding labels; always capped at 1. */
  function CompareImages(a1: Analysis, a2: Analysis): (r: real)
    ensures r <= 1.0
    ensures a1.topMatch.None? || a2.topMatch.None? ==> r == 0.0
    ensures a1.topMatch.Some? && a2.topMatch.Some? &&
            a1.topMatch.value.className != a2.topMatch.value.className ==>
              r == Min(PairSum(a1.allMatches, a2.allMatches), 1.0)
  {
    var score :=
      if a1.topMatch.Some? && a2.topMatch.Some? then
        var t1, t2 := a1.topMatch.value, a2.topMatch.value;
        if t1.className == t2.className then 0.8 + t1.confidence * t2.confidence * 0.2
        else PairSum(a1.allMatches, a2.allMatches)
      else 0.0;
    Min(score, 1.0)
  }

  lemma ProductInUnitRange(x: real, y: real)
    requires 0.0 <= x <= 1.0 && 0.0 <= y <= 1.0
    ensures 0.0 <= x * y <= 1.0
  {
    MulNonNegative(x, 1.0 - y);
    MulNonNegative(x, y);
    assert x * y == x - x * (1.0 - y);
  }

  lemma MulNonNegative(a: real, b: real)
    requires a >= 0.0 && b >= 0.0
    ensures a * b >= 0.0
  {
  }

  /** Agreeing top labels score between 0.8 and 1 for confidences in [0, 1]. */
  lemma EqualTopLabelsScore(a1: Analysis, a2: Analysis)
    requires a1.topMatch.Some? && a2.topMatch.Some?
    requires a1.topMatch.value.className == a2.topMatch.value.className
    requires ConfidencesInUnitRange(a1) && ConfidencesInUnitRange(a2)
    ensures 0.8 <= CompareImages(a1, a2) <= 1.0
    ensures CompareImages(a1, a2) ==
      0.8 + a1.topMatch.value.confidence * a2.topMatch.value.confidence * 0.2
  {
    ProductInUnitRange(a1.topMatch.value.confidence, a2.topMatch.value.confidence);
  }

  lemma {:induction false} RowSumNonNegative(x: ClassMatch, ys: seq<ClassMatch>)
    requires x.confidence >= 0.0
    requires forall j :: 0 <= j < |ys| ==> ys[j].confidence >= 0.0
    ensures RowSum(x, ys) >= 0.0
    decreases |ys|
  {
    if |ys| > 0 {
      RowSumNonNegative(x, ys[1..]);
      assert x.confidence * ys[0].confidence >= 0.0;
    }
  }

  lemma {:induction false} PairSumNonNegative(xs: seq<ClassMatch>, ys: seq<ClassMatch>)
    requires forall i :: 0 <= i < |xs| ==> xs[i].confidence >= 0.0
    requires forall j :: 0 <= j < |ys| ==> ys[j].confidence >= 0.0
    ensures PairSum(xs, ys) >= 0.0
    decreases |xs|
  {
    if |xs| > 0 {
      RowSumNonNegative(xs[0], ys);
      PairSumNonNegative(xs[1..], ys);
    }
  }

  /** The score lies in [0, 1] for confidences in [0, 1]. */
  lemma CompareImagesInUnitRange(a1: Analysis, a2: Analysis)
    requires ConfidencesInUnitRange(a1) && ConfidencesInUnitRange(a2)
    ensures 0.0 <= CompareImages(a1, a2) <= 1.0
  {
    if a1.topMatch.Some? && a2.topMatch.Some? {
      if a1.topMatch.value.className == a2.topMatch.value.className {
        EqualTopLabelsScore(a1, a2);
      } else {
        PairSumNonNegative(a1.allMatches, a2.allMatches);
      }
    }
  }

  lemma PairTermSymmetric(x: ClassMatch, y: ClassMatch)
    ensures PairTerm(x, y) == PairTerm(y, x)
  {
    assert x.confidence * y.confidence == y.confidence * x.confidence;
  }

  /** Summing a column is summing the row of the transposed pair. */
  lemma {:induction false} ColSumIsRowSum(xs: seq<ClassMatch>, y: ClassMatch)
    ensures ColSum(xs, y) == RowSum(y, xs)
    decreases |xs|
  {
    if |xs| > 0 {
      PairTermSymmetric(xs[0], y);
      ColSumIsRowSum(xs[1..], y);
    }
  }

  /** Peeling the first column off the double sum. */
  lemma {:induction false} PairSumFirstColumn(xs: seq<ClassMatch>, ys: seq<ClassMatch>)
    requires |ys| > 0
    ensures PairSum(xs, ys) == ColSum(xs, ys[0]) + PairSum(xs, ys[1..])
    decreases |xs|
  {
    if |xs| > 0 {
      PairSumFirstColumn(xs[1..], ys);
    }
  }

  lemma {:induction false} PairSumEmptyRight(xs: seq<ClassMatch>)
    ensures PairSum(xs, []) == 0.0
    decreases |xs|
  {
    if |xs| > 0 {
      PairSumEmptyRight(xs[1..]);
    }
  }

  /** The partial score does not depend on which image comes first. */
  lemma {:induction false} PairSumSymmetric(xs: seq<ClassMatch>, ys: seq<ClassMatch>)
    ensures PairSum(xs, ys) == PairSum(ys, xs)
    decreases |ys|
  {
    if |ys| == 0 {
      PairSumEmptyRight(xs);
    } else {
      PairSumFirstColumn(xs, ys);
      ColSumIsRowSum(xs, ys[0]);
      PairSumSymmetric(xs, ys[1..]);
    }
  }

  /** Comparing two images gives the same score in either order. */
  lemma CompareImagesSymmetric(a1: Analysis, a2: Analysis)
    ensures CompareImages(a1, a2) == CompareImages(a2, a1)
  {
    PairSumSymmetric(a1.allMatches, a2.allMatches);
    if a1.topMatch.Some? && a2.topMatch.Some? {
      var c1, c2 := a1.topMatch.value.confidence, a2.topMatch.value.confidence;
      assert c1 * c2 == c2 * c1;
    }
  }

  /** A candidate image with its analysis. */
  datatype Candidate = Candidate(id: string, analysis: Analysis)

  datatype ImageMatch = ImageMatch(id: string, similarity: real)

  function MatchSimilarity(m: ImageMatch): real { m.similarity }

  function Score(target: Analysis, candidates: seq<Candidate>): (r: seq<ImageMatch>)
    ensures |r| == |candidates|
    ensures forall i :: 0 <= i < |r| ==>
      r[i].id == candidates[i].id && r[i].similarity == CompareImages(target, candidates[i].analysis)
  {
    seq(|candidates|, i requires 0 <= i < |candidates| =>
      ImageMatch(candidates[i].id, CompareImages(target, candidates[i].analysis)))
  }

  predicate Promising(m: ImageMatch) { m.similarity >= SimilarityThreshold }

  /** `findPotentialMatches`: the candidates scoring at least 0.65 against the
      target, best first. */
  function FindPotentialMatches(target: Analysis, candidates: seq<Candidate>): (r: seq<ImageMatch>)
    ensures SortedDesc(r, MatchSimilarity)
    ensures forall i :: 0 <= i < |r| ==> r[i].similarity >= SimilarityThreshold
    ensures forall i :: 0 <= i < |r| ==>
              exists j :: 0 <= j < |candidates| && candidates[j].id == r[i].id &&
                CompareImages(target, candidates[j].analysis) == r[i].similarity
    ensures forall j :: 0 <= j < |candidates| && CompareImages(target, candidates[j].analysis) >= SimilarityThreshold ==>
              ImageMatch(candidates[j].id, CompareImages(target, candidates[j].analysis)) in r
    ensures forall m :: Occurrences(r, m) ==
              if m.similarity >= SimilarityThreshold then Occurrences(Score(target, candidates), m) else 0
  {
    var r := SortDesc(Filter(Score(target, candidates), Promising), MatchSimilarity);
    PotentialMatchesFromCandidates(target, candidates, r);
    PotentialMatchesCounted(target, candidates, r);
    r
  }

  lemma PotentialMatchesFromCandidates(target: Analysis, candidates: seq<Candidate>, r: seq<ImageMatch>)
    requires r == SortDesc(Filter(Score(target, candidates), Promising), MatchSimilarity)
    ensures forall i :: 0 <= i < |r| ==> r[i].similarity >= SimilarityThreshold
    ensures forall i :: 0 <= i < |r| ==>
      exists j :: 0 <= j < |candidates| && candidates[j].id == r[i].id &&
        CompareImages(target, candidates[j].analysis) == r[i].similarity
    ensures forall j :: 0 <= j < |candidates| && CompareImages(target, candidates[j].analysis) >= SimilarityThreshold ==>
      ImageMatch(candidates[j].id, CompareImages(target, candidates[j].analysis)) in r
  {
    PotentialMatchesScored(target, candidates, r);
    PotentialMatchesComplete(target, candidates, r);
  }

  /** Each kept score belongs to a candidate and reaches the threshold. */
  lemma PotentialMatchesScored(target: Analysis, candidates: seq<Candidate>, r: seq<ImageMatch>)
    requires r == SortDesc(Filter(Score(target, candidates), Promising), MatchSimilarity)
    ensures forall i :: 0 <= i < |r| ==> r[i].similarity >= SimilarityThreshold
    ensures forall i :: 0 <= i < |r| ==>
      exists j :: 0 <= j < |candidates| && candidates[j].id == r[i].id &&
        CompareImages(target, candidates[j].analysis) == r[i].similarity
  {
    var kept := Filter(Score(target, candidates), Promising);
    SortDescSameElements(kept, MatchSimilarity);
    forall i | 0 <= i < |r|
      ensures r[i].similarity >= SimilarityThreshold
      ensures exists j :: 0 <= j < |candidates| && candidates[j].id == r[i].id &&
                CompareImages(target, candidates[j].analysis) == r[i].similarity
    {
      PotentialMatchFromCandidate(target, candidates, kept, r[i]);
    }
  }

  /** Every candidate reaching the threshold is kept. */
  lemma PotentialMatchesComplete(target: Analysis, candidates: seq<Candidate>, r: seq<ImageMatch>)
    requires r == SortDesc(Filter(Score(target, candidates), Promising), MatchSimilarity)
    ensures forall j :: 0 <= j < |candidates| && CompareImages(target, candidates[j].analysis) >= SimilarityThreshold ==>
      ImageMatch(candidates[j].id, CompareImages(target, candidates[j].analysis)) in r
  {
    var scored := Score(target, candidates);
    var kept := Filter(scored, Promising);
    SortDescSameElements(kept, MatchSimilarity);
    forall j | 0 <= j < |candidates| && CompareImages(target, candidates[j].analysis) >= SimilarityThreshold
      ensures ImageMatch(candidates[j].id, CompareImages(target, candidates[j].analysis)) in r
    {
      assert Promising(scored[j]);
      assert scored[j] in kept;
    }
  }

  /** Each promising score appears as often as among the candidates' scores. */
  lemma PotentialMatchesCounted(target: Analysis, candidates: seq<Candidate>, r: seq<ImageMatch>)
    requires r == SortDesc(Filter(Score(target, candidates), Promising), MatchSimilarity)
    ensures forall m :: Occurrences(r, m) ==
              if m.similarity >= SimilarityThreshold then Occurrences(Score(target, candidates), m) else 0
  {
    var scored := Score(target, candidates);
    SameMultisetSameOccurrences(r, Filter(scored, Promising));
    FilterMeetsContract(scored, Promising);
  }

  lemma PotentialMatchFromCandidate(target: Analysis, candidates: seq<Candidate>, kept: seq<ImageMatch>, x: ImageMatch)
    requires kept == Filter(Score(target, candidates), Promising)
    requires x in kept
    ensures x.similarity >= SimilarityThreshold
    ensures exists j :: 0 <= j < |candidates| && candidates[j].id == x.id &&
              CompareImages(target, candidates[j].analysis) == x.similarity
  {
    var scored := Score(target, candidates);
    var j :| 0 <= j < |scored| && scored[j] == x;
  }

  const Prefix := "This appears to be a "
  const Alternative := " or possibly a "

  /** One secondary class, "label (NN% confidence)". */
  function Secondary(m: ClassMatch, percent: real -> string): string {
    Lower(m.className) + " (" + percent(m.confidence) + "% confidence)"
  }

  /** `generateImageDescription`. `percent` renders `Math.round(c * 100)`.
      An analysis claiming a top match but listing no classes makes the
      application fail and answer with its fallback text. */
  function GenerateImageDescription(a: Analysis, percent: real -> string): (r: string)
    ensures a.topMatch.None? ==> r == "Unrecognized item"
    ensures a.topMatch.Some? && |a.allMatches| == 1 ==> r == Prefix + Lower(a.allMatches[0].className)
    ensures a.topMatch.Some? && |a.allMatches| >= 1 ==> StartsWith(r, Prefix + Lower(a.allMatches[0].className))
  {
    if a.topMatch.None? then "Unrecognized item"
    else
      var top := if |a.allMatches| <= 3 then a.allMatches else a.allMatches[..3];
      if |top| == 0 then "Could not generate description"
      else if |top| == 1 then Prefix + Lower(top[0].className)
      else
        var rest := seq(|top| - 1, i requires 0 <= i < |top| - 1 => Secondary(top[i + 1], percent));
        var r := Prefix + Lower(top[0].className) + " (" + percent(top[0].confidence) +
                 "% confidence)," + Alternative + Join(rest, Alternative);
        assert r[..|Prefix + Lower(top[0].className)|] == Prefix + Lower(top[0].className);
        r
  }

  /** Only the three most confident classes are described. */
  lemma DescriptionUsesThreeClasses(a: Analysis, percent: real -> string)
    requires |a.allMatches| >= 3
    ensures GenerateImageDescription(a, percent) ==
            GenerateImageDescription(a.(allMatches := a.allMatches[..3]), percent)
  {
    assert a.allMatches[..3][..3] == a.allMatches[..3];
    if |a.allMatches| == 3 {
      assert a.allMatches[..3] == a.allMatches;
    }
  }
}

=== FILE: itemmatches.dfy ===
/** The match cards: the label a score earns, which card is expanded, and
    when a long description offers "Read more". The percentage badge uses
    `Math.round`, which is not modelled. */
module MatchCards {
  import opened Options
  import opened Text
  import opened Images
  import opened Search

  datatype Label = StrongMatch | GoodMatch | PossibleMatch | WeakMatch

  function LabelText(l: Label): string {
    match l
    case StrongMatch => "Strong Match"
    case GoodMatch => "Good Match"
    case PossibleMatch => "Possible Match"
    case WeakMatch => "Weak Match"
  }

  function LabelColor(l: Label): string {
    match l
    case StrongMatch => "bg-green-500"
    case GoodMatch => "bg-emerald-500"
    case PossibleMatch => "bg-amber-500"
    case WeakMatch => "bg-orange-500"
  }

  /** Higher ranks are stronger labels. */
  function Rank(l: Label): nat {
    match l
    case WeakMatch => 0
    case PossibleMatch => 1
    case GoodMatch => 2
    case StrongMatch => 3
  }

  /** `getSimilarityLabel`: the band of the score, checked from the top. */
  function SimilarityLabel(score: real): (l: Label)
    ensures l == StrongMatch <==> score >= 0.9
    ensures l == GoodMatch <==> 0.75 <= score < 0.9
    ensures l == PossibleMatch <==> 0.65 <= score < 0.75
    ensures l == WeakMatch <==> score < 0.65
  {
    if score >= 0.9 then StrongMatch
    else if score >= 0.75 then GoodMatch
    else if score >= 0.65 then PossibleMatch
    else WeakMatch
  }

  /** A higher score never earns a weaker label. */
  lemma LabelMonotone(a: real, b: real)
    requires a <= b
    ensures Rank(SimilarityLabel(a)) <= Rank(SimilarityLabel(b))
  {
  }

  /** The image matcher's threshold is the lowest score labelled better than
      weak, so every image match it proposes is at least a possible match. */
  lemma ImageMatchesAreNotWeak(m: ImageMatch)
    requires m.similarity >= SimilarityThreshold
    ensures Rank(SimilarityLabel(m.similarity)) >= Rank(PossibleMatch)
    ensures forall s: real :: s < SimilarityThreshold ==> SimilarityLabel(s) == WeakMatch
  {
  }

  /** The expanded card, if any; there is at most one. */
  type Expanded = Option<string>

  predicate IsExpanded(e: Expanded, id: string) { e == Some(id) }

  /** `toggleExpand`: collapses the card when it is the expanded one,
      otherwise expands it and collapses any other. */
  function ToggleExpand(e: Expanded, id: string): (r: Expanded)
    ensures IsExpanded(r, id) <==> !IsExpanded(e, id)
    ensures forall other :: other != id ==> !IsExpanded(r, other)
  {
    if e == Some(id) then None else Some(id)
  }

  /** Toggling the same card twice restores the state, unless another card
      was expanded, which the first toggle collapsed. */
  lemma ToggleTwice(e: Expanded, id: string)
    ensures e.None? || e == Some(id) ==> ToggleExpand(ToggleExpand(e, id), id) == e
    ensures e.Some? && e != Some(id) ==> ToggleExpand(ToggleExpand(e, id), id).None?
  {
  }

  /** Descriptions longer than this get a "Read more" button. */
  const ReadMoreLength: nat := 120

  /** How a card shows its description: clamped to two lines unless
      expanded, and the toggle button's caption, when there is one. */
  datatype DescriptionView = DescriptionView(clamped: bool, button: Option<string>)

  function ViewDescription(r: SearchResult, e: Expanded): (v: DescriptionView)
    ensures v.clamped <==> !IsExpanded(e, r.id)
    ensures v.button.Some? <==> |r.item.description| > ReadMoreLength
    ensures v.button == Some("Show less") <==> |r.item.description| > ReadMoreLength && IsExpanded(e, r.id)
  {
    var expanded := IsExpanded(e, r.id);
    DescriptionView(!expanded,
                    if |r.item.description| > ReadMoreLength then Some(if expanded then "Show less" else "Read more")
                    else None)
  }

  /** Pressing a long card's button flips its caption. */
  lemma ToggleFlipsCaption(r: SearchResult, e: Expanded)
    requires |r.item.description| > ReadMoreLength
    ensures ViewDescription(r, e).button == Some("Read more") <==>
            ViewDescription(r, ToggleExpand(e, r.id)).button == Some("Show less")
  {
  }

  /** The avatar fallback shows the reporter's initials, as typed. */
  function AvatarFallback(r: SearchResult): (a: Option<string>)
    ensures a.None? <==> r.item.reportedBy == ""
    ensures a.Some? ==> |a.value| <= |Split(r.item.reportedBy, Space)|
  {
    if r.item.reportedBy == "" then None else Some(Initials(r.item.reportedBy))
  }

  /** A reporter named by two words, such as the search page's "Anonymous
      User", shows the first letters of both words, as typed. */
  lemma TwoWordReporterAvatar(r: SearchResult, first: string, last: string)
    requires first != "" && last != ""
    requires forall i :: 0 <= i < |first| ==> first[i] != ' '
    requires forall i :: 0 <= i < |last| ==> last[i] != ' '
    requires r.item.reportedBy == first + " " + last
    ensures AvatarFallback(r) == Some([first[0], last[0]])
  {
    InitialsOfSpaced(first, last);
    InitialsOfWord(first);
    InitialsOfWord(last);
    assert Initials(r.item.reportedBy) == [first[0]] + [last[0]];
    assert AvatarFallback(r) == Some(Initials(r.item.reportedBy));
    assert [first[0]] + [last[0]] == [first[0], last[0]];
  }
}

=== FILE: keywords.dfy ===
/** The report form: the keywords it derives from the typed fields and the
    report record it submits. The photo description, the clock, fresh ids and
    the fallback demo account are inputs. */
module ItemForm {
  import opened Options
  import opened Records
  import opened Seqs
  import opened Text
  import opened Similarity
  import opened Database
  import opened Matching

  /** The form's fields as typed; a field left blank is the empty string. */
  datatype FormData = FormData(
    name: string,
    category: string,
    brand: string,
    time: string,
    location: string,
    description: string,
    identifyingFeatures: string,
    reward: string)

  /** Description and feature words count when longer than three characters. */
  const MinWordLength: nat := 3

  /** The raw keyword candidates: four whole fields, then the long words of
      the description and of the identifying features. */
  function KeywordSources(d: FormData): seq<string> {
    [d.name, d.category, d.brand, d.location] +
    Words(d.description, Whitespace, MinWordLength) +
    Words(d.identifyingFeatures, Whitespace, MinWordLength)
  }

  function LowerAll(s: seq<string>): (r: seq<string>)
    ensures |r| == |s|
    ensures forall i :: 0 <= i < |s| ==> r[i] == Lower(s[i])
  {
    seq(|s|, i requires 0 <= i < |s| => Lower(s[i]))
  }

  function NonEmpty(s: seq<string>): (r: seq<string>)
    ensures forall i :: 0 <= i < |r| ==> r[i] != "" && r[i] in s
    ensures forall i :: 0 <= i < |s| && s[i] != "" ==> s[i] in r
    ensures |s| > 0 && s[0] != "" ==> |r| > 0 && r[0] == s[0]
    ensures Subsequence(r, s)
  {
    var p := (w: string) => w != "";
    FilterMeetsContract(s, p);
    Filter(s, p)
  }

  /** The keyword candidates in order: the non-empty ones, lower-cased. */
  function Candidates(src: seq<string>): seq<string> {
    LowerAll(NonEmpty(src))
  }

  /** The non-empty candidates, lower-cased, each kept once in order of
      first occurrence. */
  function KeywordsOf(src: seq<string>): (r: seq<string>)
    ensures NoDup(r)
    ensures forall i :: 0 <= i < |r| ==> r[i] != "" && IsLower(r[i])
    ensures forall i :: 0 <= i < |r| ==>
      exists j :: 0 <= j < |src| && src[j] != "" && r[i] == Lower(src[j])
    ensures forall j :: 0 <= j < |src| && src[j] != "" ==> Lower(src[j]) in r
    ensures forall i :: 0 <= i < |r| ==> r[i] in Candidates(src)
    ensures forall i, j :: 0 <= i < j < |r| ==>
              FirstIndex(Candidates(src), r[i]) < FirstIndex(Candidates(src), r[j])
  {
    var ne := NonEmpty(src);
    var lowered := LowerAll(ne);
    var r := Dedupe(lowered);
    DedupeFirstOccurrenceOrder(lowered);
    forall i | 0 <= i < |r|
      ensures r[i] != "" && IsLower(r[i])
      ensures exists j :: 0 <= j < |src| && src[j] != "" && r[i] == Lower(src[j])
    {
      var k :| 0 <= k < |lowered| && lowered[k] == r[i];
      LowerIsLower(ne[k]);
      var j :| 0 <= j < |src| && src[j] == ne[k];
    }
    forall j | 0 <= j < |src| && src[j] != ""
      ensures Lower(src[j]) in r
    {
      var k :| 0 <= k < |ne| && ne[k] == src[j];
      assert lowered[k] == Lower(src[j]);
    }
    r
  }

  /** `generateKeywords`: the keywords of the form's candidates. */
  function GenerateKeywords(d: FormData): (r: seq<string>)
    ensures NoDup(r)
    ensures forall i :: 0 <= i < |r| ==> r[i] != "" && IsLower(r[i])
    ensures forall i :: 0 <= i < |r| ==>
      exists j :: 0 <= j < |KeywordSources(d)| && KeywordSources(d)[j] != "" && r[i] == Lower(KeywordSources(d)[j])
    ensures forall j :: 0 <= j < |KeywordSources(d)| && KeywordSources(d)[j] != "" ==>
      Lower(KeywordSources(d)[j]) in r
    ensures forall i :: 0 <= i < |r| ==> r[i] in Candidates(KeywordSources(d))
    ensures forall i, j :: 0 <= i < j < |r| ==>
              FirstIndex(Candidates(KeywordSources(d)), r[i]) < FirstIndex(Candidates(KeywordSources(d)), r[j])
  {
    KeywordsOf(KeywordSources(d))
  }

  /** A named report's first keyword is its lower-cased name. */
  lemma NameIsFirstKeyword(d: FormData)
    requires d.name != ""
    ensures |GenerateKeywords(d)| > 0 && GenerateKeywords(d)[0] == Lower(d.name)
  {
    DedupeHead(Candidates(KeywordSources(d)));
  }

  /** Keyword lists are duplicate-free, so comparing a report's keywords
      with any list scores at most 1, unlike raw token lists. */
  lemma KeywordScoreAtMostOne(d: FormData, other: seq<string>)
    ensures 0.0 <= CompareKeywords(GenerateKeywords(d), other) <= 1.0
  {
    OverlapAtMostOne(GenerateKeywords(d), other);
  }

  /** Inputs the form draws from outside: the new report's id, the picked
      date already formatted, the current clock time as text and timestamp,
      and the id suffix of the fallback demo account. */
  datatype Submission = Submission(id: string, date: string, clockTime: string, now: int, demoSuffix: string)

  const DemoUserPrefix := "demo-user-"

  /** The owner of a new report: the logged-in user, else a demo account. */
  function OwnerId(current: Option<User>, sub: Submission): (r: string)
    ensures current.Some? ==> r == current.value.id
    ensures current.None? ==> StartsWith(r, DemoUserPrefix)
  {
    match current
    case Some(u) => u.id
    case None =>
      var r := DemoUserPrefix + sub.demoSuffix;
      assert r[..|DemoUserPrefix|] == DemoUserPrefix;
      r
  }

  /** The report `handleSubmit` builds. `image` is the uploaded photo's data
      URL, if any; `aiText` is the photo description, `None` when describing
      it failed. */
  function NewItem(kind: ItemType, d: FormData, current: Option<User>, image: Option<string>,
                   aiText: Option<string>, sub: Submission): (x: Item)
    ensures x.id == sub.id && x.kind == kind && x.status == Pending && x.createdAt == sub.now
    ensures x.name == d.name && x.description == d.description && x.category == d.category
    ensures x.location == d.location && x.date == sub.date
    ensures x.brand.None? <==> d.brand == ""
    ensures OrEmpty(x.brand) == d.brand
    ensures x.identifyingFeatures.None? <==> d.identifyingFeatures == ""
    ensures OrEmpty(x.identifyingFeatures) == d.identifyingFeatures
    ensures x.imageUrl.None? <==> !Truthy(image)
    ensures Truthy(image) ==> x.imageUrl == image
    ensures x.time == (if d.time == "" then sub.clockTime else d.time)
    ensures x.reward.Some? && (x.reward.value <==> d.reward == "yes")
    ensures x.userId == OwnerId(current, sub)
    ensures x.keywords == Some(GenerateKeywords(d))
    ensures x.aiDescription.Some?
    ensures !Truthy(image) ==> x.aiDescription == Some("")
    ensures Truthy(image) && aiText.Some? ==> x.aiDescription == aiText
    ensures Truthy(image) && aiText.None? ==> x.aiDescription == Some("")
  {
    var ai := if Truthy(image) && aiText.Some? then aiText.value else "";
    Item(sub.id, kind, d.name, d.description, d.category, Optional(d.brand), sub.date,
         if d.time == "" then sub.clockTime else d.time,
         d.location, Optional(OrEmpty(image)), Optional(d.identifyingFeatures), Some(d.reward == "yes"),
         OwnerId(current, sub), sub.now, Pending, Some(ai), Some(GenerateKeywords(d)))
  }

  /** A text field as stored: left out when blank. */
  function Optional(s: string): (r: Option<string>)
    ensures r.None? <==> s == ""
    ensures OrEmpty(r) == s
  {
    if s == "" then None else Some(s)
  }

  const DashboardRoute := "/dashboard"
  const SearchRoute := "/match-search?itemId="

  /** `handleSubmit`: saves the new report, which also runs the automatic
      matcher, and picks the page to open next: the match search for the new
      lost report, the dashboard after a found one. */
  function HandleSubmit(st: Store, kind: ItemType, d: FormData, image: Option<string>,
                        aiText: Option<string>, sub: Submission, ids: nat -> string): (r: (Store, string))
    ensures r.0.items == st.items + [NewItem(kind, d, st.currentUser, image, aiText, sub)]
    ensures r.0.users == st.users && r.0.currentUser == st.currentUser
    ensures KeptFrom(st.matches, r.0.matches)
    ensures var x := NewItem(kind, d, st.currentUser, image, aiText, sub);
      var pairs := PairsFor(st.(items := st.items + [x]), x);
      && OnlyOffers(st.matches, r.0.matches, Offers(pairs, ids, 0, sub.now))
      && |r.0.notifications| == |st.notifications| + 2 * |Filter(pairs, Qualifies)|
      && r.0.notifications[..|st.notifications|] == st.notifications
      && UnreadMatchNotices(r.0.notifications, |st.notifications|)
    ensures kind == Lost ==> r.1 == SearchRoute + sub.id
    ensures kind == Found ==> r.1 == DashboardRoute
  {
    var x := NewItem(kind, d, st.currentUser, image, aiText, sub);
    (SaveItem(st, x, ids, sub.now), if kind == Lost then SearchRoute + x.id else DashboardRoute)
  }

  /** A submitted report can be looked up by its id whenever that id was new. */
  lemma SubmittedReportIsStored(st: Store, kind: ItemType, d: FormData, image: Option<string>,
                                aiText: Option<string>, sub: Submission, ids: nat -> string)
    requires !HasKey(st.items, ItemId, sub.id)
    ensures GetItemById(HandleSubmit(st, kind, d, image, aiText, sub, ids).0, sub.id) ==
      Some(NewItem(kind, d, st.currentUser, image, aiText, sub))
  {
    var r := HandleSubmit(st, kind, d, image, aiText, sub, ids).0;
    AppendedItemIsFound(st, r, NewItem(kind, d, st.currentUser, image, aiText, sub));
  }
}

=== FILE: matching.dfy ===
/** Saving a report and the automatic matching that follows it: every pair of
    a lost and a found report scoring at least 0.4 is offered to the match
    table and both owners are notified. Fresh ids come from `ids`, consumed
    three per qualifying pair (match, owner notice, finder notice) in the
    order the application draws them; `now` is the one timestamp of the call. */
module Matching {
  import opened Options
  import opened Records
  import opened Seqs
  import opened Similarity
  import opened Database

  const MatchThreshold: real := 0.4
  const MatchTitle := "Potential Match Found!"

  /** A (lost, found) pair that scores at or above the threshold. */
  predicate Qualifies(p: (Item, Item)) {
    CalculateSimilarity(p.0, p.1) >= MatchThreshold
  }

  /** The pairs of the nested loop `for lost of losts: for found of founds`,
      in loop order. */
  function AllPairs(losts: seq<Item>, founds: seq<Item>): (r: seq<(Item, Item)>)
    ensures forall k :: 0 <= k < |r| ==> r[k].0 in losts && r[k].1 in founds
    ensures forall i, j :: 0 <= i < |losts| && 0 <= j < |founds| ==> (losts[i], founds[j]) in r
  {
    if |losts| == 0 then []
    else
      var row := seq(|founds|, j requires 0 <= j < |founds| => (losts[0], founds[j]));
      var rest := AllPairs(losts[1..], founds);
      assert forall i :: 1 <= i < |losts| ==> losts[i] == losts[1..][i - 1];
      assert forall j :: 0 <= j < |founds| ==> row[j] == (losts[0], founds[j]);
      row + rest
  }

  function OwnerNotice(lost: Item, matchId: string, id: string, now: int): Notification {
    Notification(id, lost.userId, MatchTitle,
                 "We found a potential match for your lost " + lost.name + ".",
                 Some(lost.id), Some(matchId), false, now, None, None, None)
  }

  function FinderNotice(found: Item, matchId: string, id: string, now: int): Notification {
    Notification(id, found.userId, MatchTitle,
                 "We found a potential owner for the " + found.name + " you found.",
                 Some(found.id), Some(matchId), false, now, None, None, None)
  }

  /** One step of the loop: a qualifying pair is offered as a pending match
      and both owners are notified; the notices carry the id of the offered
      match, whether or not it was the one stored. */
  function CheckPair(st: Store, p: (Item, Item), ids: nat -> string, next: nat, now: int): (r: Store)
    requires Qualifies(p)
    ensures r.users == st.users && r.items == st.items && r.currentUser == st.currentUser
    ensures r.notifications == st.notifications +
      [OwnerNotice(p.0, ids(next), ids(next + 1), now), FinderNotice(p.1, ids(next), ids(next + 2), now)]
    ensures UniquePairs(st.matches) ==> UniquePairs(r.matches)
    ensures UnreadMatchNotices(r.notifications, |st.notifications|)
    ensures KeptFrom(st.matches, r.matches)
    ensures Recorded(r.matches, p.0.id, p.1.id, CalculateSimilarity(p.0, p.1))
    ensures r.matches == SaveMatch(st, Offer(p, ids(next), now)).1.matches
    ensures OnlyOffers(st.matches, r.matches, [Offer(p, ids(next), now)])
  {
    var m := Offer(p, ids(next), now);
    var n1, n2 := OwnerNotice(p.0, ids(next), ids(next + 1), now), FinderNotice(p.1, ids(next), ids(next + 2), now);
    var r := CreateNotification(CreateNotification(SaveMatch(st, m).1, n1), n2);
    CheckPairFacts(st, m, n1, n2, r);
    r
  }

  /** What saving one match and appending two match notices does to a store. */
  lemma CheckPairFacts(st: Store, m: Match, n1: Notification, n2: Notification, r: Store)
    requires r == CreateNotification(CreateNotification(SaveMatch(st, m).1, n1), n2)
    requires !n1.isRead && n1.title == MatchTitle && !n2.isRead && n2.title == MatchTitle
    ensures r.users == st.users && r.items == st.items && r.currentUser == st.currentUser
    ensures r.notifications == st.notifications + [n1, n2]
    ensures UniquePairs(st.matches) ==> UniquePairs(r.matches)
    ensures UnreadMatchNotices(r.notifications, |st.notifications|)
    ensures KeptFrom(st.matches, r.matches)
    ensures Recorded(r.matches, m.lostItemId, m.foundItemId, m.similarity)
    ensures r.matches == SaveMatch(st, m).1.matches
    ensures OnlyOffers(st.matches, r.matches, [m])
  {
    assert r.matches == SaveMatch(st, m).1.matches;
    SaveMatchRecordsPair(st, m);
    SaveMatchOnlyOffers(st, m);
    SaveMatchUniqueness(st, m);
  }

  lemma SaveMatchUniqueness(st: Store, m: Match)
    ensures UniquePairs(st.matches) ==> UniquePairs(SaveMatch(st, m).1.matches)
  {
    if UniquePairs(st.matches) {
      SaveMatchKeepsPairsUnique(st, m);
    }
  }

  /** Every match of `before` is still at its place in `after`, with the same
      id, pair, status and time and a similarity that has not dropped. */
  ghost predicate KeptFrom(before: seq<Match>, after: seq<Match>) {
    && |before| <= |after|
    && forall i :: 0 <= i < |before| ==>
         after[i].(similarity := before[i].similarity) == before[i] &&
         after[i].similarity >= before[i].similarity
  }

  /** The pair is on record with at least similarity `s`. */
  ghost predicate Recorded(ms: seq<Match>, lostId: string, foundId: string, s: real) {
    exists k :: 0 <= k < |ms| && ms[k].lostItemId == lostId && ms[k].foundItemId == foundId &&
      ms[k].similarity >= s
  }

  lemma KeptFromTransitive(a: seq<Match>, b: seq<Match>, c: seq<Match>)
    requires KeptFrom(a, b) && KeptFrom(b, c)
    ensures KeptFrom(a, c)
  {
    forall i | 0 <= i < |a|
      ensures c[i].(similarity := a[i].similarity) == a[i] && c[i].similarity >= a[i].similarity
    {
      assert c[i].(similarity := b[i].similarity) == b[i];
      assert b[i].(similarity := a[i].similarity) == a[i];
    }
  }

  lemma RecordedKept(a: seq<Match>, b: seq<Match>, lostId: string, foundId: string, s: real)
    requires Recorded(a, lostId, foundId, s) && KeptFrom(a, b)
    ensures Recorded(b, lostId, foundId, s)
  {
    var k :| 0 <= k < |a| && a[k].lostItemId == lostId && a[k].foundItemId == foundId &&
      a[k].similarity >= s;
    assert b[k].(similarity := a[k].similarity) == a[k];
  }

  /** The pending match the loop offers for a pair, under the id drawn for it. */
  function Offer(p: (Item, Item), id: string, now: int): Match {
    Match(id, p.0.id, p.1.id, CalculateSimilarity(p.0, p.1), MatchPending, now)
  }

  /** Some offer names the pair of `m` with exactly its similarity. */
  ghost predicate ScoreOffered(m: Match, offers: seq<Match>) {
    exists j :: 0 <= j < |offers| && PairOf(offers[j]) == PairOf(m) && offers[j].similarity == m.similarity
  }

  /** `m` is one of the offers, up to its similarity. */
  ghost predicate FromOffer(m: Match, offers: seq<Match>) {
    exists j :: 0 <= j < |offers| && m.(similarity := offers[j].similarity) == offers[j]
  }

  /** Going from `before` to `after` only applied `offers`: every earlier match
      is kept, a similarity that changed is one offered for that pair, and an
      appended match is an offer whose similarity is one offered for its pair. */
  ghost predicate OnlyOffers(before: seq<Match>, after: seq<Match>, offers: seq<Match>) {
    && KeptFrom(before, after)
    && (forall i :: 0 <= i < |before| && after[i].similarity != before[i].similarity ==>
          ScoreOffered(after[i], offers))
    && (forall i :: |before| <= i < |after| ==> FromOffer(after[i], offers) && ScoreOffered(after[i], offers))
  }

  /** Saving one match applies just that offer. */
  lemma SaveMatchOnlyOffers(st: Store, m: Match)
    ensures OnlyOffers(st.matches, SaveMatch(st, m).1.matches, [m])
  {
    var ms := SaveMatch(st, m).1.matches;
    SaveMatchRecordsPair(st, m);
    if !HasKey(st.matches, PairOf, PairOf(m)) {
      assert ms[|st.matches|] == m;
    } else {
      var k :| FirstWith(st.matches, PairOf, PairOf(m), k) &&
        ms == st.matches[k := Raised(st.matches[k], m)];
      forall i | 0 <= i < |st.matches| && ms[i].similarity != st.matches[i].similarity
        ensures ScoreOffered(ms[i], [m])
      {
        assert i == k && [m][0] == m;
      }
    }
  }

  lemma ScoreOfferedGrows(m: Match, o1: seq<Match>, o2: seq<Match>)
    ensures ScoreOffered(m, o1) ==> ScoreOffered(m, o1 + o2)
    ensures ScoreOffered(m, o2) ==> ScoreOffered(m, o1 + o2)
  {
    if ScoreOffered(m, o1) {
      var j :| 0 <= j < |o1| && PairOf(o1[j]) == PairOf(m) && o1[j].similarity == m.similarity;
      assert (o1 + o2)[j] == o1[j];
    }
    if ScoreOffered(m, o2) {
      var j :| 0 <= j < |o2| && PairOf(o2[j]) == PairOf(m) && o2[j].similarity == m.similarity;
      assert (o1 + o2)[|o1| + j] == o2[j];
    }
  }

  lemma FromOfferGrows(m: Match, o1: seq<Match>, o2: seq<Match>)
    ensures FromOffer(m, o1) ==> FromOffer(m, o1 + o2)
    ensures FromOffer(m, o2) ==> FromOffer(m, o1 + o2)
  {
    if FromOffer(m, o1) {
      var j :| 0 <= j < |o1| && m.(similarity := o1[j].similarity) == o1[j];
      assert (o1 + o2)[j] == o1[j];
    }
    if FromOffer(m, o2) {
      var j :| 0 <= j < |o2| && m.(similarity := o2[j].similarity) == o2[j];
      assert (o1 + o2)[|o1| + j] == o2[j];
    }
  }

  /** Applying two batches of offers in turn applies both. */
  lemma OnlyOffersCompose(a: seq<Match>, b: seq<Match>, c: seq<Match>, o1: seq<Match>, o2: seq<Match>)
    requires OnlyOffers(a, b, o1) && OnlyOffers(b, c, o2)
    ensures OnlyOffers(a, c, o1 + o2)
  {
    KeptFromTransitive(a, b, c);
    forall i | 0 <= i < |c|
      ensures i < |a| && c[i].similarity != a[i].similarity ==> ScoreOffered(c[i], o1 + o2)
      ensures |a| <= i ==> FromOffer(c[i], o1 + o2) && ScoreOffered(c[i], o1 + o2)
    {
      ScoreOfferedGrows(c[i], o1, o2);
      FromOfferGrows(c[i], o1, o2);
      if i < |b| {
        assert c[i].(similarity := b[i].similarity) == b[i];
        if c[i].similarity == b[i].similarity {
          assert c[i] == b[i];
        } else {
          assert ScoreOffered(c[i], o2);
        }
        if |a| <= i {
          var j :| 0 <= j < |o1| && b[i].(similarity := o1[j].similarity) == o1[j];
          assert c[i].(similarity := o1[j].similarity) == o1[j];
        }
      }
    }
  }

  /** The matches the loop offers, one per qualifying pair in loop order,
      each under the first of the three ids drawn for it. */
  function Offers(pairs: seq<(Item, Item)>, ids: nat -> string, next: nat, now: int): (r: seq<Match>)
    ensures |r| == |Filter(pairs, Qualifies)|
    decreases |pairs|
  {
    if |pairs| == 0 then []
    else
      FilterCons(pairs, Qualifies);
      if Qualifies(pairs[0]) then [Offer(pairs[0], ids(next), now)] + Offers(pairs[1..], ids, next + 3, now)
      else Offers(pairs[1..], ids, next, now)
  }

  /** `m` is a pending match made `now` for a qualifying pair among `pairs`,
      at that pair's score. */
  ghost predicate OfferedFor(m: Match, pairs: seq<(Item, Item)>, now: int) {
    exists k :: 0 <= k < |pairs| && Qualifies(pairs[k]) && m == Offer(pairs[k], m.id, now)
  }

  /** Each offer is a pending match, made now, for a qualifying pair at that
      pair's score. */
  lemma OffersQualify(pairs: seq<(Item, Item)>, ids: nat -> string, next: nat, now: int)
    ensures var o := Offers(pairs, ids, next, now);
      forall j :: 0 <= j < |o| ==> OfferedFor(o[j], pairs, now)
  {
    forall j | 0 <= j < |Offers(pairs, ids, next, now)|
      ensures OfferedFor(Offers(pairs, ids, next, now)[j], pairs, now)
    {
      OfferQualifies(pairs, ids, next, now, j);
    }
  }

  lemma {:induction false} OfferQualifies(pairs: seq<(Item, Item)>, ids: nat -> string, next: nat, now: int, j: nat)
    requires j < |Offers(pairs, ids, next, now)|
    ensures OfferedFor(Offers(pairs, ids, next, now)[j], pairs, now)
    decreases |pairs|
  {
    if Qualifies(pairs[0]) {
      var o1 := Offers(pairs[1..], ids, next + 3, now);
      assert Offers(pairs, ids, next, now) == [Offer(pairs[0], ids(next), now)] + o1;
      if j == 0 {
        OfferedForHead(Offer(pairs[0], ids(next), now), pairs, now);
      } else {
        OfferQualifies(pairs[1..], ids, next + 3, now, j - 1);
        OfferedForTail(o1[j - 1], pairs, now);
      }
    } else {
      OfferQualifies(pairs[1..], ids, next, now, j);
      OfferedForTail(Offers(pairs[1..], ids, next, now)[j], pairs, now);
    }
  }

  lemma OfferedForHead(m: Match, pairs: seq<(Item, Item)>, now: int)
    requires |pairs| > 0 && Qualifies(pairs[0]) && m == Offer(pairs[0], m.id, now)
    ensures OfferedFor(m, pairs, now)
  {
  }

  lemma OfferedForTail(m: Match, pairs: seq<(Item, Item)>, now: int)
    requires |pairs| > 0 && OfferedFor(m, pairs[1..], now)
    ensures OfferedFor(m, pairs, now)
  {
    var k :| 0 <= k < |pairs[1..]| && Qualifies(pairs[1..][k]) && m == Offer(pairs[1..][k], m.id, now);
    assert pairs[1..][k] == pairs[k + 1];
  }

  /** The loop of `checkForMatches` over the pairs in order. */
  function CheckPairs(st: Store, pairs: seq<(Item, Item)>, ids: nat -> string, next: nat, now: int): (r: Store)
    ensures r.users == st.users && r.items == st.items && r.currentUser == st.currentUser
    ensures |r.notifications| == |st.notifications| + 2 * |Filter(pairs, Qualifies)|
    ensures r.notifications[..|st.notifications|] == st.notifications
    ensures UnreadMatchNotices(r.notifications, |st.notifications|)
    decreases |pairs|
  {
    if |pairs| == 0 then st
    else
      FilterCons(pairs, Qualifies);
      if Qualifies(pairs[0]) then
        var st1 := CheckPair(st, pairs[0], ids, next, now);
        var r := CheckPairs(st1, pairs[1..], ids, next + 3, now);
        NoticesExtend(st.notifications, st1.notifications, r.notifications);
        r
      else
        CheckPairs(st, pairs[1..], ids, next, now)
  }

  /** Every notification from position `from` on is an unread match notice. */
  ghost predicate UnreadMatchNotices(ns: seq<Notification>, from: nat) {
    forall i :: from <= i < |ns| ==> !ns[i].isRead && ns[i].title == MatchTitle
  }

  /** Match notices appended after match notices extend the same list. */
  lemma NoticesExtend(a: seq<Notification>, b: seq<Notification>, c: seq<Notification>)
    requires |a| <= |b| <= |c| && b[..|a|] == a && c[..|b|] == b
    requires UnreadMatchNotices(b, |a|) && UnreadMatchNotices(c, |b|)
    ensures c[..|a|] == a && UnreadMatchNotices(c, |a|)
  {
    assert c[..|a|] == c[..|b|][..|a|];
    UnreadNoticesCompose(b, c, |a|);
  }

  lemma UnreadNoticesCompose(a: seq<Notification>, b: seq<Notification>, from: nat)
    requires |a| <= |b| && b[..|a|] == a
    requires UnreadMatchNotices(a, from) && UnreadMatchNotices(b, |a|)
    ensures UnreadMatchNotices(b, from)
  {
    forall i | from <= i < |a| ensures b[i] == a[i] {
      assert b[..|a|][i] == b[i];
    }
  }

  /** Checking pairs never stores a second match for a pair. */
  lemma {:induction false} CheckPairsKeepsPairsUnique(st: Store, pairs: seq<(Item, Item)>,
                                                     ids: nat -> string, next: nat, now: int)
    requires UniquePairs(st.matches)
    ensures UniquePairs(CheckPairs(st, pairs, ids, next, now).matches)
    decreases |pairs|
  {
    if |pairs| > 0 {
      if Qualifies(pairs[0]) {
        CheckPairsKeepsPairsUnique(CheckPair(st, pairs[0], ids, next, now), pairs[1..], ids, next + 3, now);
      } else {
        CheckPairsKeepsPairsUnique(st, pairs[1..], ids, next, now);
      }
    }
  }

  /** Checking pairs applies exactly the loop's offers to the match table:
      earlier matches are kept, and whatever changed or was added comes from
      an offer for a qualifying pair. */
  lemma {:induction false} CheckPairsOnlyOffers(st: Store, pairs: seq<(Item, Item)>,
                                               ids: nat -> string, next: nat, now: int)
    ensures OnlyOffers(st.matches, CheckPairs(st, pairs, ids, next, now).matches, Offers(pairs, ids, next, now))
    decreases |pairs|
  {
    if |pairs| == 0 {
    } else if Qualifies(pairs[0]) {
      var st1 := CheckPair(st, pairs[0], ids, next, now);
      CheckPairsOnlyOffers(st1, pairs[1..], ids, next + 3, now);
      OnlyOffersCompose(st.matches, st1.matches, CheckPairs(st1, pairs[1..], ids, next + 3, now).matches,
                        [Offer(pairs[0], ids(next), now)], Offers(pairs[1..], ids, next + 3, now));
    } else {
      CheckPairsOnlyOffers(st, pairs[1..], ids, next, now);
    }
  }

  /** Every qualifying pair ends up on record with at least its score. */
  lemma {:induction false} CheckPairsRecordsQualifying(st: Store, pairs: seq<(Item, Item)>,
                                                      ids: nat -> string, next: nat, now: int)
    ensures forall k :: 0 <= k < |pairs| && Qualifies(pairs[k]) ==>
      Recorded(CheckPairs(st, pairs, ids, next, now).matches,
               pairs[k].0.id, pairs[k].1.id, CalculateSimilarity(pairs[k].0, pairs[k].1))
    decreases |pairs|
  {
    if |pairs| > 0 {
      var r := CheckPairs(st, pairs, ids, next, now);
      var st1 := if Qualifies(pairs[0]) then CheckPair(st, pairs[0], ids, next, now) else st;
      var next1 := if Qualifies(pairs[0]) then next + 3 else next;
      assert r == CheckPairs(st1, pairs[1..], ids, next1, now);
      CheckPairsRecordsQualifying(st1, pairs[1..], ids, next1, now);
      forall k | 0 <= k < |pairs| && Qualifies(pairs[k])
        ensures Recorded(r.matches, pairs[k].0.id, pairs[k].1.id, CalculateSimilarity(pairs[k].0, pairs[k].1))
      {
        if k == 0 {
          CheckPairsOnlyOffers(st1, pairs[1..], ids, next1, now);
          RecordedKept(st1.matches, r.matches, pairs[0].0.id, pairs[0].1.id,
                       CalculateSimilarity(pairs[0].0, pairs[0].1));
        } else {
          assert pairs[k] == pairs[1..][k - 1];
        }
      }
    }
  }

  /** Both owners of every qualifying pair get an unread notice about their
      own report. */
  lemma {:induction false} CheckPairsNotifiesBothOwners(st: Store, pairs: seq<(Item, Item)>,
                                                       ids: nat -> string, next: nat, now: int)
    ensures var ns := CheckPairs(st, pairs, ids, next, now).notifications;
      forall k :: 0 <= k < |pairs| && Qualifies(pairs[k]) ==>
        Notified(ns, pairs[k].0) && Notified(ns, pairs[k].1)
    decreases |pairs|
  {
    if |pairs| > 0 {
      var r := CheckPairs(st, pairs, ids, next, now);
      var st1 := if Qualifies(pairs[0]) then CheckPair(st, pairs[0], ids, next, now) else st;
      var next1 := if Qualifies(pairs[0]) then next + 3 else next;
      assert r == CheckPairs(st1, pairs[1..], ids, next1, now);
      CheckPairsNotifiesBothOwners(st1, pairs[1..], ids, next1, now);
      forall k | 0 <= k < |pairs| && Qualifies(pairs[k])
        ensures Notified(r.notifications, pairs[k].0) && Notified(r.notifications, pairs[k].1)
      {
        if k == 0 {
          var n := |st.notifications|;
          assert r.notifications[..n + 2] == st1.notifications by {
            assert r.notifications[..|st1.notifications|] == st1.notifications;
          }
          assert r.notifications[n] == st1.notifications[n];
          assert r.notifications[n + 1] == st1.notifications[n + 1];
        } else {
          assert pairs[k] == pairs[1..][k - 1];
        }
      }
    }
  }

  /** Some unread notice about `x` is addressed to its owner. */
  ghost predicate Notified(ns: seq<Notification>, x: Item) {
    exists i :: 0 <= i < |ns| && ns[i].userId == x.userId && ns[i].relatedItemId == Some(x.id) &&
      !ns[i].isRead && ns[i].title == MatchTitle
  }

  /** `checkForMatches`: a single lost report against all found reports, or
      all lost reports against a single found one. */
  function CheckForMatches(st: Store, losts: seq<Item>, founds: seq<Item>,
                           ids: nat -> string, now: int): (r: Store)
    ensures r.users == st.users && r.items == st.items && r.currentUser == st.currentUser
    ensures |r.notifications| == |st.notifications| + 2 * |Filter(AllPairs(losts, founds), Qualifies)|
    ensures r.notifications[..|st.notifications|] == st.notifications
    ensures UnreadMatchNotices(r.notifications, |st.notifications|)
    ensures OnlyOffers(st.matches, r.matches, Offers(AllPairs(losts, founds), ids, 0, now))
  {
    CheckPairsOnlyOffers(st, AllPairs(losts, founds), ids, 0, now);
    CheckPairs(st, AllPairs(losts, founds), ids, 0, now)
  }

  /** `saveItem`: stores the report, then matches it against every report of
      the opposite kind already stored. */
  function SaveItem(st: Store, item: Item, ids: nat -> string, now: int): (r: Store)
    ensures r.items == st.items + [item]
    ensures r.users == st.users && r.currentUser == st.currentUser
    ensures KeptFrom(st.matches, r.matches)
    ensures OnlyOffers(st.matches, r.matches, Offers(PairsFor(st.(items := st.items + [item]), item), ids, 0, now))
    ensures |r.notifications| ==
            |st.notifications| + 2 * |Filter(PairsFor(st.(items := st.items + [item]), item), Qualifies)|
    ensures r.notifications[..|st.notifications|] == st.notifications
    ensures UnreadMatchNotices(r.notifications, |st.notifications|)
  {
    var st1 := st.(items := st.items + [item]);
    CheckPairsOnlyOffers(st1, PairsFor(st1, item), ids, 0, now);
    CheckPairs(st1, PairsFor(st1, item), ids, 0, now)
  }

  /** The pairs a newly stored report is checked in, lost side first. */
  function PairsFor(st1: Store, item: Item): (r: seq<(Item, Item)>)
    ensures item.kind == Lost ==>
              forall k :: 0 <= k < |r| ==> r[k].0 == item && r[k].1.kind == Found && r[k].1 in st1.items
    ensures item.kind == Found ==>
              forall k :: 0 <= k < |r| ==> r[k].1 == item && r[k].0.kind == Lost && r[k].0 in st1.items
  {
    if item.kind == Lost then AllPairs([item], FoundItems(st1)) else AllPairs(LostItems(st1), [item])
  }

  /** Saving a report never stores a second match for a pair. */
  lemma SaveItemKeepsPairsUnique(st: Store, item: Item, ids: nat -> string, now: int)
    requires UniquePairs(st.matches)
    ensures UniquePairs(SaveItem(st, item, ids, now).matches)
  {
    var st1 := st.(items := st.items + [item]);
    CheckPairsKeepsPairsUnique(st1, PairsFor(st1, item), ids, 0, now);
  }

  /** A new report is compared with every stored report of the opposite kind:
      each one it scores at least 0.4 with is on record afterwards, and both
      owners are notified. */
  lemma SaveItemMatchesOppositeReports(st: Store, item: Item, ids: nat -> string, now: int, other: Item)
    requires other in st.items && other.kind != item.kind
    requires var p := if item.kind == Lost then (item, other) else (other, item); Qualifies(p)
    ensures var p := if item.kind == Lost then (item, other) else (other, item);
      var r := SaveItem(st, item, ids, now);
      Recorded(r.matches, p.0.id, p.1.id, CalculateSimilarity(p.0, p.1)) &&
      Notified(r.notifications, item) && Notified(r.notifications, other)
  {
    var st1 := st.(items := st.items + [item]);
    var p := if item.kind == Lost then (item, other) else (other, item);
    var k := OppositePairListed(st, item, other);
    CheckPairsRecordsQualifying(st1, PairsFor(st1, item), ids, 0, now);
    CheckPairsNotifiesBothOwners(st1, PairsFor(st1, item), ids, 0, now);
    assert PairsFor(st1, item)[k] == p;
  }

  /** A stored report of the opposite kind is among the pairs a new report
      is checked in. */
  lemma OppositePairListed(st: Store, item: Item, other: Item) returns (k: int)
    requires other in st.items && other.kind != item.kind
    ensures var pairs := PairsFor(st.(items := st.items + [item]), item);
      0 <= k < |pairs| && pairs[k] == (if item.kind == Lost then (item, other) else (other, item))
  {
    var st1 := st.(items := st.items + [item]);
    var j :| 0 <= j < |st.items| && st.items[j] == other;
    assert st1.items[j] == other;
    assert ([item])[0] == item;
    if item.kind == Lost {
      var f := FoundItems(st1);
      var jf :| 0 <= jf < |f| && f[jf] == other;
      var pairs := AllPairs([item], f);
      assert (item, other) in pairs;
      k :| 0 <= k < |pairs| && pairs[k] == (item, other);
    } else {
      var l := LostItems(st1);
      var jl :| 0 <= jl < |l| && l[jl] == other;
      var pairs := AllPairs(l, [item]);
      assert (other, item) in pairs;
      k :| 0 <= k < |pairs| && pairs[k] == (other, item);
    }
  }

  /** When nothing qualifies, matching changes nothing. */
  lemma {:induction false} NothingQualifiesNothingChanges(st: Store, pairs: seq<(Item, Item)>,
                                                         ids: nat -> string, next: nat, now: int)
    requires forall k :: 0 <= k < |pairs| ==> !Qualifies(pairs[k])
    ensures CheckPairs(st, pairs, ids, next, now) == st
    decreases |pairs|
  {
    if |pairs| > 0 {
      NothingQualifiesNothingChanges(st, pairs[1..], ids, next, now);
    }
  }

  /** When the pair is already on record, the offered match is dropped but the
      two notices still point at its id, which names no stored match. */
  lemma KnownPairLeavesDanglingMatchId(st: Store, p: (Item, Item), ids: nat -> string, next: nat, now: int)
    requires Qualifies(p)
    requires exists k :: 0 <= k < |st.matches| && st.matches[k].lostItemId == p.0.id &&
               st.matches[k].foundItemId == p.1.id
    requires forall k :: 0 <= k < |st.matches| ==> st.matches[k].id != ids(next)
    ensures var r := CheckPair(st, p, ids, next, now);
      r.notifications[|st.notifications|].matchId == Some(ids(next)) &&
      forall k :: 0 <= k < |r.matches| ==> r.matches[k].id != ids(next)
  {
    var m := Match(ids(next), p.0.id, p.1.id, CalculateSimilarity(p.0, p.1), MatchPending, now);
    var k0 :| 0 <= k0 < |st.matches| && st.matches[k0].lostItemId == p.0.id &&
      st.matches[k0].foundItemId == p.1.id;
    assert PairOf(st.matches[k0]) == PairOf(m);
    SaveKnownPairKeepsIds(st, m);
    assert CheckPair(st, p, ids, next, now).matches == SaveMatch(st, m).1.matches;
  }
}

=== FILE: navbar.dfy ===
/** The navigation bar: which link is highlighted and the avatar initials of
    the logged-in user. The current path is an input. */
module Navbar {
  import opened Text

  datatype NavLink = NavLink(name: string, path: string)

  const NavLinks: seq<NavLink> := [
    NavLink("Home", "/"),
    NavLink("Services", "/services"),
    NavLink("Match Search", "/match-search"),
    NavLink("About Us", "/about"),
    NavLink("Contact", "/contact")
  ]

  /** `isActive`: a link is highlighted when it names the current path
      exactly; a path of another length, such as a sub-page, does not
      highlight it. */
  predicate IsActive(pathname: string, path: string): (b: bool)
    ensures pathname == path ==> b
    ensures |pathname| != |path| ==> !b
  {
    pathname == path
  }

  /** The links carry distinct paths, so at most one is highlighted. */
  lemma AtMostOneActiveLink(pathname: string, i: int, j: int)
    requires 0 <= i < |NavLinks| && 0 <= j < |NavLinks|
    requires IsActive(pathname, NavLinks[i].path) && IsActive(pathname, NavLinks[j].path)
    ensures i == j
  {
  }

  /** `getInitials`: the first letter of every space-separated part of the
      name, upper-cased. */
  function GetInitials(name: string): (r: string)
    ensures |r| == |Initials(name)|
    ensures forall i :: 0 <= i < |r| ==> r[i] == UpperChar(Initials(name)[i])
    ensures |r| <= |Split(name, Space)|
  {
    Upper(Initials(name))
  }

  /** A name without spaces gives its first letter, upper-cased; the empty
      name gives nothing. */
  lemma GetInitialsOfWord(w: string)
    requires forall i :: 0 <= i < |w| ==> w[i] != ' '
    ensures GetInitials(w) == (if w == "" then "" else [UpperChar(w[0])])
  {
    InitialsOfWord(w);
  }

  /** The part before the first space contributes its upper-cased first
      letter, if any, and the rest of the name its own initials; with
      GetInitialsOfWord this determines the initials of every name. */
  lemma GetInitialsStep(w: string, rest: string)
    requires forall i :: 0 <= i < |w| ==> w[i] != ' '
    ensures GetInitials(w + " " + rest) == (if w == "" then "" else [UpperChar(w[0])]) + GetInitials(rest)
  {
    InitialsOfSpaced(w, rest);
    InitialsOfWord(w);
    UpperAppend(Initials(w), Initials(rest));
  }

  lemma UpperAppend(a: string, b: string)
    ensures Upper(a + b) == Upper(a) + Upper(b)
  {
    assert forall i :: 0 <= i < |a + b| ==> Upper(a + b)[i] == (Upper(a) + Upper(b))[i];
  }

  /** A first and a last name give two upper-case letters. */
  lemma GetInitialsOfFullName(first: string, last: string)
    requires first != "" && last != ""
    requires forall i :: 0 <= i < |first| ==> first[i] != ' '
    requires forall i :: 0 <= i < |last| ==> last[i] != ' '
    ensures GetInitials(first + " " + last) == [UpperChar(first[0]), UpperChar(last[0])]
  {
    InitialsOfSpaced(first, last);
    InitialsOfWord(first);
    InitialsOfWord(last);
  }

  /** A doubled space leaves an empty part, which adds no letter. */
  lemma GetInitialsSkipsEmptyParts(first: string, last: string)
    requires first != "" && last != ""
    requires forall i :: 0 <= i < |first| ==> first[i] != ' '
    requires forall i :: 0 <= i < |last| ==> last[i] != ' '
    ensures GetInitials(first + "  " + last) == [UpperChar(first[0]), UpperChar(last[0])]
  {
    var rest := " " + last;
    assert first + "  " + last == first + " " + rest;
    assert rest == "" + " " + last;
    InitialsOfSpaced(first, rest);
    InitialsOfSpaced("", last);
    InitialsOfWord(first);
    InitialsOfWord("");
    InitialsOfWord(last);
    assert Initials(first + "  " + last) == [first[0], last[0]];
  }
}

=== FILE: options.dfy ===
/** The `T | undefined` and `T | null` results of the application: a lookup that
    finds nothing, an optional record field that was never set. */
module Options {

  datatype Option<+T> = None | Some(value: T) {

    /** The value, or `default` when there is none (JavaScript's `x ?? default`). */
    function GetOr(default: T): T {
      match this
      case Some(v) => v
      case None => default
    }
  }
}

=== FILE: records.dfy ===
/** The four record kinds the application keeps in local storage, and the
    store that holds them together with the "current user" session entry.
    Timestamps (ISO strings in the application) are integers here, so that
    "newest first" is integer order. */
module Records {
  import opened Options

  datatype User = User(
    id: string,
    name: string,
    email: string,
    password: Option<string>,   // stored in plain text, as the application does
    createdAt: int)

  datatype ItemType = Lost | Found

  datatype ItemStatus = Pending | Matched | Claimed | Resolved

  /** A lost or found report. Optional fields are `None` when the report left
      them undefined; `keywords` is `None` only for records created elsewhere. */
  datatype Item = Item(
    id: string,
    kind: ItemType,
    name: string,
    description: string,
    category: string,
    brand: Option<string>,
    date: string,
    time: string,
    location: string,
    imageUrl: Option<string>,
    identifyingFeatures: Option<string>,
    reward: Option<bool>,
    userId: string,
    createdAt: int,
    status: ItemStatus,
    aiDescription: Option<string>,
    keywords: Option<seq<string>>)

  datatype MatchStatus = MatchPending | Approved | Rejected

  /** A proposed pairing of one lost and one found item. */
  datatype Match = Match(
    id: string,
    lostItemId: string,
    foundItemId: string,
    similarity: real,
    status: MatchStatus,
    createdAt: int)

  datatype Notification = Notification(
    id: string,
    userId: string,
    title: string,
    message: string,
    relatedItemId: Option<string>,
    matchId: Option<string>,
    isRead: bool,
    createdAt: int,
    contactEmail: Option<string>,
    contactPhone: Option<string>,
    contactName: Option<string>)

  datatype Store = Store(
    users: seq<User>,
    items: seq<Item>,
    matches: seq<Match>,
    notifications: seq<Notification>,
    currentUser: Option<User>)

  /** Reading a key that was never written yields an empty collection. */
  const EmptyStore := Store([], [], [], [], None)

  /** JavaScript truthiness of an optional string: present and non-empty. */
  predicate Truthy(s: Option<string>) {
    s.Some? && s.value != ""
  }

  /** `x.brand || ''`. */
  function OrEmpty(s: Option<string>): string {
    if Truthy(s) then s.value else ""
  }
}

=== FILE: search.dfy ===
/** The interactive match search page. Its scores are independent of the
    automatic matcher: an additive score over a selected report's fields, a
    term-overlap score for typed queries, and the image score. Results are
    shown best first and, when a report is selected, offered to the match
    table. React state becomes parameters and results. */
module Search {
  import opened Options
  import opened Records
  import opened Seqs
  import opened Sorting
  import opened Text
  import opened Database
  import opened Images
  import opened Matching

  const PlaceholderImage :=
    "https://images.unsplash.com/photo-1553062407-98eeb64c6a62?auto=format&fit=crop&q=80&w=600"
  const ReportedBy := "Anonymous User"
  /** Displayed results carry this prefix in front of a fresh id. */
  const ResultPrefix := "match-"
  const ShowThreshold: real := 0.4
  const ImageThreshold: real := 0.5

  /** Fresh ids and the clock, drawn from outside: ids of displayed results,
      ids of saved matches and ids of notifications; `formatDate` renders a
      report's date for display. */
  datatype Env = Env(resultIds: nat -> string, matchIds: nat -> string, noticeIds: nat -> string,
                     formatDate: string -> string, now: int)

  /** The report summary shown with a result. */
  datatype Summary = Summary(id: string, name: string, description: string, category: string,
                             imageUrl: string, location: string, date: string, reportedBy: string)

  datatype SearchResult = SearchResult(id: string, similarity: real, item: Summary)

  function ResultSimilarity(r: SearchResult): real { r.similarity }

  function Summarize(x: Item, env: Env): (s: Summary)
    ensures s.id == x.id && s.reportedBy == ReportedBy
    ensures Truthy(x.imageUrl) ==> s.imageUrl == x.imageUrl.value
    ensures !Truthy(x.imageUrl) ==> s.imageUrl == PlaceholderImage
  {
    Summary(x.id, x.name, x.description, x.category,
            if Truthy(x.imageUrl) then x.imageUrl.value else PlaceholderImage,
            x.location, env.formatDate(x.date), ReportedBy)
  }

  /** The `k`-th displayed result for report `x` with the given score. */
  function ResultFor(x: Item, score: real, k: nat, env: Env): (r: SearchResult)
    ensures StartsWith(r.id, ResultPrefix)
    ensures r.similarity == score && r.item == Summarize(x, env)
  {
    var r := SearchResult(ResultPrefix + env.resultIds(k), score, Summarize(x, env));
    assert r.id[..|ResultPrefix|] == ResultPrefix;
    r
  }

  // ------------------------------------------------------- additive score

  /** Either lower-cased string contains the other. */
  predicate EitherContains(a: string, b: string) {
    Contains(Lower(a), Lower(b)) || Contains(Lower(b), Lower(a))
  }

  /** Description words longer than three characters, split on non-word runs. */
  function DescriptionWords(s: string): seq<string> {
    Words(Lower(s), NonWord, 3)
  }

  function NameSignal(a: Item, b: Item): real {
    if EitherContains(a.name, b.name) then 0.3 else 0.0
  }

  function CategorySignal(a: Item, b: Item): real {
    if Lower(a.category) == Lower(b.category) then 0.2 else 0.0
  }

  function LocationSignal(a: Item, b: Item): real {
    if EitherContains(a.location, b.location) then 0.15 else 0.0
  }

  function BrandSignal(a: Item, b: Item): real {
    if Truthy(a.brand) && Truthy(b.brand) && Lower(a.brand.value) == Lower(b.brand.value) then 0.2 else 0.0
  }

  /** 0.03 per description word of `a` also in `b`'s description, at most 0.15. */
  function DescriptionSignal(a: Item, b: Item): (r: real)
    ensures 0.0 <= r <= 0.15
  {
    var common := CountIn(DescriptionWords(a.description), DescriptionWords(b.description));
    if common > 0 then Min(0.15, common as real * 0.03) else 0.0
  }

  /** The additive score of `findExistingMatches`. */
  function AdditiveScore(a: Item, b: Item): (r: real)
    ensures 0.0 <= r <= 1.0
  {
    NameSignal(a, b) + CategorySignal(a, b) + LocationSignal(a, b) + BrandSignal(a, b) + DescriptionSignal(a, b)
  }

  /** How many of the five signals fire. */
  function SignalCount(a: Item, b: Item): nat {
    (if NameSignal(a, b) > 0.0 then 1 else 0) + (if CategorySignal(a, b) > 0.0 then 1 else 0) +
    (if LocationSignal(a, b) > 0.0 then 1 else 0) + (if BrandSignal(a, b) > 0.0 then 1 else 0) +
    (if DescriptionSignal(a, b) > 0.0 then 1 else 0)
  }

  /** No single signal reaches the display threshold: a shown pair agrees on
      at least two of name, category, location, brand and description. */
  lemma ShownPairHasTwoSignals(a: Item, b: Item)
    requires AdditiveScore(a, b) >= ShowThreshold
    ensures SignalCount(a, b) >= 2
  {
  }

  /** An empty name is contained in every name, so it always earns the name
      signal. */
  lemma EmptyNameAlwaysSignals(a: Item, b: Item)
    requires a.name == "" || b.name == ""
    ensures NameSignal(a, b) == 0.3
  {
    ContainsEmpty(Lower(a.name));
    ContainsEmpty(Lower(b.name));
  }

  /** Reports of the other kind still open for matching. */
  predicate Eligible(item: Item, other: Item) {
    other.kind != item.kind && other.status != Matched && other.status != Resolved
  }

  predicate Shown(r: SearchResult) { r.similarity >= ShowThreshold }

  /** `r` shows report `x` with the given score. */
  predicate Shows(r: SearchResult, x: Item, score: real, env: Env) {
    r.item == Summarize(x, env) && r.similarity == score
  }

  /** Scores the candidates that pass `eligible` and keeps those scoring at
      least `threshold`, each under a fresh displayed id. */
  function Scored(candidates: seq<Item>, eligible: Item -> bool, score: Item -> real, threshold: real, env: Env)
    : (r: seq<SearchResult>)
    ensures |r| <= |candidates|
    ensures forall i :: 0 <= i < |r| ==> r[i].similarity >= threshold && StartsWith(r[i].id, ResultPrefix)
    decreases |candidates|
  {
    if |candidates| == 0 then []
    else
      var x := candidates[0];
      var rest := Scored(candidates[1..], eligible, score, threshold, env);
      if eligible(x) && score(x) >= threshold then [ResultFor(x, score(x), |candidates|, env)] + rest
      else rest
  }

  /** Every scored result shows an eligible candidate with its score. */
  lemma {:induction false} ScoredSound(candidates: seq<Item>, eligible: Item -> bool, score: Item -> real,
                                       threshold: real, env: Env, i: int)
    requires 0 <= i < |Scored(candidates, eligible, score, threshold, env)|
    ensures exists j :: 0 <= j < |candidates| && eligible(candidates[j]) &&
              Shows(Scored(candidates, eligible, score, threshold, env)[i], candidates[j], score(candidates[j]), env)
    decreases |candidates|
  {
    var x := candidates[0];
    var r := Scored(candidates, eligible, score, threshold, env);
    var rest := Scored(candidates[1..], eligible, score, threshold, env);
    var k: int;
    if eligible(x) && score(x) >= threshold {
      assert r == [ResultFor(x, score(x), |candidates|, env)] + rest;
      if i == 0 {
        assert Shows(r[0], candidates[0], score(candidates[0]), env);
        return;
      }
      k := i - 1;
      assert r[i] == rest[k];
    } else {
      assert r == rest;
      k := i;
    }
    ScoredSound(candidates[1..], eligible, score, threshold, env, k);
    var j :| 0 <= j < |candidates[1..]| && eligible(candidates[1..][j]) &&
             Shows(rest[k], candidates[1..][j], score(candidates[1..][j]), env);
    assert candidates[1..][j] == candidates[j + 1];
    assert Shows(r[i], candidates[j + 1], score(candidates[j + 1]), env);
  }

  /** Every eligible candidate reaching the threshold is among the results,
      at the returned position. */
  lemma {:induction false} ScoredComplete(candidates: seq<Item>, eligible: Item -> bool, score: Item -> real,
                                          threshold: real, env: Env, j: int) returns (i: int)
    requires 0 <= j < |candidates| && eligible(candidates[j]) && score(candidates[j]) >= threshold
    ensures 0 <= i < |Scored(candidates, eligible, score, threshold, env)|
    ensures Shows(Scored(candidates, eligible, score, threshold, env)[i], candidates[j], score(candidates[j]), env)
    decreases |candidates|
  {
    var x := candidates[0];
    var r := Scored(candidates, eligible, score, threshold, env);
    var rest := Scored(candidates[1..], eligible, score, threshold, env);
    if j == 0 {
      assert r == [ResultFor(x, score(x), |candidates|, env)] + rest;
      i := 0;
    } else {
      assert candidates[1..][j - 1] == candidates[j];
      var i' := ScoredComplete(candidates[1..], eligible, score, threshold, env, j - 1);
      if eligible(x) && score(x) >= threshold {
        assert r == [ResultFor(x, score(x), |candidates|, env)] + rest;
        i := i' + 1;
      } else {
        assert r == rest;
        i := i';
      }
    }
  }

  /** Every result shows an eligible candidate with its score. */
  lemma ScoredAllSound(candidates: seq<Item>, eligible: Item -> bool, score: Item -> real, threshold: real, env: Env)
    ensures forall i :: 0 <= i < |Scored(candidates, eligible, score, threshold, env)| ==>
      exists j :: 0 <= j < |candidates| && eligible(candidates[j]) &&
        Shows(Scored(candidates, eligible, score, threshold, env)[i], candidates[j], score(candidates[j]), env)
  {
    var r := Scored(candidates, eligible, score, threshold, env);
    forall i | 0 <= i < |r|
      ensures exists j :: 0 <= j < |candidates| && eligible(candidates[j]) && Shows(r[i], candidates[j], score(candidates[j]), env)
    {
      ScoredSound(candidates, eligible, score, threshold, env, i);
    }
  }

  function EligibleFor(item: Item): (f: Item -> bool)
    ensures forall o :: f(o) == Eligible(item, o)
  {
    (o: Item) => Eligible(item, o)
  }

  function AdditiveScoreFor(item: Item): (f: Item -> real)
    ensures forall o :: f(o) == AdditiveScore(item, o)
  {
    (o: Item) => AdditiveScore(item, o)
  }

  /** The eligible reports scoring at least 0.4 against `item`. */
  function ExistingMatchesFor(st: Store, item: Item, env: Env): (r: seq<SearchResult>)
    ensures forall i :: 0 <= i < |r| ==> r[i].similarity >= ShowThreshold && StartsWith(r[i].id, ResultPrefix)
    ensures forall i :: 0 <= i < |r| ==>
      exists j :: 0 <= j < |st.items| && Eligible(item, st.items[j]) &&
        Shows(r[i], st.items[j], AdditiveScore(item, st.items[j]), env)
  {
    ScoredAllSound(st.items, EligibleFor(item), AdditiveScoreFor(item), ShowThreshold, env);
    Scored(st.items, EligibleFor(item), AdditiveScoreFor(item), ShowThreshold, env)
  }

  /** Every eligible report scoring at least 0.4 against `item` is shown. */
  lemma ExistingMatchesComplete(st: Store, item: Item, env: Env)
    ensures var r := ExistingMatchesFor(st, item, env);
      forall j :: (0 <= j < |st.items| && Eligible(item, st.items[j]) && AdditiveScore(item, st.items[j]) >= ShowThreshold) ==>
        exists i :: 0 <= i < |r| && Shows(r[i], st.items[j], AdditiveScore(item, st.items[j]), env)
  {
    var r := ExistingMatchesFor(st, item, env);
    forall j | 0 <= j < |st.items| && Eligible(item, st.items[j]) && AdditiveScore(item, st.items[j]) >= ShowThreshold
      ensures exists i :: 0 <= i < |r| && Shows(r[i], st.items[j], AdditiveScore(item, st.items[j]), env)
    {
      var i := ScoredComplete(st.items, EligibleFor(item), AdditiveScoreFor(item), ShowThreshold, env, j);
    }
  }

  /** `findExistingMatches`: an unknown id finds nothing; otherwise the
      matches of the report with that id. */
  function FindExistingMatches(st: Store, itemId: string, env: Env): (r: seq<SearchResult>)
    ensures GetItemById(st, itemId).None? ==> r == []
    ensures GetItemById(st, itemId).Some? ==> r == ExistingMatchesFor(st, GetItemById(st, itemId).value, env)
  {
    match GetItemById(st, itemId)
    case None => []
    case Some(item) => ExistingMatchesFor(st, item, env)
  }

  // ---------------------------------------------------------- text search

  /** Lower-cased query split on single spaces, keeping terms longer than two. */
  function SearchTerms(query: string): seq<string> {
    Words(Lower(query), Space, 2)
  }

  /** Each search term is lower case, longer than two characters and free of
      spaces; every such space-separated part of the lowered query is a term. */
  lemma SearchTermsShape(query: string)
    ensures var r := SearchTerms(query);
      forall i :: 0 <= i < |r| ==>
                    |r[i]| > 2 && IsLower(r[i]) && forall k :: 0 <= k < |r[i]| ==> r[i][k] != ' '
    ensures var parts := Split(Lower(query), Space);
      forall i :: 0 <= i < |parts| && |parts[i]| > 2 ==> parts[i] in SearchTerms(query)
  {
    LowerIsLower(query);
    SplitPartsLower(Lower(query), Space);
    WordsShape(Lower(query), Space, 2);
  }

  /** The searchable text of a report. */
  function ItemText(x: Item): string {
    Lower(x.name + " " + x.description + " " + x.category + " " + OrEmpty(x.brand))
  }

  /** The searchable text is lower case and holds the lowered name,
      description, category and brand, in that order, one space apart. */
  lemma ItemTextHoldsFields(x: Item)
    ensures var t := ItemText(x);
      var d := |x.name| + 1;
      var c := d + |x.description| + 1;
      var b := c + |x.category| + 1;
      IsLower(t) && |t| == b + |OrEmpty(x.brand)| &&
      OccursAt(t, Lower(x.name), 0) && t[|x.name|] == ' ' &&
      OccursAt(t, Lower(x.description), d) && t[c - 1] == ' ' &&
      OccursAt(t, Lower(x.category), c) && t[b - 1] == ' ' &&
      OccursAt(t, Lower(OrEmpty(x.brand)), b)
  {
    var whole := x.name + " " + x.description + " " + x.category + " " + OrEmpty(x.brand);
    LowerIsLower(whole);
    LowerAppend(x.name + " " + x.description + " " + x.category + " ", OrEmpty(x.brand));
    LowerAppend(x.name + " " + x.description + " " + x.category, " ");
    LowerAppend(x.name + " " + x.description + " ", x.category);
    LowerAppend(x.name + " " + x.description, " ");
    LowerAppend(x.name + " ", x.description);
    LowerAppend(x.name, " ");
  }

  /** Number of terms (with repetition) that occur in `text`. */
  function MatchedTerms(terms: seq<string>, text: string): (n: nat)
    ensures n <= |terms|
    ensures n > 0 <==> exists i :: 0 <= i < |terms| && Contains(text, terms[i])
  {
    if |terms| == 0 then 0
    else
      assert forall i :: 1 <= i < |terms| ==> terms[i] == terms[1..][i - 1];
      (if Contains(text, terms[0]) then 1 else 0) + MatchedTerms(terms[1..], text)
  }

  /** `min(matched / total * 0.7 + 0.3, 1)`. */
  function TextSimilarity(matched: nat, total: nat): (r: real)
    requires 0 < matched <= total
    ensures 0.3 < r <= 1.0
  {
    RatioInUnitRange(matched, total);
    Min(matched as real / total as real * 0.7 + 0.3, 1.0)
  }

  lemma RatioInUnitRange(m: nat, t: nat)
    requires 0 < m <= t
    ensures 0.0 < m as real / t as real <= 1.0
  {
    assert (m as real / t as real) * (t as real) == m as real;
  }

  /** For a positive divisor, a quotient reaches `c` exactly when the
      dividend reaches `c` times the divisor. */
  lemma QuotientAtLeast(m: real, t: real, c: real)
    requires t > 0.0
    ensures m / t >= c <==> m >= c * t
  {
    var q := m / t;
    assert q * t == m;
    if q >= c {
      assert (q - c) * t >= 0.0;
    } else {
      assert (c - q) * t > 0.0;
    }
  }

  /** A text hit is shown exactly when at least one in seven terms matched. */
  lemma TextHitShownIff(m: nat, t: nat)
    requires 0 < m <= t
    ensures TextSimilarity(m, t) >= ShowThreshold <==> 7 * m >= t
  {
    var q := m as real / t as real;
    RatioInUnitRange(m, t);
    assert TextSimilarity(m, t) == q * 0.7 + 0.3;
    QuotientAtLeast(m as real, t as real, 1.0 / 7.0);
  }

  predicate Hit(terms: seq<string>, x: Item) {
    MatchedTerms(terms, ItemText(x)) > 0
  }

  /** The text score of a report, or 0 when it contains no term. */
  function TextScore(terms: seq<string>, x: Item): (r: real)
    ensures Hit(terms, x) ==> 0.3 < r <= 1.0
    ensures !Hit(terms, x) ==> r == 0.0
  {
    var m := MatchedTerms(terms, ItemText(x));
    if m > 0 then TextSimilarity(m, |terms|) else 0.0
  }

  function HitFor(terms: seq<string>): (f: Item -> bool)
    ensures forall x :: f(x) == Hit(terms, x)
  {
    (x: Item) => Hit(terms, x)
  }

  function TextScoreFor(terms: seq<string>): (f: Item -> real)
    ensures forall x :: f(x) == TextScore(terms, x)
  {
    (x: Item) => TextScore(terms, x)
  }

  /** The text search of `handleSearch` for the given terms: reports
      containing a term, scored by the share of terms they contain. */
  function TextResults(terms: seq<string>, items: seq<Item>, env: Env): (r: seq<SearchResult>)
    ensures forall i :: 0 <= i < |r| ==> StartsWith(r[i].id, ResultPrefix)
    ensures forall i :: 0 <= i < |r| ==>
      exists j :: 0 <= j < |items| && Hit(terms, items[j]) && Shows(r[i], items[j], TextScore(terms, items[j]), env)
  {
    ScoredAllSound(items, HitFor(terms), TextScoreFor(terms), 0.0, env);
    Scored(items, HitFor(terms), TextScoreFor(terms), 0.0, env)
  }

  /** Every report containing a term is shown by the text search. */
  lemma TextResultsComplete(terms: seq<string>, items: seq<Item>, env: Env)
    ensures var r := TextResults(terms, items, env);
      forall j :: (0 <= j < |items| && Hit(terms, items[j])) ==>
        exists i :: 0 <= i < |r| && Shows(r[i], items[j], TextScore(terms, items[j]), env)
  {
    var r := TextResults(terms, items, env);
    forall j | 0 <= j < |items| && Hit(terms, items[j])
      ensures exists i :: 0 <= i < |r| && Shows(r[i], items[j], TextScore(terms, items[j]), env)
    {
      var i := ScoredComplete(items, HitFor(terms), TextScoreFor(terms), 0.0, env, j);
    }
  }

  /** No usable term aborts the text search with `None`. */
  function TextSearch(query: string, items: seq<Item>, env: Env): (r: Option<seq<SearchResult>>)
    ensures r.None? <==> |SearchTerms(query)| == 0
    ensures r.Some? ==> r.value == TextResults(SearchTerms(query), items, env)
  {
    var terms := SearchTerms(query);
    if |terms| == 0 then None else Some(TextResults(terms, items, env))
  }

  // --------------------------------------------------------- image search

  predicate ImageHit(preview: Analysis, x: Item, analysisOf: string -> Analysis) {
    Truthy(x.imageUrl) && CompareImages(preview, analysisOf(x.imageUrl.value)) >= ImageThreshold
  }

  /** The image score of a report, or 0 when it has no image. */
  function ImageScore(preview: Analysis, x: Item, analysisOf: string -> Analysis): (r: real)
    ensures r <= 1.0
    ensures ImageHit(preview, x, analysisOf) ==> r >= ImageThreshold
  {
    if Truthy(x.imageUrl) then CompareImages(preview, analysisOf(x.imageUrl.value)) else 0.0
  }

  function ImageHitFor(preview: Analysis, analysisOf: string -> Analysis): (f: Item -> bool)
    ensures forall x :: f(x) == ImageHit(preview, x, analysisOf)
  {
    (x: Item) => ImageHit(preview, x, analysisOf)
  }

  function ImageScoreFor(preview: Analysis, analysisOf: string -> Analysis): (f: Item -> real)
    ensures forall x :: f(x) == ImageScore(preview, x, analysisOf)
  {
    (x: Item) => ImageScore(preview, x, analysisOf)
  }

  /** The image search of `handleSearch`: nothing when the uploaded image is
      not classified; otherwise reports with an image scoring at least 0.5
      against it. `analysisOf` is the classifier output for an image URL. */
  function ImageSearch(preview: Analysis, items: seq<Item>, analysisOf: string -> Analysis, env: Env)
    : (r: Option<seq<SearchResult>>)
    ensures r.None? <==> preview.topMatch.None?
    ensures r.Some? ==> forall i :: 0 <= i < |r.value| ==> StartsWith(r.value[i].id, ResultPrefix)
    ensures r.Some? ==> forall i :: 0 <= i < |r.value| ==>
      exists j :: 0 <= j < |items| && ImageHit(preview, items[j], analysisOf) &&
        Shows(r.value[i], items[j], ImageScore(preview, items[j], analysisOf), env)
  {
    if preview.topMatch.None? then None
    else
      ScoredAllSound(items, ImageHitFor(preview, analysisOf), ImageScoreFor(preview, analysisOf), ImageThreshold, env);
      Some(Scored(items, ImageHitFor(preview, analysisOf), ImageScoreFor(preview, analysisOf), ImageThreshold, env))
  }

  /** With a classified image, every report whose image scores at least 0.5
      is shown. */
  lemma ImageSearchComplete(preview: Analysis, items: seq<Item>, analysisOf: string -> Analysis, env: Env)
    requires preview.topMatch.Some?
    ensures var r := ImageSearch(preview, items, analysisOf, env).value;
      forall j :: (0 <= j < |items| && ImageHit(preview, items[j], analysisOf)) ==>
        exists i :: 0 <= i < |r| && Shows(r[i], items[j], ImageScore(preview, items[j], analysisOf), env)
  {
    var r := ImageSearch(preview, items, analysisOf, env).value;
    forall j | 0 <= j < |items| && ImageHit(preview, items[j], analysisOf)
      ensures exists i :: 0 <= i < |r| && Shows(r[i], items[j], ImageScore(preview, items[j], analysisOf), env)
    {
      var i := ScoredComplete(items, ImageHitFor(preview, analysisOf), ImageScoreFor(preview, analysisOf), ImageThreshold, env, j);
    }
  }

  // ------------------------------------------------------ display and save

  /** The lost side of the match saved for a result of the selected report. */
  function LostSide(selected: Item, r: SearchResult): string {
    if selected.kind == Lost then selected.id else r.item.id
  }

  function FoundSide(selected: Item, r: SearchResult): string {
    if selected.kind == Found then selected.id else r.item.id
  }

  /** The selected report is always on its own side of a saved match, and the
      result's report on the other. */
  lemma SidesFollowSelectedKind(selected: Item, r: SearchResult)
    ensures selected.kind == Lost ==> LostSide(selected, r) == selected.id && FoundSide(selected, r) == r.item.id
    ensures selected.kind == Found ==> FoundSide(selected, r) == selected.id && LostSide(selected, r) == r.item.id
  {
  }

  /** Offers a pending match for every shown result, in display order. */
  function SaveResults(st: Store, selected: Item, results: seq<SearchResult>, env: Env, k: nat): (r: Store)
    ensures r.users == st.users && r.items == st.items && r.notifications == st.notifications
    ensures r.currentUser == st.currentUser
    ensures KeptFrom(st.matches, r.matches)
    ensures OnlyOffers(st.matches, r.matches, ResultOffers(selected, results, env, k))
    decreases |results|
  {
    if |results| == 0 then st
    else
      var m := ResultMatch(selected, results[0], env, k);
      var st1 := SaveMatch(st, m).1;
      var r := SaveResults(st1, selected, results[1..], env, k + 1);
      SaveMatchOnlyOffers(st, m);
      ResultOffersCons(selected, results, env, k);
      OnlyOffersCompose(st.matches, st1.matches, r.matches, [m], ResultOffers(selected, results[1..], env, k + 1));
      r
  }

  /** The pending match offered for a result, under the `k`-th fresh id. */
  function ResultMatch(selected: Item, x: SearchResult, env: Env, k: nat): Match {
    Match(env.matchIds(k), LostSide(selected, x), FoundSide(selected, x), x.similarity, MatchPending, env.now)
  }

  /** The matches offered for the results, in display order from the `k`-th
      fresh id on: each pending, made now, between the selected report and
      that result's report at the result's score. */
  function ResultOffers(selected: Item, results: seq<SearchResult>, env: Env, k: nat): (r: seq<Match>)
    ensures |r| == |results|
    ensures forall i :: 0 <= i < |r| ==>
      r[i].status == MatchPending && r[i].createdAt == env.now && r[i].id == env.matchIds(k + i) &&
      PairOf(r[i]) == (LostSide(selected, results[i]), FoundSide(selected, results[i])) &&
      r[i].similarity == results[i].similarity
  {
    seq(|results|, i requires 0 <= i < |results| => ResultMatch(selected, results[i], env, k + i))
  }

  lemma ResultOffersCons(selected: Item, results: seq<SearchResult>, env: Env, k: nat)
    requires |results| > 0
    ensures ResultOffers(selected, results, env, k) ==
            [ResultMatch(selected, results[0], env, k)] + ResultOffers(selected, results[1..], env, k + 1)
  {
    var a := ResultOffers(selected, results, env, k);
    var b := [ResultMatch(selected, results[0], env, k)] + ResultOffers(selected, results[1..], env, k + 1);
    forall i | 0 <= i < |a| ensures a[i] == b[i] {
      if i > 0 {
        assert results[1..][i - 1] == results[i];
      }
    }
  }

  /** Every saved result's pair ends up on record with at least its score. */
  lemma {:induction false} SaveResultsRecords(st: Store, selected: Item, results: seq<SearchResult>, env: Env, k: nat)
    ensures var r := SaveResults(st, selected, results, env, k);
      forall i :: 0 <= i < |results| ==>
        Recorded(r.matches, LostSide(selected, results[i]), FoundSide(selected, results[i]), results[i].similarity)
    decreases |results|
  {
    if |results| > 0 {
      var m := ResultMatch(selected, results[0], env, k);
      var st1 := SaveMatch(st, m).1;
      var r := SaveResults(st1, selected, results[1..], env, k + 1);
      assert r == SaveResults(st, selected, results, env, k);
      SaveMatchRecordsPair(st, m);
      RecordedKept(st1.matches, r.matches, m.lostItemId, m.foundItemId, m.similarity);
      SaveResultsRecords(st1, selected, results[1..], env, k + 1);
      ResultsRecordedCons(r.matches, selected, results);
    }
  }

  /** The first result on record and the rest on record: all on record. */
  lemma ResultsRecordedCons(matches: seq<Match>, selected: Item, results: seq<SearchResult>)
    requires |results| > 0
    requires Recorded(matches, LostSide(selected, results[0]), FoundSide(selected, results[0]), results[0].similarity)
    requires forall i :: 0 <= i < |results[1..]| ==>
      Recorded(matches, LostSide(selected, results[1..][i]), FoundSide(selected, results[1..][i]), results[1..][i].similarity)
    ensures forall i :: 0 <= i < |results| ==>
      Recorded(matches, LostSide(selected, results[i]), FoundSide(selected, results[i]), results[i].similarity)
  {
    forall i | 0 <= i < |results|
      ensures Recorded(matches, LostSide(selected, results[i]), FoundSide(selected, results[i]), results[i].similarity)
    {
      if i > 0 {
        assert results[i] == results[1..][i - 1];
      }
    }
  }

  /** Saving shown results never stores a second match for a pair. */
  lemma {:induction false} SaveResultsKeepsPairsUnique(st: Store, selected: Item, results: seq<SearchResult>,
                                                      env: Env, k: nat)
    requires UniquePairs(st.matches)
    ensures UniquePairs(SaveResults(st, selected, results, env, k).matches)
    decreases |results|
  {
    if |results| > 0 {
      var m := ResultMatch(selected, results[0], env, k);
      SaveMatchKeepsPairsUnique(st, m);
      SaveResultsKeepsPairsUnique(SaveMatch(st, m).1, selected, results[1..], env, k + 1);
    }
  }

  /** The results at or above 0.4, best first. */
  function ShownResults(results: seq<SearchResult>): (r: seq<SearchResult>)
    ensures SortedDesc(r, ResultSimilarity)
    ensures multiset(r) == multiset(Filter(results, Shown))
    ensures forall i :: 0 <= i < |r| ==> r[i].similarity >= ShowThreshold && r[i] in results
    ensures forall j :: 0 <= j < |results| && results[j].similarity >= ShowThreshold ==> results[j] in r
  {
    var valid := Filter(results, Shown);
    SortDescSameElements(valid, ResultSimilarity);
    SortDesc(valid, ResultSimilarity)
  }

  /** `formatAndDisplayMatches`: the shown results; with a selected report
      each of them is also offered to the match table. */
  function FormatAndDisplayMatches(st: Store, results: seq<SearchResult>, selected: Option<Item>, env: Env)
    : (r: (seq<SearchResult>, Store))
    ensures r.0 == ShownResults(results)
    ensures selected.None? ==> r.1 == st
    ensures r.1.users == st.users && r.1.items == st.items && r.1.notifications == st.notifications
    ensures KeptFrom(st.matches, r.1.matches)
    ensures selected.Some? ==> forall i :: 0 <= i < |r.0| ==>
      Recorded(r.1.matches, LostSide(selected.value, r.0[i]), FoundSide(selected.value, r.0[i]), r.0[i].similarity)
    ensures selected.Some? ==> OnlyOffers(st.matches, r.1.matches, ResultOffers(selected.value, r.0, env, 0))
  {
    if |results| == 0 then ([], st)
    else
      var shown := ShownResults(results);
      if selected.Some? then
        SaveResultsRecords(st, selected.value, shown, env, 0);
        (shown, SaveResults(st, selected.value, shown, env, 0))
      else (shown, st)
  }

  /** Which input the search reads. */
  datatype Tab = TextTab | ImageTab

  /** The reports a search looks through: those of the opposite kind when a
      report is selected, otherwise all of them. */
  function SearchPool(st: Store, selected: Option<Item>): (r: seq<Item>)
    ensures selected.Some? ==> forall i :: 0 <= i < |r| ==> r[i].kind != selected.value.kind && r[i] in st.items
    ensures forall i :: 0 <= i < |st.items| && InPool(selected, st.items[i]) ==> st.items[i] in r
    ensures forall x :: Occurrences(r, x) == if InPool(selected, x) then Occurrences(st.items, x) else 0
    ensures selected.None? ==> r == st.items
  {
    match selected
    case None => st.items
    case Some(x) => if x.kind == Lost then FoundItems(st) else LostItems(st)
  }

  /** The reports a search with that selection looks through. */
  predicate InPool(selected: Option<Item>, x: Item) {
    selected.None? || x.kind != selected.value.kind
  }

  /** Every result shows one of the reports in `pool`. */
  ghost predicate FromPool(results: seq<SearchResult>, pool: seq<Item>, env: Env) {
    forall i :: 0 <= i < |results| ==> Summarizes(results[i], pool, env)
  }

  /** `r` shows one of the reports in `pool`. */
  ghost predicate Summarizes(r: SearchResult, pool: seq<Item>, env: Env) {
    exists j :: 0 <= j < |pool| && r.item == Summarize(pool[j], env)
  }

  lemma FromPoolKept(results: seq<SearchResult>, shown: seq<SearchResult>, pool: seq<Item>, env: Env)
    requires FromPool(results, pool, env)
    requires forall i :: 0 <= i < |shown| ==> shown[i] in results
    ensures FromPool(shown, pool, env)
  {
    forall i | 0 <= i < |shown|
      ensures Summarizes(shown[i], pool, env)
    {
      var k :| 0 <= k < |results| && results[k] == shown[i];
      assert Summarizes(results[k], pool, env);
    }
  }

  /** `r` shows a stored report whose kind is not `kind`. */
  ghost predicate StoredOfOtherKind(st: Store, kind: ItemType, r: SearchResult) {
    exists j :: 0 <= j < |st.items| && st.items[j].id == r.item.id && st.items[j].kind != kind
  }

  /** A result drawn from the pool of a selected report shows a stored report
      of the other kind. */
  lemma PoolResultOfOtherKind(st: Store, x: Item, r: SearchResult, env: Env)
    requires Summarizes(r, SearchPool(st, Some(x)), env)
    ensures StoredOfOtherKind(st, x.kind, r)
  {
    var pool := SearchPool(st, Some(x));
    var k :| 0 <= k < |pool| && r.item == Summarize(pool[k], env);
    assert pool[k] in st.items;
    var j :| 0 <= j < |st.items| && st.items[j] == pool[k];
    assert st.items[j].id == r.item.id;
  }

  /** Results drawn from the pool of a selected report show reports of the
      other kind. */
  lemma PoolOfOtherKind(st: Store, x: Item, results: seq<SearchResult>, env: Env)
    requires FromPool(results, SearchPool(st, Some(x)), env)
    ensures forall i :: 0 <= i < |results| ==> StoredOfOtherKind(st, x.kind, results[i])
  {
    forall i | 0 <= i < |results| ensures StoredOfOtherKind(st, x.kind, results[i]) {
      PoolResultOfOtherKind(st, x, results[i], env);
    }
  }

  /** A report the active tab's search finds: it contains a query term, or
      its image scores at least 0.5 against the uploaded one. */
  predicate SearchHit(tab: Tab, query: string, preview: Option<Analysis>, analysisOf: string -> Analysis, x: Item) {
    match tab
    case TextTab => Hit(SearchTerms(query), x)
    case ImageTab => preview.Some? && ImageHit(preview.value, x, analysisOf)
  }

  /** The score the active tab's search gives a report. */
  function SearchScore(tab: Tab, query: string, preview: Option<Analysis>, analysisOf: string -> Analysis, x: Item)
    : real
  {
    match tab
    case TextTab => TextScore(SearchTerms(query), x)
    case ImageTab => if preview.Some? then ImageScore(preview.value, x, analysisOf) else 0.0
  }

  /** `r` shows a hit of the pool with its score. */
  ghost predicate ShowsHit(r: SearchResult, pool: seq<Item>, tab: Tab, query: string,
                           preview: Option<Analysis>, analysisOf: string -> Analysis, env: Env) {
    exists j :: 0 <= j < |pool| && SearchHit(tab, query, preview, analysisOf, pool[j]) &&
      Shows(r, pool[j], SearchScore(tab, query, preview, analysisOf, pool[j]), env)
  }

  /** Some result shows `x` with `score`. */
  ghost predicate ShownWith(results: seq<SearchResult>, x: Item, score: real, env: Env) {
    exists i :: 0 <= i < |results| && Shows(results[i], x, score, env)
  }

  /** Every result shows a hit of the pool with its score. */
  ghost predicate OnlyHits(results: seq<SearchResult>, pool: seq<Item>, tab: Tab, query: string,
                           preview: Option<Analysis>, analysisOf: string -> Analysis, env: Env) {
    forall i :: 0 <= i < |results| ==> ShowsHit(results[i], pool, tab, query, preview, analysisOf, env)
  }

  /** Showing a part of the results shows only hits still. */
  lemma OnlyHitsKept(results: seq<SearchResult>, shown: seq<SearchResult>, pool: seq<Item>, tab: Tab, query: string,
                     preview: Option<Analysis>, analysisOf: string -> Analysis, env: Env)
    requires OnlyHits(results, pool, tab, query, preview, analysisOf, env)
    requires forall i :: 0 <= i < |shown| ==> shown[i] in results
    ensures OnlyHits(shown, pool, tab, query, preview, analysisOf, env)
  {
    forall i | 0 <= i < |shown|
      ensures ShowsHit(shown[i], pool, tab, query, preview, analysisOf, env)
    {
      var k :| 0 <= k < |results| && results[k] == shown[i];
      assert ShowsHit(results[k], pool, tab, query, preview, analysisOf, env);
    }
  }

  /** Every hit of the pool is shown with its score. */
  ghost predicate AllHits(results: seq<SearchResult>, pool: seq<Item>, tab: Tab, query: string,
                          preview: Option<Analysis>, analysisOf: string -> Analysis, env: Env) {
    forall j :: 0 <= j < |pool| && SearchHit(tab, query, preview, analysisOf, pool[j]) ==>
      ShownWith(results, pool[j], SearchScore(tab, query, preview, analysisOf, pool[j]), env)
  }

  /** The search stops before looking: no usable text term, or no classified
      image. */
  predicate Aborts(tab: Tab, query: string, preview: Option<Analysis>) {
    match tab
    case TextTab => |SearchTerms(query)| == 0
    case ImageTab => preview.None? || preview.value.topMatch.None?
  }

  /** The search step of `handleSearch`, before display: `None` when it
      aborts; otherwise exactly the pool's hits, each with its score. */
  function RunSearch(pool: seq<Item>, tab: Tab, query: string, preview: Option<Analysis>,
                     analysisOf: string -> Analysis, env: Env): (r: Option<seq<SearchResult>>)
    ensures r.Some? ==> FromPool(r.value, pool, env)
    ensures tab == TextTab ==> (r.None? <==> |SearchTerms(query)| == 0)
    ensures tab == ImageTab ==> (r.None? <==> preview.None? || preview.value.topMatch.None?)
    ensures r.Some? ==> OnlyHits(r.value, pool, tab, query, preview, analysisOf, env)
    ensures r.Some? ==> AllHits(r.value, pool, tab, query, preview, analysisOf, env)
  {
    match tab
    case TextTab =>
      if |SearchTerms(query)| == 0 then TextSearch(query, pool, env)
      else TextTabFindsHits(pool, query, preview, analysisOf, env); TextSearch(query, pool, env)
    case ImageTab =>
      if preview.None? || preview.value.topMatch.None? then None
      else ImageTabFindsHits(pool, preview.value, analysisOf, env); ImageSearch(preview.value, pool, analysisOf, env)
  }

  lemma TextTabFindsHits(pool: seq<Item>, query: string, preview: Option<Analysis>,
                         analysisOf: string -> Analysis, env: Env)
    requires |SearchTerms(query)| > 0
    ensures var r := TextSearch(query, pool, env).value;
      FromPool(r, pool, env) && OnlyHits(r, pool, TextTab, query, preview, analysisOf, env) &&
      AllHits(r, pool, TextTab, query, preview, analysisOf, env)
  {
    TextTabOnlyHits(pool, query, preview, analysisOf, env);
    TextTabAllHits(pool, query, preview, analysisOf, env);
  }

  lemma TextTabOnlyHits(pool: seq<Item>, query: string, preview: Option<Analysis>,
                        analysisOf: string -> Analysis, env: Env)
    ensures var r := TextResults(SearchTerms(query), pool, env);
      FromPool(r, pool, env) && OnlyHits(r, pool, TextTab, query, preview, analysisOf, env)
  {
    var terms := SearchTerms(query);
    var r := TextResults(terms, pool, env);
    forall i | 0 <= i < |r|
      ensures Summarizes(r[i], pool, env)
      ensures ShowsHit(r[i], pool, TextTab, query, preview, analysisOf, env)
    {
      ScoredSound(pool, HitFor(terms), TextScoreFor(terms), 0.0, env, i);
      var j :| 0 <= j < |pool| && HitFor(terms)(pool[j]) && Shows(r[i], pool[j], TextScoreFor(terms)(pool[j]), env);
      assert SearchScore(TextTab, query, preview, analysisOf, pool[j]) == TextScore(terms, pool[j]);
    }
  }

  lemma TextTabAllHits(pool: seq<Item>, query: string, preview: Option<Analysis>,
                       analysisOf: string -> Analysis, env: Env)
    ensures AllHits(TextResults(SearchTerms(query), pool, env), pool, TextTab, query, preview, analysisOf, env)
  {
    var terms := SearchTerms(query);
    var r := TextResults(terms, pool, env);
    forall j | 0 <= j < |pool| && SearchHit(TextTab, query, preview, analysisOf, pool[j])
      ensures ShownWith(r, pool[j], SearchScore(TextTab, query, preview, analysisOf, pool[j]), env)
    {
      var i := ScoredComplete(pool, HitFor(terms), TextScoreFor(terms), 0.0, env, j);
      assert SearchScore(TextTab, query, preview, analysisOf, pool[j]) == TextScore(terms, pool[j]);
    }
  }

  lemma ImageTabFindsHits(pool: seq<Item>, preview: Analysis, analysisOf: string -> Analysis, env: Env)
    requires preview.topMatch.Some?
    ensures var r := ImageSearch(preview, pool, analysisOf, env).value;
      FromPool(r, pool, env) && OnlyHits(r, pool, ImageTab, "", Some(preview), analysisOf, env) &&
      AllHits(r, pool, ImageTab, "", Some(preview), analysisOf, env)
  {
    ImageTabOnlyHits(pool, preview, analysisOf, env);
    ImageTabAllHits(pool, preview, analysisOf, env);
  }

  lemma ImageTabOnlyHits(pool: seq<Item>, preview: Analysis, analysisOf: string -> Analysis, env: Env)
    ensures var r := Scored(pool, ImageHitFor(preview, analysisOf), ImageScoreFor(preview, analysisOf), ImageThreshold, env);
      FromPool(r, pool, env) && OnlyHits(r, pool, ImageTab, "", Some(preview), analysisOf, env)
  {
    var r := Scored(pool, ImageHitFor(preview, analysisOf), ImageScoreFor(preview, analysisOf), ImageThreshold, env);
    forall i | 0 <= i < |r|
      ensures Summarizes(r[i], pool, env)
      ensures ShowsHit(r[i], pool, ImageTab, "", Some(preview), analysisOf, env)
    {
      ScoredSound(pool, ImageHitFor(preview, analysisOf), ImageScoreFor(preview, analysisOf), ImageThreshold, env, i);
      var j :| 0 <= j < |pool| && ImageHitFor(preview, analysisOf)(pool[j]) &&
        Shows(r[i], pool[j], ImageScoreFor(preview, analysisOf)(pool[j]), env);
      assert SearchScore(ImageTab, "", Some(preview), analysisOf, pool[j]) == ImageScore(preview, pool[j], analysisOf);
    }
  }

  lemma ImageTabAllHits(pool: seq<Item>, preview: Analysis, analysisOf: string -> Analysis, env: Env)
    ensures var r := Scored(pool, ImageHitFor(preview, analysisOf), ImageScoreFor(preview, analysisOf), ImageThreshold, env);
      AllHits(r, pool, ImageTab, "", Some(preview), analysisOf, env)
  {
    var r := Scored(pool, ImageHitFor(preview, analysisOf), ImageScoreFor(preview, analysisOf), ImageThreshold, env);
    forall j | 0 <= j < |pool| && SearchHit(ImageTab, "", Some(preview), analysisOf, pool[j])
      ensures ShownWith(r, pool[j], SearchScore(ImageTab, "", Some(preview), analysisOf, pool[j]), env)
    {
      assert ImageHitFor(preview, analysisOf)(pool[j]);
      assert ImageScoreFor(preview, analysisOf)(pool[j]) >= ImageThreshold;
      var i := ScoredComplete(pool, ImageHitFor(preview, analysisOf), ImageScoreFor(preview, analysisOf), ImageThreshold, env, j);
      assert SearchScore(ImageTab, "", Some(preview), analysisOf, pool[j]) == ImageScore(preview, pool[j], analysisOf);
    }
  }

  /** `handleSearch`: the shown results and the store afterwards. An aborted
      text search, an image tab without an image, and an unclassified image
      all show nothing and change nothing. */
  function HandleSearch(st: Store, tab: Tab, query: string, preview: Option<Analysis>,
                        analysisOf: string -> Analysis, selected: Option<Item>, env: Env)
    : (r: (seq<SearchResult>, Store))
    ensures SortedDesc(r.0, ResultSimilarity)
    ensures forall i :: 0 <= i < |r.0| ==> r.0[i].similarity >= ShowThreshold
    ensures selected.Some? ==> forall i :: 0 <= i < |r.0| ==> StoredOfOtherKind(st, selected.value.kind, r.0[i])
    ensures r.1.users == st.users && r.1.items == st.items && r.1.notifications == st.notifications
    ensures KeptFrom(st.matches, r.1.matches)
    ensures Aborts(tab, query, preview) ==> r == ([], st)
    ensures !Aborts(tab, query, preview) ==> ShowsEveryHit(r.0, st, selected, tab, query, preview, analysisOf, env)
    ensures !Aborts(tab, query, preview) ==> OnlyHits(r.0, SearchPool(st, selected), tab, query, preview, analysisOf, env)
    ensures selected.None? ==> r.1 == st
    ensures selected.Some? ==> OnlyOffers(st.matches, r.1.matches, ResultOffers(selected.value, r.0, env, 0))
  {
    if Aborts(tab, query, preview) then ([], st)
    else ShowSearch(st, tab, query, preview, analysisOf, selected, env)
  }

  /** A search that does not stop early: `formatAndDisplayMatches` on its
      results. */
  function ShowSearch(st: Store, tab: Tab, query: string, preview: Option<Analysis>,
                      analysisOf: string -> Analysis, selected: Option<Item>, env: Env)
    : (r: (seq<SearchResult>, Store))
    requires !Aborts(tab, query, preview)
    ensures SortedDesc(r.0, ResultSimilarity)
    ensures forall i :: 0 <= i < |r.0| ==> r.0[i].similarity >= ShowThreshold
    ensures selected.Some? ==> forall i :: 0 <= i < |r.0| ==> StoredOfOtherKind(st, selected.value.kind, r.0[i])
    ensures r.1.users == st.users && r.1.items == st.items && r.1.notifications == st.notifications
    ensures KeptFrom(st.matches, r.1.matches)
    ensures ShowsEveryHit(r.0, st, selected, tab, query, preview, analysisOf, env)
    ensures OnlyHits(r.0, SearchPool(st, selected), tab, query, preview, analysisOf, env)
    ensures selected.None? ==> r.1 == st
    ensures selected.Some? ==> OnlyOffers(st.matches, r.1.matches, ResultOffers(selected.value, r.0, env, 0))
  {
    var results := RunSearch(SearchPool(st, selected), tab, query, preview, analysisOf, env).value;
    var r := FormatAndDisplayMatches(st, results, selected, env);
    SearchShown(st, tab, query, preview, analysisOf, selected, env, results, r.0);
    r
  }

  /** What the display of a finished search shows: hits of the pool only,
      every hit at or above 0.4, and only reports of the other kind. */
  lemma SearchShown(st: Store, tab: Tab, query: string, preview: Option<Analysis>,
                    analysisOf: string -> Analysis, selected: Option<Item>, env: Env,
                    results: seq<SearchResult>, shown: seq<SearchResult>)
    requires RunSearch(SearchPool(st, selected), tab, query, preview, analysisOf, env) == Some(results)
    requires shown == ShownResults(results)
    ensures selected.Some? ==> forall i :: 0 <= i < |shown| ==> StoredOfOtherKind(st, selected.value.kind, shown[i])
    ensures ShowsEveryHit(shown, st, selected, tab, query, preview, analysisOf, env)
    ensures OnlyHits(shown, SearchPool(st, selected), tab, query, preview, analysisOf, env)
  {
    var pool := SearchPool(st, selected);
    FromPoolKept(results, shown, pool, env);
    OnlyHitsKept(results, shown, pool, tab, query, preview, analysisOf, env);
    DisplayedHits(st, selected, results, shown, tab, query, preview, analysisOf, env);
    if selected.Some? {
      PoolOfOtherKind(st, selected.value, shown, env);
    }
  }

  /** Every stored report in the search's pool that the search finds with a
      score of at least 0.4 is shown with that score. */
  ghost predicate ShowsEveryHit(shown: seq<SearchResult>, st: Store, selected: Option<Item>, tab: Tab, query: string,
                                preview: Option<Analysis>, analysisOf: string -> Analysis, env: Env) {
    forall j :: 0 <= j < |st.items| && InPool(selected, st.items[j]) &&
                SearchHit(tab, query, preview, analysisOf, st.items[j]) &&
                SearchScore(tab, query, preview, analysisOf, st.items[j]) >= ShowThreshold ==>
      ShownWith(shown, st.items[j], SearchScore(tab, query, preview, analysisOf, st.items[j]), env)
  }

  /** Every hit of the pool at or above 0.4 survives the display filter. */
  lemma DisplayedHits(st: Store, selected: Option<Item>, results: seq<SearchResult>, shown: seq<SearchResult>,
                      tab: Tab, query: string, preview: Option<Analysis>, analysisOf: string -> Analysis, env: Env)
    requires AllHits(results, SearchPool(st, selected), tab, query, preview, analysisOf, env)
    requires forall j :: 0 <= j < |results| && results[j].similarity >= ShowThreshold ==> results[j] in shown
    ensures ShowsEveryHit(shown, st, selected, tab, query, preview, analysisOf, env)
  {
    var pool := SearchPool(st, selected);
    forall j | 0 <= j < |st.items| && InPool(selected, st.items[j]) &&
               SearchHit(tab, query, preview, analysisOf, st.items[j]) &&
               SearchScore(tab, query, preview, analysisOf, st.items[j]) >= ShowThreshold
      ensures ShownWith(shown, st.items[j], SearchScore(tab, query, preview, analysisOf, st.items[j]), env)
    {
      var x := st.items[j];
      var score := SearchScore(tab, query, preview, analysisOf, x);
      var jp :| 0 <= jp < |pool| && pool[jp] == x;
      assert ShownWith(results, pool[jp], score, env);
      var k :| 0 <= k < |results| && Shows(results[k], x, score, env);
      var i :| 0 <= i < |shown| && shown[i] == results[k];
    }
  }

  // ------------------------------------------------------------ feedback

  /** `r` is the display `shown` without the results carrying `matchId`, the
      others kept in order and as often as they were shown. */
  ghost predicate Removed(r: seq<SearchResult>, shown: seq<SearchResult>, matchId: string) {
    && Subsequence(r, shown)
    && forall x :: Occurrences(r, x) == if x.id != matchId then Occurrences(shown, x) else 0
  }

  function Without(shown: seq<SearchResult>, matchId: string): (r: seq<SearchResult>)
    ensures forall i :: 0 <= i < |r| ==> r[i].id != matchId && r[i] in shown
    ensures forall i :: 0 <= i < |shown| && shown[i].id != matchId ==> shown[i] in r
    ensures Removed(r, shown, matchId)
  {
    var p := (x: SearchResult) => x.id != matchId;
    FilterMeetsContract(shown, p);
    Filter(shown, p)
  }

  function FeedbackStatus(isPositive: bool): MatchStatus {
    if isPositive then Approved else Rejected
  }

  /** `handleFeedback`: approve or reject the match with that id; an approved
      result leaves the display. */
  function HandleFeedback(st: Store, shown: seq<SearchResult>, matchId: string, isPositive: bool)
    : (r: (seq<SearchResult>, Store))
    ensures isPositive ==> forall i :: 0 <= i < |r.0| ==> r.0[i].id != matchId
    ensures isPositive ==> Removed(r.0, shown, matchId)
    ensures !isPositive ==> r.0 == shown && r.1.items == st.items
    ensures r.1.users == st.users && r.1.notifications == st.notifications
    ensures !HasKey(st.matches, MatchId, matchId) ==> r.1 == st
    ensures HasKey(st.matches, MatchId, matchId) ==> StatusWritten(st, r.1, matchId, FeedbackStatus(isPositive))
  {
    var status := FeedbackStatus(isPositive);
    var r := (if isPositive then Without(shown, matchId) else shown, UpdateMatchStatus(st, matchId, status).1);
    UpdateMatchStatusWrites(st, matchId, status);
    r
  }

  /** Displayed ids never name a stored match when every stored id is a bare
      generated id, so approving or rejecting from the display changes no
      match and no report. */
  lemma DisplayedIdsNameNoStoredMatch(st: Store, shown: seq<SearchResult>, result: SearchResult, isPositive: bool)
    requires forall k :: 0 <= k < |st.matches| ==> !StartsWith(st.matches[k].id, ResultPrefix)
    requires StartsWith(result.id, ResultPrefix)
    ensures HandleFeedback(st, shown, result.id, isPositive).1 == st
  {
  }

  // -------------------------------------------------------- contact owner

  datatype SendOutcome = EmptyMessage | NotLoggedIn | ItemMissing | Sent

  function KindWord(x: Item): string { if x.kind == Lost then "Lost" else "Found" }

  /** The notice the report's owner receives: unread, about the report and
      the match, quoting the message, with the sender's name and address
      to reply to. */
  function OwnerMessage(id: string, sender: User, item: Item, text: string, matchId: string, now: int)
    : (n: Notification)
    ensures n.id == id && n.userId == item.userId && !n.isRead && n.createdAt == now
    ensures n.relatedItemId == Some(item.id) && n.matchId == Some(matchId)
    ensures n.contactEmail == Some(sender.email) && n.contactName == Some(sender.name)
    ensures OccursAt(n.message, text, |n.message| - |text| - 1)
  {
    Notification(id, item.userId, "New Message About Your " + KindWord(item) + " Item",
                 sender.name + " has sent you a message regarding your " + item.name + ": \"" + text + "\"",
                 Some(item.id), Some(matchId), false, now,
                 Some(sender.email), Some(""), Some(sender.name))
  }

  /** The copy the sender keeps: already read, about the same report and
      match, quoting the message. A report without an owner id shows "Item
      Owner" and an empty address; otherwise the owner's account supplies
      them, and neither is known when no account has that id. */
  function SenderCopy(st: Store, id: string, sender: User, item: Item, text: string, matchId: string, now: int)
    : (n: Notification)
    ensures n.id == id && n.userId == sender.id && n.isRead && n.createdAt == now
    ensures n.relatedItemId == Some(item.id) && n.matchId == Some(matchId)
    ensures OccursAt(n.message, text, |n.message| - |text| - 1)
    ensures item.userId == "" ==> n.contactEmail == Some("") && n.contactName == Some("Item Owner")
    ensures item.userId != "" ==>
              (n.contactEmail.Some? <==> GetUserById(st, item.userId).Some?) &&
              (n.contactName.Some? <==> GetUserById(st, item.userId).Some?)
    ensures item.userId != "" && n.contactEmail.Some? ==>
              exists i :: FirstWith(st.users, UserId, item.userId, i) &&
                          n.contactEmail == Some(st.users[i].email) && n.contactName == Some(st.users[i].name)
  {
    var owner := GetUserById(st, item.userId);
    Notification(id, sender.id, "You Contacted About " + KindWord(item) + " Item",
                 "You sent a message to the " + (if item.kind == Lost then "owner" else "finder") +
                 " of " + item.name + ": \"" + text + "\"",
                 Some(item.id), Some(matchId), true, now,
                 if item.userId == "" then Some("") else if owner.Some? then Some(owner.value.email) else None,
                 None,
                 if item.userId == "" then Some("Item Owner") else if owner.Some? then Some(owner.value.name) else None)
  }

  /** `handleSendMessage`: a blank message or missing selection, no logged-in
      user, or a report no longer stored, changes nothing; otherwise the
      owner gets an unread notice with the sender's contact details, the
      sender keeps a read copy, the displayed match is approved and leaves
      the display. */
  function HandleSendMessage(st: Store, text: string, selectedMatchItem: Option<Summary>,
                             selectedItem: Option<Item>, selectedMatchId: Option<string>,
                             shown: seq<SearchResult>, env: Env)
    : (r: (SendOutcome, Store, seq<SearchResult>))
    ensures r.0 == EmptyMessage <==>
      IsBlank(text) || selectedMatchItem.None? || selectedItem.None? || !Truthy(selectedMatchId)
    ensures r.0 == NotLoggedIn <==>
      !IsBlank(text) && selectedMatchItem.Some? && selectedItem.Some? && Truthy(selectedMatchId) &&
      st.currentUser.None?
    ensures r.0 == ItemMissing <==>
      !IsBlank(text) && selectedMatchItem.Some? && selectedItem.Some? && Truthy(selectedMatchId) &&
      st.currentUser.Some? && GetItemById(st, selectedMatchItem.value.id).None?
    ensures r.0 == Sent <==>
      !IsBlank(text) && selectedMatchItem.Some? && selectedItem.Some? && Truthy(selectedMatchId) &&
      st.currentUser.Some? && GetItemById(st, selectedMatchItem.value.id).Some?
    ensures r.0 != Sent ==> r.1 == st && r.2 == shown
    ensures r.0 == Sent ==>
      Delivered(st, r.1, r.2, shown, st.currentUser.value,
                GetItemById(st, selectedMatchItem.value.id).value, selectedMatchId.value)
  {
    if IsBlank(text) || selectedMatchItem.None? || selectedItem.None? || !Truthy(selectedMatchId) then
      (EmptyMessage, st, shown)
    else if st.currentUser.None? then (NotLoggedIn, st, shown)
    else match GetItemById(st, selectedMatchItem.value.id)
      case None => (ItemMissing, st, shown)
      case Some(item) =>
        var d := DeliverMessage(st, st.currentUser.value, item, text, selectedMatchId.value, shown, env);
        (Sent, d.0, d.1)
  }

  /** What a sent message leaves behind: an unread notice to the report's
      owner with the sender's contact details, a read copy for the sender,
      the match with that id approved when it is stored, and the result with
      that id gone from the display. */
  ghost predicate Delivered(st: Store, after: Store, display: seq<SearchResult>, shown: seq<SearchResult>,
                            sender: User, item: Item, matchId: string) {
    var n := |st.notifications|;
    && |after.notifications| == n + 2
    && after.notifications[..n] == st.notifications
    && after.notifications[n].userId == item.userId && !after.notifications[n].isRead
    && after.notifications[n].contactEmail == Some(sender.email)
    && after.notifications[n].contactName == Some(sender.name)
    && after.notifications[n + 1].userId == sender.id && after.notifications[n + 1].isRead
    && after.notifications[n].matchId == Some(matchId)
    && after.users == st.users && after.currentUser == st.currentUser
    && (forall i :: 0 <= i < |display| ==> display[i].id != matchId)
    && Removed(display, shown, matchId)
    && (!HasKey(st.matches, MatchId, matchId) ==> after.matches == st.matches && after.items == st.items)
    && (HasKey(st.matches, MatchId, matchId) ==>
          StatusWritten(st.(notifications := after.notifications), after, matchId, Approved))
  }

  /** The sending step of `handleSendMessage` once every check has passed:
      the two notices, the approval, and the filtered display. */
  function DeliverMessage(st: Store, sender: User, item: Item, text: string, matchId: string,
                          shown: seq<SearchResult>, env: Env): (r: (Store, seq<SearchResult>))
    ensures Delivered(st, r.0, r.1, shown, sender, item, matchId)
  {
    var st1 := CreateNotification(st, OwnerMessage(env.noticeIds(0), sender, item, text, matchId, env.now));
    var st2 := CreateNotification(st1, SenderCopy(st, env.noticeIds(1), sender, item, text, matchId, env.now));
    UpdateMatchStatusWrites(st2, matchId, Approved);
    (UpdateMatchStatus(st2, matchId, Approved).1, Without(shown, matchId))
  }
}

=== FILE: seqs.dfy ===
/** Sequence facts shared by the scorers and the keyword generator: duplicate
    freedom, the element set of a list, the "count of first-list elements found
    in the second list" used by every overlap score, and order-preserving
    de-duplication (JavaScript's `[...new Set(xs)]`). */
module Seqs {
  import opened Options

  ghost predicate NoDup<T>(s: seq<T>) {
    forall i, j :: 0 <= i < j < |s| ==> s[i] != s[j]
  }

  function Elems<T(==)>(s: seq<T>): set<T> {
    set x | x in s
  }

  /** Number of positions of `xs` whose element occurs somewhere in `ys`,
      counting repetitions in `xs` (the loop `for w of xs: if ys.includes(w) n++`). */
  function CountIn<T(==)>(xs: seq<T>, ys: seq<T>): (n: nat)
    ensures n <= |xs|
  {
    if |xs| == 0 then 0
    else (if xs[0] in ys then 1 else 0) + CountIn(xs[1..], ys)
  }

  /** Size of `new Set([...xs, ...ys])`. */
  function UnionSize<T(==)>(xs: seq<T>, ys: seq<T>): nat {
    |Elems(xs) + Elems(ys)|
  }

  lemma {:induction false} CountInNoDup<T>(xs: seq<T>, ys: seq<T>)
    requires NoDup(xs)
    ensures CountIn(xs, ys) == |Elems(xs) * Elems(ys)|
    decreases |xs|
  {
    if |xs| == 0 {
      assert Elems(xs) == {};
    } else {
      var h, t := xs[0], xs[1..];
      NoDupTail(xs);
      CountInNoDup(t, ys);
      ElemsCons(xs);
      CommonCons(h, Elems(t), Elems(ys));
    }
  }

  lemma NoDupTail<T>(xs: seq<T>)
    requires NoDup(xs) && |xs| > 0
    ensures NoDup(xs[1..]) && xs[0] !in xs[1..]
  {
  }

  lemma ElemsCons<T>(xs: seq<T>)
    requires |xs| > 0
    ensures Elems(xs) == {xs[0]} + Elems(xs[1..])
  {
    assert xs == [xs[0]] + xs[1..];
  }

  /** Adding a new element to one side adds it to the common part exactly
      when the other side has it. */
  lemma CommonCons<T>(h: T, a: set<T>, b: set<T>)
    requires h !in a
    ensures |({h} + a) * b| == (if h in b then 1 else 0) + |a * b|
  {
    if h in b {
      assert ({h} + a) * b == {h} + a * b;
    } else {
      assert ({h} + a) * b == a * b;
    }
  }

  /** For a duplicate-free first list the count never exceeds the union. */
  lemma CountInAtMostUnion<T>(xs: seq<T>, ys: seq<T>)
    requires NoDup(xs)
    ensures CountIn(xs, ys) <= UnionSize(xs, ys)
  {
    CountInNoDup(xs, ys);
    var a, b := Elems(xs), Elems(ys);
    assert a * b <= a + b;
    SubsetCard(a * b, a + b);
  }

  lemma {:induction false} SubsetCard<T>(a: set<T>, b: set<T>)
    requires a <= b
    ensures |a| <= |b|
    decreases |b|
  {
    if a != {} {
      var x :| x in a;
      SubsetCard(a - {x}, b - {x});
    }
  }

  /** A non-empty list makes a non-empty union. */
  lemma UnionPositive<T>(xs: seq<T>, ys: seq<T>)
    requires |xs| > 0
    ensures UnionSize(xs, ys) > 0
  {
    assert xs[0] in Elems(xs) + Elems(ys);
  }

  /** The index of the first occurrence of `x` in `s`. */
  function FirstIndex<T(==)>(s: seq<T>, x: T): (i: nat)
    requires x in s
    ensures i < |s| && s[i] == x
    ensures forall j :: 0 <= j < i ==> s[j] != x
  {
    if s[0] == x then 0 else 1 + FirstIndex(s[1..], x)
  }

  /** `[...new Set(s)]`: the distinct elements of `s` in order of first occurrence. */
  function Dedupe<T(==)>(s: seq<T>): (r: seq<T>)
    ensures forall i :: 0 <= i < |r| ==> r[i] in s
    ensures forall i :: 0 <= i < |s| ==> s[i] in r
    ensures NoDup(r)
    decreases |s|
  {
    if |s| == 0 then []
    else
      var r := Dedupe(s[..|s| - 1]);
      if s[|s| - 1] in r then r else r + [s[|s| - 1]]
  }

  lemma FirstIndexOfNew<T>(s: seq<T>, y: T)
    requires y !in s
    ensures FirstIndex(s + [y], y) == |s|
  {
    assert forall j :: 0 <= j < |s| ==> (s + [y])[j] == s[j];
  }

  lemma FirstIndexExtend<T>(s: seq<T>, y: T, x: T)
    requires x in s
    ensures FirstIndex(s + [y], x) == FirstIndex(s, x)
  {
    var i := FirstIndex(s, x);
    var k := FirstIndex(s + [y], x);
    assert (s + [y])[i] == x;
    assert s[k] == x by { if k == |s| { assert false; } }
  }

  /** The first element always survives deduplication, in front. */
  lemma {:induction false} DedupeHead<T>(s: seq<T>)
    requires |s| > 0
    ensures |Dedupe(s)| > 0 && Dedupe(s)[0] == s[0]
    decreases |s|
  {
    var p := s[..|s| - 1];
    if |p| > 0 {
      DedupeHead(p);
      assert p[0] == s[0];
    }
  }

  /** `Dedupe` lists the distinct elements in the order in which they first occur. */
  lemma DedupeFirstOccurrenceOrder<T>(s: seq<T>)
    ensures forall i, j :: 0 <= i < j < |Dedupe(s)| ==>
              FirstIndex(s, Dedupe(s)[i]) < FirstIndex(s, Dedupe(s)[j])
  {
    forall i, j | 0 <= i < j < |Dedupe(s)|
      ensures FirstIndex(s, Dedupe(s)[i]) < FirstIndex(s, Dedupe(s)[j])
    {
      DedupePairOrder(s, i, j);
    }
  }

  lemma {:induction false} DedupePairOrder<T>(s: seq<T>, i: int, j: int)
    requires 0 <= i < j < |Dedupe(s)|
    ensures FirstIndex(s, Dedupe(s)[i]) < FirstIndex(s, Dedupe(s)[j])
    decreases |s|
  {
    var p, y := s[..|s| - 1], s[|s| - 1];
    assert s == p + [y];
    var r := Dedupe(p);
    var d := Dedupe(s);
    assert d == if y in r then r else r + [y];
    assert d[i] == r[i];
    FirstIndexExtend(p, y, r[i]);
    if j < |r| {
      assert d[j] == r[j];
      DedupePairOrder(p, i, j);
      FirstIndexExtend(p, y, r[j]);
    } else {
      assert d[j] == y && y !in p;
      FirstIndexOfNew(p, y);
    }
  }

  /** Some element of `s` has key `k`. */
  ghost predicate HasKey<T, K>(s: seq<T>, key: T -> K, k: K) {
    exists j :: 0 <= j < |s| && key(s[j]) == k
  }

  /** Position `i` holds the first element of `s` whose key is `k`. */
  ghost predicate FirstWith<T, K>(s: seq<T>, key: T -> K, k: K, i: int) {
    0 <= i < |s| && key(s[i]) == k && forall j :: 0 <= j < i ==> key(s[j]) != k
  }

  /** `s.findIndex(x => key(x) === k)`, with `None` where JavaScript answers -1. */
  function IndexOfKey<T, K(==)>(s: seq<T>, key: T -> K, k: K): (r: Option<nat>)
    ensures r.Some? ==> FirstWith(s, key, k, r.value)
    ensures r.None? <==> !HasKey(s, key, k)
  {
    if |s| == 0 then None
    else if key(s[0]) == k then Some(0)
    else match IndexOfKey(s[1..], key, k)
      case None => None
      case Some(i) => Some(i + 1)
  }

  /** There is only one first position. */
  lemma FirstWithUnique<T, K>(s: seq<T>, key: T -> K, k: K, i: int, j: int)
    requires FirstWith(s, key, k, i) && FirstWith(s, key, k, j)
    ensures i == j
  {
  }

  /** `r` keeps some of the elements of `s`, in their order in `s`. */
  ghost predicate Subsequence<T>(r: seq<T>, s: seq<T>)
    decreases |s|
  {
    if |r| == 0 then true
    else if |s| == 0 then false
    else (r[0] == s[0] && Subsequence(r[1..], s[1..])) || Subsequence(r, s[1..])
  }

  /** How often `x` occurs in `s`. */
  ghost function Occurrences<T>(s: seq<T>, x: T): nat
    decreases |s|
  {
    if |s| == 0 then 0 else (if s[0] == x then 1 else 0) + Occurrences(s[1..], x)
  }

  /** `Occurrences` counts what the multiset of `s` counts. */
  lemma {:induction false} OccurrencesAreMultiplicity<T>(s: seq<T>, x: T)
    ensures Occurrences(s, x) == multiset(s)[x]
    decreases |s|
  {
    if |s| > 0 {
      assert s == [s[0]] + s[1..];
      OccurrencesAreMultiplicity(s[1..], x);
    }
  }

  /** Reordering keeps every element's count. */
  lemma SameMultisetSameOccurrences<T(!new)>(a: seq<T>, b: seq<T>)
    requires multiset(a) == multiset(b)
    ensures forall x :: Occurrences(a, x) == Occurrences(b, x)
  {
    forall x ensures Occurrences(a, x) == Occurrences(b, x) {
      OccurrencesAreMultiplicity(a, x);
      OccurrencesAreMultiplicity(b, x);
    }
  }

  /** `r` is what filtering `s` by `p` has to give: a subsequence of `s` that
      holds every element satisfying `p` as often as `s` does, and nothing
      else. */
  ghost predicate FilteredBy<T(!new)>(r: seq<T>, s: seq<T>, p: T -> bool) {
    && Subsequence(r, s)
    && forall x :: Occurrences(r, x) == if p(x) then Occurrences(s, x) else 0
  }

  /** `Array.prototype.filter`: the elements satisfying `p`, in their order
      (FilterMeetsContract states it as `FilteredBy`). */
  function Filter<T(!new)>(s: seq<T>, p: T -> bool): (r: seq<T>)
    ensures |r| <= |s|
    ensures forall i :: 0 <= i < |r| ==> p(r[i]) && r[i] in s
    ensures forall i :: 0 <= i < |s| && p(s[i]) ==> s[i] in r
  {
    if |s| == 0 then []
    else
      var rest := Filter(s[1..], p);
      assert forall i :: 1 <= i < |s| ==> s[i] == s[1..][i - 1];
      if p(s[0]) then [s[0]] + rest else rest
  }

  /** Filtering keeps the order and the multiplicity of what it keeps. */
  lemma {:induction false} FilterMeetsContract<T(!new)>(s: seq<T>, p: T -> bool)
    ensures FilteredBy(Filter(s, p), s, p)
    decreases |s|
  {
    if |s| > 0 {
      FilterMeetsContract(s[1..], p);
      FilterStep(s, p, Filter(s[1..], p), Filter(s, p));
    }
  }

  /** One element in front of a filtered tail. */
  lemma FilterStep<T(!new)>(s: seq<T>, p: T -> bool, rest: seq<T>, r: seq<T>)
    requires |s| > 0 && FilteredBy(rest, s[1..], p)
    requires forall i :: 0 <= i < |rest| ==> p(rest[i])
    requires r == if p(s[0]) then [s[0]] + rest else rest
    ensures FilteredBy(r, s, p)
  {
    if p(s[0]) {
      assert r[1..] == rest;
    } else if |rest| > 0 {
      assert rest[0] != s[0];
    }
  }

  /** A subsequence holds each element at most as often as the sequence. */
  lemma {:induction false} SubsequenceCount<T>(r: seq<T>, s: seq<T>, x: T)
    requires Subsequence(r, s)
    ensures Occurrences(r, x) <= Occurrences(s, x)
    decreases |s|
  {
    if |r| > 0 {
      if r[0] == s[0] && Subsequence(r[1..], s[1..]) {
        SubsequenceCount(r[1..], s[1..], x);
      } else {
        SubsequenceCount(r, s[1..], x);
      }
    }
  }

  /** The filter contract fixes the result: `Filter` is the only sequence
      meeting it. */
  lemma {:induction false} FilteredByUnique<T(!new)>(r: seq<T>, s: seq<T>, p: T -> bool)
    requires FilteredBy(r, s, p)
    ensures r == Filter(s, p)
    decreases |s|
  {
    if |s| > 0 {
      var h, t := s[0], s[1..];
      if p(h) {
        assert Occurrences(r, h) > 0;
        if !(r[0] == h && Subsequence(r[1..], t)) {
          SubsequenceCount(r, t, h);
          assert false;
        }
        FilteredByUnique(r[1..], t, p);
      } else {
        if |r| > 0 && r[0] == h {
          assert false;
        }
        FilteredByUnique(r, t, p);
      }
    }
  }

  /** Filtering a list with a given head. */
  lemma FilterFront<T(!new)>(h: T, t: seq<T>, p: T -> bool)
    ensures Filter([h] + t, p) == (if p(h) then [h] else []) + Filter(t, p)
  {
    assert ([h] + t)[1..] == t;
  }

  lemma FilterCons<T(!new)>(s: seq<T>, p: T -> bool)
    requires |s| > 0
    ensures |Filter(s, p)| == (if p(s[0]) then 1 else 0) + |Filter(s[1..], p)|
  {
  }

  /** Filtering by a predicate and by its negation splits the list in two. */
  lemma {:induction false} FilterSplits<T(!new)>(s: seq<T>, p: T -> bool, q: T -> bool)
    requires forall x :: q(x) == !p(x)
    ensures |Filter(s, p)| + |Filter(s, q)| == |s|
  {
    if |s| > 0 {
      FilterSplits(s[1..], p, q);
    }
  }
}

=== FILE: signup.dfy ===
/** The sign-up page: it refuses mismatched passwords and addresses already
    registered, otherwise it stores a new account (password in plain text, as
    the application does). The fresh id and the clock are inputs. */
module Signup {
  import opened Options
  import opened Records
  import opened Seqs
  import opened Database

  datatype SignupOutcome = PasswordMismatch | EmailTaken | SignedUp

  /** No two accounts share an email address. */
  ghost predicate DistinctEmails(users: seq<User>) {
    forall i, j :: 0 <= i < j < |users| ==> users[i].email != users[j].email
  }

  function NewUser(id: string, name: string, email: string, password: string, now: int): User {
    User(id, name, email, Some(password), now)
  }

  /** `handleSubmit`: the passwords are compared first, then the address is
      looked up; only when both checks pass is an account appended. */
  function HandleSignup(st: Store, name: string, email: string, password: string, confirm: string,
                        id: string, now: int): (r: (SignupOutcome, Store))
    ensures r.0 == PasswordMismatch <==> password != confirm
    ensures r.0 == EmailTaken <==> password == confirm && HasKey(st.users, UserEmail, email)
    ensures r.0 == SignedUp <==> password == confirm && !HasKey(st.users, UserEmail, email)
    ensures r.0 != SignedUp ==> r.1 == st
    ensures r.0 == SignedUp ==> r.1 == st.(users := st.users + [NewUser(id, name, email, password, now)])
  {
    if password != confirm then (PasswordMismatch, st)
    else if GetUserByEmail(st, email).Some? then (EmailTaken, st)
    else (SignedUp, SaveUser(st, NewUser(id, name, email, password, now)))
  }

  /** Signing up never gives two accounts the same address. */
  lemma SignupKeepsEmailsDistinct(st: Store, name: string, email: string, password: string, confirm: string,
                                  id: string, now: int)
    requires DistinctEmails(st.users)
    ensures DistinctEmails(HandleSignup(st, name, email, password, confirm, id, now).1.users)
  {
    var r := HandleSignup(st, name, email, password, confirm, id, now);
    if r.0 == SignedUp {
      var users := r.1.users;
      forall i, j | 0 <= i < j < |users| ensures users[i].email != users[j].email {
        if j == |st.users| {
          assert users[i] == st.users[i];
          assert UserEmail(st.users[i]) != email;
        } else {
          assert users[i] == st.users[i] && users[j] == st.users[j];
        }
      }
    }
  }

  /** A new account can log in at once with the password it chose. */
  lemma SignupThenLogin(st: Store, name: string, email: string, password: string, id: string, now: int)
    requires !HasKey(st.users, UserEmail, email)
    ensures var r := HandleSignup(st, name, email, password, password, id, now);
      && r.0 == SignedUp
      && LoginUser(r.1, email, password).0 == Some(NewUser(id, name, email, password, now))
  {
    var u := NewUser(id, name, email, password, now);
    SaveUserThenLookup(st, u, email);
  }

  /** A registered address cannot be taken again, whatever the password. */
  lemma SignupTwiceIsRefused(st: Store, name: string, email: string, password: string, id: string,
                             name2: string, password2: string, id2: string, now: int)
    requires !HasKey(st.users, UserEmail, email)
    ensures var st1 := HandleSignup(st, name, email, password, password, id, now).1;
      HandleSignup(st1, name2, email, password2, password2, id2, now) == (EmailTaken, st1)
  {
    var st1 := HandleSignup(st, name, email, password, password, id, now).1;
    assert st1.users[|st.users|].email == email;
  }
}

=== FILE: similarity.dfy ===
/** The automatic match scorer of the record store: a weighted average of
    per-attribute overlap scores between a lost and a found item
    (calculateSimilarity, compareStrings and compareKeywords). */
module Similarity {
  import opened Options
  import opened Records
  import opened Seqs
  import opened Text

  /** The share of first-list entries found in the second list, over the size
      of the union of both lists' distinct entries; 0 when either list is
      empty. Repeated first-list entries are counted every time. */
  function Overlap(xs: seq<string>, ys: seq<string>): (r: real)
    ensures r >= 0.0
    ensures |xs| == 0 || |ys| == 0 ==> r == 0.0
  {
    if |xs| == 0 || |ys| == 0 then 0.0
    else
      var u := UnionSize(xs, ys);
      if u > 0 then CountIn(xs, ys) as real / u as real else 0.0
  }

  /** Lower-cased words of `s` split at non-word characters, longer than two. */
  function Tokens(s: string): seq<string> {
    Words(Lower(s), NonWord, 2)
  }

  /** Each token is lower case, has at least three characters and consists
      of word characters only; every such word of the lowered text is a
      token. */
  lemma TokensShape(s: string)
    ensures var r := Tokens(s);
      forall i :: 0 <= i < |r| ==>
                    |r[i]| > 2 && IsLower(r[i]) && forall k :: 0 <= k < |r[i]| ==> IsWordChar(r[i][k])
    ensures var parts := Split(Lower(s), NonWord);
      forall i :: 0 <= i < |parts| && |parts[i]| > 2 ==> parts[i] in Tokens(s)
  {
    LowerIsLower(s);
    SplitPartsLower(Lower(s), NonWord);
    WordsShape(Lower(s), NonWord, 2);
  }

  /** `compareStrings`: never negative, and 0 when either text has no token. */
  function CompareStrings(s1: string, s2: string): (r: real)
    ensures r >= 0.0
    ensures |Tokens(s1)| == 0 || |Tokens(s2)| == 0 ==> r == 0.0
  {
    Overlap(Tokens(s1), Tokens(s2))
  }

  /** `compareKeywords`: the same score on the keyword lists themselves. */
  function CompareKeywords(k1: seq<string>, k2: seq<string>): (r: real)
    ensures r >= 0.0
    ensures |k1| == 0 || |k2| == 0 ==> r == 0.0
  {
    Overlap(k1, k2)
  }

  /** With no repeated token in the first text, `compareStrings` is the
      Jaccard similarity coefficient of the two token sets, and at most 1. */
  lemma CompareStringsIsJaccard(s1: string, s2: string)
    requires NoDup(Tokens(s1))
    ensures CompareStrings(s1, s2) == Jaccard(Elems(Tokens(s1)), Elems(Tokens(s2)))
    ensures CompareStrings(s1, s2) <= 1.0
  {
    OverlapIsJaccard(Tokens(s1), Tokens(s2));
    OverlapAtMostOne(Tokens(s1), Tokens(s2));
  }

  /** With no repeated keyword in the first list, `compareKeywords` is the
      Jaccard coefficient of the two keyword sets, and at most 1. */
  lemma CompareKeywordsIsJaccard(k1: seq<string>, k2: seq<string>)
    requires NoDup(k1)
    ensures CompareKeywords(k1, k2) == Jaccard(Elems(k1), Elems(k2))
    ensures CompareKeywords(k1, k2) <= 1.0
  {
    OverlapIsJaccard(k1, k2);
    OverlapAtMostOne(k1, k2);
  }

  /** With a duplicate-free first list the overlap is a ratio in [0, 1]. */
  lemma OverlapAtMostOne(xs: seq<string>, ys: seq<string>)
    requires NoDup(xs)
    ensures 0.0 <= Overlap(xs, ys) <= 1.0
  {
    if |xs| > 0 && |ys| > 0 {
      CountInAtMostUnion(xs, ys);
      UnionPositive(xs, ys);
      RatioAtMostOne(CountIn(xs, ys), UnionSize(xs, ys));
    }
  }

  lemma RatioAtMostOne(c: nat, u: nat)
    requires c <= u && u > 0
    ensures c as real / u as real <= 1.0
  {
    RealRatioAtMostOne(c as real, u as real);
  }

  lemma RealRatioAtMostOne(s: real, w: real)
    requires 0.0 <= s <= w && w > 0.0
    ensures s / w <= 1.0
  {
    assert s / w * w == s;
  }

  /** The Jaccard coefficient |A ∩ B| / |A ∪ B|, taken as 0 for two empty sets. */
  function Jaccard(a: set<string>, b: set<string>): real {
    if |a + b| == 0 then 0.0 else |a * b| as real / |a + b| as real
  }

  /** With a duplicate-free first list the overlap is the Jaccard coefficient
      of the two lists' entry sets. */
  lemma OverlapIsJaccard(xs: seq<string>, ys: seq<string>)
    requires NoDup(xs)
    ensures Overlap(xs, ys) == Jaccard(Elems(xs), Elems(ys))
  {
    if |xs| > 0 && |ys| > 0 {
      CountInNoDup(xs, ys);
      UnionPositive(xs, ys);
    } else if |xs| == 0 {
      assert Elems(xs) * Elems(ys) == {};
    } else {
      assert Elems(xs) * Elems(ys) == {};
    }
  }

  /** With two duplicate-free lists the overlap is |A ∩ B| / |A ∪ B|, which
      does not depend on the order of the arguments. */
  lemma OverlapSymmetric(xs: seq<string>, ys: seq<string>)
    requires NoDup(xs) && NoDup(ys)
    ensures Overlap(xs, ys) == Overlap(ys, xs)
    ensures Overlap(xs, ys) == Jaccard(Elems(xs), Elems(ys))
  {
    OverlapIsJaccard(xs, ys);
    OverlapIsJaccard(ys, xs);
    assert Elems(xs) * Elems(ys) == Elems(ys) * Elems(xs);
    assert Elems(xs) + Elems(ys) == Elems(ys) + Elems(xs);
  }

  /** A repeated word is counted once per repetition, so the score of
      compareStrings can exceed the 1 its documentation promises, and it
      depends on the order of its arguments. */
  lemma CompareStringsCanExceedOne()
    ensures CompareStrings("phone phone", "phone") == 2.0
    ensures CompareStrings("phone", "phone phone") == 1.0
  {
    TokensOfPhone();
    TokensOfPhonePhone();
    OverlapOfRepeatedWord();
  }

  lemma OverlapOfRepeatedWord()
    ensures Overlap(["phone", "phone"], ["phone"]) == 2.0
    ensures Overlap(["phone"], ["phone", "phone"]) == 1.0
  {
    var one, two := ["phone"], ["phone", "phone"];
    assert two[1..] == one;
    assert CountIn(two, one) == 2;
    assert Elems(two) == {"phone"};
    assert Elems(one) == {"phone"};
    assert UnionSize(two, one) == 1;
    assert UnionSize(one, two) == 1;
  }

  lemma TokensOfPhone()
    ensures Tokens("phone") == ["phone"]
  {
    LowerIs("phone", "phone");
    SplitWithoutSeparator("phone", NonWord);
  }

  lemma TokensOfPhonePhone()
    ensures Tokens("phone phone") == ["phone", "phone"]
  {
    LowerIs("phone", "phone");
    TokensOfTwoWords("phone", "phone", "phone", "phone");
    assert "phone phone" == "phone" + " " + "phone";
  }

  /** The seven compared attributes of `calculateSimilarity`. */
  datatype Attribute = Name | Category | Brand | Location | Description | AiDescription | Keywords

  function Weight(a: Attribute): (w: real)
    ensures w > 0.0
  {
    match a
    case Name => 3.0
    case Category => 2.0
    case Brand => 2.5
    case Location => 1.5
    case Description => 1.0
    case AiDescription => 1.5
    case Keywords => 2.0
  }

  /** Whether both items populate the attribute: a non-empty string on each
      side, or a keyword list on each side, even an empty one (an empty array
      is truthy). */
  predicate Populated(attr: Attribute, a: Item, b: Item) {
    match attr
    case Name => a.name != "" && b.name != ""
    case Category => a.category != "" && b.category != ""
    case Brand => Truthy(a.brand) && Truthy(b.brand)
    case Location => a.location != "" && b.location != ""
    case Description => a.description != "" && b.description != ""
    case AiDescription => Truthy(a.aiDescription) && Truthy(b.aiDescription)
    case Keywords => a.keywords.Some? && b.keywords.Some?
  }

  /** What the attribute is compared by: the tokens of a text attribute, or
      the keyword list as stored. */
  function TokensOf(attr: Attribute, x: Item): seq<string> {
    match attr
    case Name => Tokens(x.name)
    case Category => Tokens(x.category)
    case Brand => Tokens(OrEmpty(x.brand))
    case Location => Tokens(x.location)
    case Description => Tokens(x.description)
    case AiDescription => Tokens(OrEmpty(x.aiDescription))
    case Keywords => x.keywords.GetOr([])
  }

  /** The sub-score of one attribute (compareStrings for texts,
      compareKeywords for keyword lists), or `None` when it is skipped. */
  function SubScore(attr: Attribute, a: Item, b: Item): (r: Option<real>)
    ensures r.Some? <==> Populated(attr, a, b)
    ensures r.Some? ==> r.value >= 0.0
  {
    if Populated(attr, a, b) then Some(Overlap(TokensOf(attr, a), TokensOf(attr, b))) else None
  }

  /** The text sub-scores are exactly `compareStrings` of the two fields,
      and the keyword sub-score is `compareKeywords` of the two lists. */
  lemma TextSubScores(a: Item, b: Item)
    ensures Populated(Name, a, b) ==> SubScore(Name, a, b) == Some(CompareStrings(a.name, b.name))
    ensures Populated(Category, a, b) ==>
              SubScore(Category, a, b) == Some(CompareStrings(a.category, b.category))
    ensures Populated(Location, a, b) ==>
              SubScore(Location, a, b) == Some(CompareStrings(a.location, b.location))
    ensures Populated(Description, a, b) ==>
              SubScore(Description, a, b) == Some(CompareStrings(a.description, b.description))
  {
  }

  lemma BrandSubScore(a: Item, b: Item)
    ensures Populated(Brand, a, b) ==>
              SubScore(Brand, a, b) == Some(CompareStrings(a.brand.value, b.brand.value))
  {
    if Populated(Brand, a, b) {
      assert TokensOf(Brand, a) == Tokens(a.brand.value);
      assert TokensOf(Brand, b) == Tokens(b.brand.value);
    }
  }

  lemma AiDescriptionSubScore(a: Item, b: Item)
    ensures Populated(AiDescription, a, b) ==>
              SubScore(AiDescription, a, b) == Some(CompareStrings(a.aiDescription.value, b.aiDescription.value))
  {
    if Populated(AiDescription, a, b) {
      assert TokensOf(AiDescription, a) == Tokens(a.aiDescription.value);
      assert TokensOf(AiDescription, b) == Tokens(b.aiDescription.value);
    }
  }

  lemma KeywordsSubScore(a: Item, b: Item)
    ensures Populated(Keywords, a, b) ==>
              SubScore(Keywords, a, b) == Some(CompareKeywords(a.keywords.value, b.keywords.value))
  {
  }

  /** One attribute's contribution to `score`. */
  function Term(attr: Attribute, a: Item, b: Item): real {
    var sub := SubScore(attr, a, b);
    if sub.Some? then sub.value * Weight(attr) else 0.0
  }

  /** One attribute's contribution to `totalFactors`. */
  function WeightTerm(attr: Attribute, a: Item, b: Item): real {
    if Populated(attr, a, b) then Weight(attr) else 0.0
  }

  /** `score`: the weighted sum of the sub-scores of the populated attributes. */
  function WeightedScore(a: Item, b: Item): real {
    Term(Name, a, b) + Term(Category, a, b) + Term(Brand, a, b) + Term(Location, a, b)
    + Term(Description, a, b) + Term(AiDescription, a, b) + Term(Keywords, a, b)
  }

  /** `totalFactors`: the summed weight of the populated attributes. */
  function TotalWeight(a: Item, b: Item): real {
    WeightTerm(Name, a, b) + WeightTerm(Category, a, b) + WeightTerm(Brand, a, b)
    + WeightTerm(Location, a, b) + WeightTerm(Description, a, b)
    + WeightTerm(AiDescription, a, b) + WeightTerm(Keywords, a, b)
  }

  function CalculateSimilarity(a: Item, b: Item): (r: real)
    ensures r >= 0.0
  {
    var w := TotalWeight(a, b);
    var s := WeightedScore(a, b);
    TermsNonNegative(a, b);
    if w > 0.0 then RatioNonNegative(s, w); s / w else 0.0
  }

  lemma RatioNonNegative(s: real, w: real)
    requires s >= 0.0 && w > 0.0
    ensures s / w >= 0.0
  {
  }

  lemma TermsNonNegative(a: Item, b: Item)
    ensures WeightedScore(a, b) >= 0.0 && TotalWeight(a, b) >= 0.0
  {
    forall attr: Attribute ensures Term(attr, a, b) >= 0.0 && WeightTerm(attr, a, b) >= 0.0 {
      TermBounds(attr, a, b);
    }
  }

  /** Every sub-score that is computed for the pair is at most 1. */
  ghost predicate SubScoresAtMostOne(a: Item, b: Item) {
    forall attr: Attribute :: SubScore(attr, a, b).Some? ==> SubScore(attr, a, b).value <= 1.0
  }

  lemma TermBounds(attr: Attribute, a: Item, b: Item)
    ensures 0.0 <= Term(attr, a, b) && 0.0 <= WeightTerm(attr, a, b)
    ensures SubScoresAtMostOne(a, b) ==> Term(attr, a, b) <= WeightTerm(attr, a, b)
  {
    TermNonNegative(attr, a, b);
    WeightTermNonNegative(attr, a, b);
    if SubScoresAtMostOne(a, b) {
      TermAtMostWeight(attr, a, b);
    }
  }

  lemma TermNonNegative(attr: Attribute, a: Item, b: Item)
    ensures 0.0 <= Term(attr, a, b)
  {
    var sub := SubScore(attr, a, b);
    if sub.Some? {
      ScaledBounds(sub.value, Weight(attr));
    }
  }

  lemma WeightTermNonNegative(attr: Attribute, a: Item, b: Item)
    ensures 0.0 <= WeightTerm(attr, a, b)
  {
  }

  lemma TermAtMostWeight(attr: Attribute, a: Item, b: Item)
    requires SubScoresAtMostOne(a, b)
    ensures Term(attr, a, b) <= WeightTerm(attr, a, b)
  {
    var sub := SubScore(attr, a, b);
    if sub.Some? {
      assert sub.value <= 1.0;
      ScaledBounds(sub.value, Weight(attr));
    }
  }

  lemma ScaledBounds(c: real, w: real)
    requires 0.0 <= c && w > 0.0
    ensures 0.0 <= c * w
    ensures c <= 1.0 ==> c * w <= w
  {
  }

  /** The score is a weighted average, so it stays in [0, 1] whenever every
      sub-score does. */
  lemma SimilarityAtMostOne(a: Item, b: Item)
    requires SubScoresAtMostOne(a, b)
    ensures 0.0 <= CalculateSimilarity(a, b) <= 1.0
  {
    forall attr: Attribute ensures Term(attr, a, b) <= WeightTerm(attr, a, b) {
      TermBounds(attr, a, b);
    }
    var s, w := WeightedScore(a, b), TotalWeight(a, b);
    if w > 0.0 {
      TermsNonNegative(a, b);
      RealRatioAtMostOne(s, w);
    }
  }

  /** The denominator is the summed weight of exactly those attributes both
      items populate: a non-empty string on each side, or a keyword list on
      each side whatever its length. */
  lemma WeightOfPopulatedAttributes(a: Item, b: Item)
    ensures TotalWeight(a, b) ==
      (if a.name != "" && b.name != "" then 3.0 else 0.0)
      + (if a.category != "" && b.category != "" then 2.0 else 0.0)
      + (if Truthy(a.brand) && Truthy(b.brand) then 2.5 else 0.0)
      + (if a.location != "" && b.location != "" then 1.5 else 0.0)
      + (if a.description != "" && b.description != "" then 1.0 else 0.0)
      + (if Truthy(a.aiDescription) && Truthy(b.aiDescription) then 1.5 else 0.0)
      + (if a.keywords.Some? && b.keywords.Some? then 2.0 else 0.0)
  {
  }

  /** A pair that shares no populated attribute scores 0: no division by 0. */
  lemma NothingSharedScoresZero(a: Item, b: Item)
    requires forall attr: Attribute :: !Populated(attr, a, b)
    ensures TotalWeight(a, b) == 0.0
    ensures CalculateSimilarity(a, b) == 0.0
  {
    assert !Populated(Name, a, b) && !Populated(Category, a, b) && !Populated(Brand, a, b);
    assert !Populated(Location, a, b) && !Populated(Description, a, b);
    assert !Populated(AiDescription, a, b) && !Populated(Keywords, a, b);
  }

  /** No compared attribute of the item repeats a token (or a keyword). */
  ghost predicate DistinctTokens(x: Item) {
    forall attr: Attribute :: NoDup(TokensOf(attr, x))
  }

  /** Without repeated tokens on the first item every sub-score, and hence
      the whole score, lies in [0, 1]. */
  lemma DistinctTokensScoreAtMostOne(a: Item, b: Item)
    requires DistinctTokens(a)
    ensures SubScoresAtMostOne(a, b)
    ensures 0.0 <= CalculateSimilarity(a, b) <= 1.0
  {
    forall attr: Attribute | SubScore(attr, a, b).Some?
      ensures SubScore(attr, a, b).value <= 1.0
    {
      OverlapAtMostOne(TokensOf(attr, a), TokensOf(attr, b));
    }
    SimilarityAtMostOne(a, b);
  }

  /** Without repeated tokens on either side the scorer does not care which
      item is the lost one. */
  lemma SimilaritySymmetric(a: Item, b: Item)
    requires DistinctTokens(a) && DistinctTokens(b)
    ensures CalculateSimilarity(a, b) == CalculateSimilarity(b, a)
  {
    forall attr: Attribute ensures Term(attr, a, b) == Term(attr, b, a) {
      TermSymmetric(attr, a, b);
    }
    ScoreSymmetric(a, b);
    WeightSymmetric(a, b);
    SameSumsSameSimilarity(a, b);
  }

  lemma ScoreSymmetric(a: Item, b: Item)
    requires forall attr: Attribute :: Term(attr, a, b) == Term(attr, b, a)
    ensures WeightedScore(a, b) == WeightedScore(b, a)
  {
  }

  lemma WeightSymmetric(a: Item, b: Item)
    ensures TotalWeight(a, b) == TotalWeight(b, a)
  {
  }

  lemma SameSumsSameSimilarity(a: Item, b: Item)
    requires WeightedScore(a, b) == WeightedScore(b, a)
    requires TotalWeight(a, b) == TotalWeight(b, a)
    ensures CalculateSimilarity(a, b) == CalculateSimilarity(b, a)
  {
  }

  lemma TermSymmetric(attr: Attribute, a: Item, b: Item)
    requires NoDup(TokensOf(attr, a)) && NoDup(TokensOf(attr, b))
    ensures Term(attr, a, b) == Term(attr, b, a) && WeightTerm(attr, a, b) == WeightTerm(attr, b, a)
  {
    assert Populated(attr, a, b) == Populated(attr, b, a);
    if Populated(attr, a, b) {
      OverlapSymmetric(TokensOf(attr, a), TokensOf(attr, b));
    }
  }

  lemma UnpopulatedTerm(attr: Attribute, a: Item, b: Item)
    requires !Populated(attr, a, b)
    ensures Term(attr, a, b) == 0.0 && WeightTerm(attr, a, b) == 0.0
  {
  }

  /** A report with only the given texts filled in, for the examples below. */
  function Report(kind: ItemType, name: string, category: string, location: string,
                  keywords: Option<seq<string>>): Item {
    Item("", kind, name, "", category, None, "", "", location, None, None, None, "", 0,
         Pending, None, keywords)
  }

  /** Two reports that share only a category score 1: attributes missing on
      either side are left out of the average instead of counting against it. */
  lemma SparseReportsScoreOne()
    ensures CalculateSimilarity(Report(Lost, "", "Electronics", "", None),
                                Report(Found, "", "Electronics", "", None)) == 1.0
  {
    TokensOfElectronics();
    SelfOverlapOfOneWord("electronics");
    OnlyCategoriesPopulated("Electronics", "Electronics");
  }

  lemma TokensOfElectronics()
    ensures Tokens("Electronics") == ["electronics"]
  {
    LowerIs("Electronics", "electronics");
    TokensOfSingleWord("Electronics", "electronics");
  }

  lemma OnlyCategoriesPopulated(c1: string, c2: string)
    requires c1 != "" && c2 != ""
    ensures CalculateSimilarity(Report(Lost, "", c1, "", None), Report(Found, "", c2, "", None)) ==
            CompareStrings(c1, c2)
  {
    var c := CompareStrings(c1, c2);
    var a, b := Report(Lost, "", c1, "", None), Report(Found, "", c2, "", None);
    var s, w := WeightedScore(a, b), TotalWeight(a, b);
    assert w == 2.0 by {
      WeightOfPopulatedAttributes(a, b);
    }
    assert s == c * 2.0 by {
      UnpopulatedTerm(Name, a, b);
      UnpopulatedTerm(Brand, a, b);
      UnpopulatedTerm(Location, a, b);
      UnpopulatedTerm(Description, a, b);
      UnpopulatedTerm(AiDescription, a, b);
      UnpopulatedTerm(Keywords, a, b);
      CategoryTerm(a, b);
    }
    SimilarityFromSums(a, b, s, w);
  }

  /** An empty keyword list on both sides still adds weight 2 with score 0:
      names alone scoring `c` give 3c / (3 + 2). */
  lemma EmptyKeywordListsStillWeigh(n1: string, n2: string)
    requires n1 != "" && n2 != ""
    ensures CalculateSimilarity(Report(Lost, n1, "", "", Some([])), Report(Found, n2, "", "", Some([])))
            == CompareStrings(n1, n2) * 3.0 / 5.0
  {
    var c := CompareStrings(n1, n2);
    var a, b := Report(Lost, n1, "", "", Some([])), Report(Found, n2, "", "", Some([]));
    var s, w := WeightedScore(a, b), TotalWeight(a, b);
    assert s == c * 3.0 && w == 5.0 by {
      UnpopulatedTerm(Category, a, b);
      UnpopulatedTerm(Brand, a, b);
      UnpopulatedTerm(Location, a, b);
      UnpopulatedTerm(Description, a, b);
      UnpopulatedTerm(AiDescription, a, b);
      NameTerm(a, b);
      EmptyKeywordsTerm(a, b);
      assert WeightTerm(Name, a, b) == 3.0;
    }
    SimilarityFromSums(a, b, s, w);
  }

  /** A repeated name token pushes the whole score to 2, outside the [0, 1]
      range the scorer's documentation promises, and swapping the items
      changes the score. */
  lemma SimilarityCanExceedOne()
    ensures CalculateSimilarity(Report(Lost, "phone phone", "", "", None),
                                Report(Found, "phone", "", "", None)) == 2.0
    ensures CalculateSimilarity(Report(Lost, "phone", "", "", None),
                                Report(Found, "phone phone", "", "", None)) == 1.0
  {
    CompareStringsCanExceedOne();
    OnlyNamesPopulated("phone phone", "phone");
    OnlyNamesPopulated("phone", "phone phone");
  }

  lemma OnlyNamesPopulated(n1: string, n2: string)
    requires n1 != "" && n2 != ""
    ensures CalculateSimilarity(Report(Lost, n1, "", "", None), Report(Found, n2, "", "", None)) ==
            CompareStrings(n1, n2)
  {
    var c := CompareStrings(n1, n2);
    var a, b := Report(Lost, n1, "", "", None), Report(Found, n2, "", "", None);
    var s, w := WeightedScore(a, b), TotalWeight(a, b);
    assert w == 3.0 by {
      WeightOfPopulatedAttributes(a, b);
    }
    assert s == c * 3.0 by {
      UnpopulatedTerm(Category, a, b);
      UnpopulatedTerm(Brand, a, b);
      UnpopulatedTerm(Location, a, b);
      UnpopulatedTerm(Description, a, b);
      UnpopulatedTerm(AiDescription, a, b);
      UnpopulatedTerm(Keywords, a, b);
      NameTerm(a, b);
    }
    SimilarityFromSums(a, b, s, w);
  }

  lemma TokensOfSingleWord(w: string, lower: string)
    requires |w| > 2 && Lower(w) == lower
    requires forall i :: 0 <= i < |w| ==> IsWordChar(w[i])
    ensures Tokens(w) == [lower]
  {
    SplitWithoutSeparator(lower, NonWord);
  }

  lemma SelfOverlapOfOneWord(w: string)
    ensures Overlap([w], [w]) == 1.0
  {
    assert Elems([w]) == {w};
  }

  /** A worked example: equal names and categories
      and locations "Library" / "Library Cafe" give (3 + 2 + 1.5 * 1/2) / 6.5. */
  lemma BlueBackpackExample()
    ensures CalculateSimilarity(Report(Lost, "Blue Backpack", "Bags", "Library", None),
                                Report(Found, "Blue Backpack", "Bags", "Library Cafe", None)) == 5.75 / 6.5
  {
    BlueBackpackSubScores();
    ThreeTextsPopulated("Blue Backpack", "Bags", "Library", "Blue Backpack", "Bags", "Library Cafe");
  }

  lemma BlueBackpackSubScores()
    ensures CompareStrings("Blue Backpack", "Blue Backpack") == 1.0
    ensures CompareStrings("Bags", "Bags") == 1.0
    ensures CompareStrings("Library", "Library Cafe") == 0.5
  {
    BlueBackpackNames();
    BagsCategories();
    LibraryLocations();
  }

  lemma BlueBackpackNames()
    ensures CompareStrings("Blue Backpack", "Blue Backpack") == 1.0
  {
    TokensOfBlueBackpack();
    TwoWordSelfOverlap("blue", "backpack");
  }

  lemma BagsCategories()
    ensures CompareStrings("Bags", "Bags") == 1.0
  {
    LowerIs("Bags", "bags");
    TokensOfSingleWord("Bags", "bags");
    SelfOverlapOfOneWord("bags");
  }

  lemma LibraryLocations()
    ensures CompareStrings("Library", "Library Cafe") == 0.5
  {
    LowerIs("Library", "library");
    TokensOfSingleWord("Library", "library");
    TokensOfLibraryCafe();
    HalfOverlap("library", "cafe");
  }

  lemma ThreeTextsPopulated(n1: string, c1: string, l1: string, n2: string, c2: string, l2: string)
    requires n1 != "" && n2 != "" && c1 != "" && c2 != "" && l1 != "" && l2 != ""
    ensures CalculateSimilarity(Report(Lost, n1, c1, l1, None), Report(Found, n2, c2, l2, None))
            == (3.0 * CompareStrings(n1, n2) + 2.0 * CompareStrings(c1, c2) + 1.5 * CompareStrings(l1, l2)) / 6.5
  {
    var x, y, z := CompareStrings(n1, n2), CompareStrings(c1, c2), CompareStrings(l1, l2);
    var a, b := Report(Lost, n1, c1, l1, None), Report(Found, n2, c2, l2, None);
    ReportsWithoutExtras(Lost, n1, c1, l1, Found, n2, c2, l2);
    ThreeTextsWeight(a, b);
    NameTerm(a, b);
    CategoryTerm(a, b);
    LocationTerm(a, b);
    ThreeTextsScore(a, b, x, y, z);
    SimilarityFromSums(a, b, 3.0 * x + 2.0 * y + 1.5 * z, 6.5);
  }

  lemma ReportsWithoutExtras(k1: ItemType, n1: string, c1: string, l1: string,
                             k2: ItemType, n2: string, c2: string, l2: string)
    ensures var a, b := Report(k1, n1, c1, l1, None), Report(k2, n2, c2, l2, None);
      !Populated(Brand, a, b) && !Populated(Description, a, b) &&
      !Populated(AiDescription, a, b) && !Populated(Keywords, a, b)
  {
  }

  lemma SimilarityFromSums(a: Item, b: Item, s: real, w: real)
    requires WeightedScore(a, b) == s && TotalWeight(a, b) == w && w > 0.0
    ensures CalculateSimilarity(a, b) == s / w
  {
  }

  lemma ThreeTextsWeight(a: Item, b: Item)
    requires a.name != "" && b.name != "" && a.category != "" && b.category != ""
    requires a.location != "" && b.location != ""
    requires !Populated(Brand, a, b) && !Populated(Description, a, b)
    requires !Populated(AiDescription, a, b) && !Populated(Keywords, a, b)
    ensures TotalWeight(a, b) == 6.5
  {
    WeightOfPopulatedAttributes(a, b);
  }

  lemma ThreeTextsScore(a: Item, b: Item, x: real, y: real, z: real)
    requires Term(Name, a, b) == x * 3.0 && Term(Category, a, b) == y * 2.0 && Term(Location, a, b) == z * 1.5
    requires !Populated(Brand, a, b) && !Populated(Description, a, b)
    requires !Populated(AiDescription, a, b) && !Populated(Keywords, a, b)
    ensures WeightedScore(a, b) == 3.0 * x + 2.0 * y + 1.5 * z
  {
    UnpopulatedTerm(Brand, a, b);
    UnpopulatedTerm(Description, a, b);
    UnpopulatedTerm(AiDescription, a, b);
    UnpopulatedTerm(Keywords, a, b);
  }

  lemma EmptyKeywordsTerm(a: Item, b: Item)
    requires a.keywords == Some([]) && b.keywords == Some([])
    ensures Term(Keywords, a, b) == 0.0 && WeightTerm(Keywords, a, b) == 2.0
  {
    assert TokensOf(Keywords, a) == [];
    assert SubScore(Keywords, a, b) == Some(0.0);
  }

  lemma NameTerm(a: Item, b: Item)
    requires Populated(Name, a, b)
    ensures Term(Name, a, b) == CompareStrings(a.name, b.name) * 3.0
  {
    assert SubScore(Name, a, b) == Some(CompareStrings(a.name, b.name));
  }

  lemma CategoryTerm(a: Item, b: Item)
    requires Populated(Category, a, b)
    ensures Term(Category, a, b) == CompareStrings(a.category, b.category) * 2.0
  {
    assert SubScore(Category, a, b) == Some(CompareStrings(a.category, b.category));
  }

  lemma LocationTerm(a: Item, b: Item)
    requires Populated(Location, a, b)
    ensures Term(Location, a, b) == CompareStrings(a.location, b.location) * 1.5
  {
    assert SubScore(Location, a, b) == Some(CompareStrings(a.location, b.location));
  }

  /** Two words of word characters, longer than two characters each and
      separated by a space, are the two tokens of their lower-cased forms. */
  lemma TokensOfTwoWords(u: string, v: string, lu: string, lv: string)
    requires Lower(u) == lu && Lower(v) == lv
    requires |lu| > 2 && |lv| > 2
    requires forall i :: 0 <= i < |lu| ==> IsWordChar(lu[i])
    requires forall i :: 0 <= i < |lv| ==> IsWordChar(lv[i])
    ensures Tokens(u + " " + v) == [lu, lv]
  {
    assert Lower(u + " " + v) == lu + [' '] + lv;
    SplitWithoutSeparator(lv, NonWord);
    SplitAtSeparator(lu, ' ', lv, NonWord);
    assert Split(lu + [' '] + lv, NonWord) == [lu, lv];
    assert [lu, lv][1..] == [lv];
    assert LongerThan([lv], 2) == [lv];
  }

  lemma TokensOfBlueBackpack()
    ensures Tokens("Blue Backpack") == ["blue", "backpack"]
  {
    LowerIs("Blue", "blue");
    LowerIs("Backpack", "backpack");
    TokensOfTwoWords("Blue", "Backpack", "blue", "backpack");
    assert "Blue Backpack" == "Blue" + " " + "Backpack";
  }

  lemma TokensOfLibraryCafe()
    ensures Tokens("Library Cafe") == ["library", "cafe"]
  {
    LowerIs("Library", "library");
    LowerIs("Cafe", "cafe");
    TokensOfTwoWords("Library", "Cafe", "library", "cafe");
    assert "Library Cafe" == "Library" + " " + "Cafe";
  }

  lemma TwoWordSelfOverlap(u: string, v: string)
    requires u != v
    ensures Overlap([u, v], [u, v]) == 1.0
  {
    assert [u, v][1..] == [v];
    assert CountIn([v], [u, v]) == 1;
    assert CountIn([u, v], [u, v]) == 2;
    assert Elems([u, v]) == {u, v};
    assert Elems([u, v]) + Elems([u, v]) == {u, v};
    assert |{u, v}| == 2;
  }

  lemma HalfOverlap(u: string, v: string)
    requires u != v
    ensures Overlap([u], [u, v]) == 0.5
  {
    assert CountIn([u], [u, v]) == 1;
    assert Elems([u]) + Elems([u, v]) == {u, v};
  }
}

=== FILE: sorting.dfy ===
/** The stable "newest first" / "best first" ordering the application obtains
    with `Array.prototype.sort((a, b) => key(b) - key(a))`: an insertion sort
    over a real-valued key, non-increasing, and a permutation of its input. */
module Sorting {
  import opened Seqs

  ghost predicate SortedDesc<T>(s: seq<T>, key: T -> real) {
    forall i, j :: 0 <= i < j < |s| ==> key(s[i]) >= key(s[j])
  }

  /** Inserts `x` in front of the first element whose key is not larger, so an
      element keeps its place ahead of later elements with an equal key. */
  function InsertDesc<T>(x: T, s: seq<T>, key: T -> real): (r: seq<T>)
    requires SortedDesc(s, key)
    ensures |r| == |s| + 1
    ensures forall i :: 0 <= i < |r| ==> r[i] == x || r[i] in s
    ensures SortedDesc(r, key)
    ensures multiset(r) == multiset(s) + multiset{x}
    decreases |s|
  {
    if |s| == 0 then [x]
    else if key(s[0]) <= key(x) then
      ConsSorted(x, s, key);
      [x] + s
    else
      var t := InsertDesc(x, s[1..], key);
      HeadBoundsRest(s, key);
      assert forall i :: 0 <= i < |t| ==> key(s[0]) >= key(t[i]);
      ConsSorted(s[0], t, key);
      assert s == [s[0]] + s[1..];
      [s[0]] + t
  }

  /** An element bounding a sorted list from above can be put in front of it. */
  lemma ConsSorted<T>(h: T, t: seq<T>, key: T -> real)
    requires SortedDesc(t, key)
    requires forall i :: 0 <= i < |t| ==> key(h) >= key(t[i])
    ensures SortedDesc([h] + t, key)
  {
    var r := [h] + t;
    forall i, j | 0 <= i < j < |r| ensures key(r[i]) >= key(r[j]) {
      assert r[j] == t[j - 1];
      if i > 0 {
        assert r[i] == t[i - 1];
      }
    }
  }

  lemma HeadBoundsRest<T>(s: seq<T>, key: T -> real)
    requires |s| > 0 && SortedDesc(s, key)
    ensures forall y :: y in s[1..] ==> key(s[0]) >= key(y)
  {
    forall y | y in s[1..] ensures key(s[0]) >= key(y) {
      var k :| 0 <= k < |s[1..]| && s[1..][k] == y;
      assert s[k + 1] == y;
    }
  }

  function SortDesc<T>(s: seq<T>, key: T -> real): (r: seq<T>)
    ensures SortedDesc(r, key)
    ensures multiset(r) == multiset(s)
    ensures |r| == |s|
  {
    if |s| == 0 then []
    else
      assert s == [s[0]] + s[1..];
      InsertDesc(s[0], SortDesc(s[1..], key), key)
  }

  /** Holds of the elements whose key is `k`. */
  function KeyIs<T(!new)>(key: T -> real, k: real): (f: T -> bool)
    ensures forall x :: f(x) == (key(x) == k)
  {
    (x: T) => key(x) == k
  }

  /** Inserting `x` into a sorted list puts it in front of every element with
      the same key. */
  lemma {:induction false} InsertDescBeforeEqualKeys<T(!new)>(x: T, s: seq<T>, key: T -> real, k: real)
    requires SortedDesc(s, key)
    ensures Filter(InsertDesc(x, s, key), KeyIs(key, k)) ==
            (if key(x) == k then [x] else []) + Filter(s, KeyIs(key, k))
    decreases |s|
  {
    if |s| == 0 || key(s[0]) <= key(x) {
      assert InsertDesc(x, s, key) == [x] + s;
      FilterFront(x, s, KeyIs(key, k));
    } else {
      assert SortedDesc(s[1..], key);
      InsertDescBeforeEqualKeys(x, s[1..], key, k);
      InsertBehindHead(x, s, key, k);
    }
  }

  /** `x` goes behind a head with a larger key, which therefore has another key. */
  lemma InsertBehindHead<T(!new)>(x: T, s: seq<T>, key: T -> real, k: real)
    requires SortedDesc(s, key) && |s| > 0 && key(s[0]) > key(x)
    requires Filter(InsertDesc(x, s[1..], key), KeyIs(key, k)) ==
             (if key(x) == k then [x] else []) + Filter(s[1..], KeyIs(key, k))
    ensures Filter(InsertDesc(x, s, key), KeyIs(key, k)) ==
            (if key(x) == k then [x] else []) + Filter(s, KeyIs(key, k))
  {
    var p := KeyIs(key, k);
    SortedTail(s, key);
    var t := InsertDesc(x, s[1..], key);
    FilterInsertBehind(x, s, key, p);
    FilterHead(s, p);
    SwapFront(Filter(InsertDesc(x, s, key), p), Filter(s, p), Filter(t, p),
              if p(s[0]) then [s[0]] else [], if p(x) then [x] else [], Filter(s[1..], p));
  }

  lemma SortedTail<T>(s: seq<T>, key: T -> real)
    requires |s| > 0 && SortedDesc(s, key)
    ensures SortedDesc(s[1..], key)
  {
  }

  /** Filtering an insertion behind the head keeps or drops that head first. */
  lemma FilterInsertBehind<T(!new)>(x: T, s: seq<T>, key: T -> real, p: T -> bool)
    requires SortedDesc(s, key) && |s| > 0 && key(s[0]) > key(x)
    ensures Filter(InsertDesc(x, s, key), p) ==
            (if p(s[0]) then [s[0]] else []) + Filter(InsertDesc(x, s[1..], key), p)
  {
    assert InsertDesc(x, s, key) == [s[0]] + InsertDesc(x, s[1..], key);
    FilterFront(s[0], InsertDesc(x, s[1..], key), p);
  }

  lemma FilterHead<T(!new)>(s: seq<T>, p: T -> bool)
    requires |s| > 0
    ensures Filter(s, p) == (if p(s[0]) then [s[0]] else []) + Filter(s[1..], p)
  {
  }

  /** Two parts of which one is empty can be swapped. */
  lemma SwapFront<T>(f1: seq<T>, f2: seq<T>, g: seq<T>, a: seq<T>, b: seq<T>, rest: seq<T>)
    requires a == [] || b == []
    requires f1 == a + g && g == b + rest && f2 == a + rest
    ensures f1 == b + f2
  {
  }

  /** The sort is stable: the elements sharing a key keep their input order. */
  lemma {:induction false} SortDescStable<T(!new)>(s: seq<T>, key: T -> real, k: real)
    ensures Filter(SortDesc(s, key), KeyIs(key, k)) == Filter(s, KeyIs(key, k))
    decreases |s|
  {
    if |s| > 0 {
      SortDescStable(s[1..], key, k);
      InsertDescBeforeEqualKeys(s[0], SortDesc(s[1..], key), key, k);
    }
  }

  /** Every element of the sorted list comes from the input, and the converse. */
  lemma SortDescSameElements<T>(s: seq<T>, key: T -> real)
    ensures forall i :: 0 <= i < |s| ==> s[i] in SortDesc(s, key)
    ensures forall i :: 0 <= i < |SortDesc(s, key)| ==> SortDesc(s, key)[i] in s
  {
    var r := SortDesc(s, key);
    forall i | 0 <= i < |s| ensures s[i] in r {
      assert s[i] in multiset(s);
    }
    forall i | 0 <= i < |r| ensures r[i] in s {
      assert r[i] in multiset(r);
    }
  }
}

=== FILE: text.dfy ===
/** The string primitives the application relies on, over ASCII:
    `toLowerCase`/`toUpperCase`, `split` on a character class, `includes`,
    `join` and `trim()`-emptiness. Non-ASCII letters are left as they are. */
module Text {

  function LowerChar(c: char): char {
    if 'A' <= c <= 'Z' then (c as int + 32) as char else c
  }

  function UpperChar(c: char): char {
    if 'a' <= c <= 'z' then (c as int - 32) as char else c
  }

  function Lower(s: string): (r: string)
    ensures |r| == |s|
    ensures forall i :: 0 <= i < |s| ==> r[i] == LowerChar(s[i])
  {
    seq(|s|, i requires 0 <= i < |s| => LowerChar(s[i]))
  }

  function Upper(s: string): (r: string)
    ensures |r| == |s|
    ensures forall i :: 0 <= i < |s| ==> r[i] == UpperChar(s[i])
  {
    seq(|s|, i requires 0 <= i < |s| => UpperChar(s[i]))
  }

  /** No ASCII capital letter occurs in `s`. */
  predicate IsLower(s: string) {
    forall i :: 0 <= i < |s| ==> !('A' <= s[i] <= 'Z')
  }

  lemma LowerIsLower(s: string)
    ensures IsLower(Lower(s))
    ensures Lower(Lower(s)) == Lower(s)
  {
  }

  /** Lower-casing distributes over concatenation. */
  lemma LowerAppend(a: string, b: string)
    ensures Lower(a + b) == Lower(a) + Lower(b)
  {
    assert forall i :: 0 <= i < |a + b| ==> Lower(a + b)[i] == (Lower(a) + Lower(b))[i];
  }

  /** Lower-casing agrees with a given text character by character. */
  lemma LowerIs(s: string, t: string)
    requires |s| == |t|
    requires forall i :: 0 <= i < |s| ==> LowerChar(s[i]) == t[i]
    ensures Lower(s) == t
  {
  }

  /** JavaScript's `\w`, restricted to ASCII: letters, digits and the underscore. */
  predicate IsWordChar(c: char) {
    ('a' <= c <= 'z') || ('A' <= c <= 'Z') || ('0' <= c <= '9') || c == '_'
  }

  /** JavaScript's `\s`, restricted to ASCII. */
  predicate IsSpaceChar(c: char) {
    c == ' ' || c == '\t' || c == '\n' || c == '\r' || c == 11 as char || c == 12 as char
  }

  /** The separator classes the application splits on: the single space of
      `split(" ")`, and the classes of `split(/\W+/)` and `split(/\s+/)`. */
  datatype Sep = Space | NonWord | Whitespace

  predicate IsSep(sep: Sep, c: char) {
    match sep
    case Space => c == ' '
    case NonWord => !IsWordChar(c)
    case Whitespace => IsSpaceChar(c)
  }

  /** Splits at every separator character, keeping empty parts, as
      `s.split(c)` does for a one-character separator `c`. A regex separator
      with `+` yields the same non-empty parts; it only merges the empty ones. */
  function Split(s: string, sep: Sep): (parts: seq<string>)
    ensures |parts| >= 1
    decreases |s|
  {
    if |s| == 0 then [""]
    else
      var rest := Split(s[1..], sep);
      if IsSep(sep, s[0]) then [""] + rest
      else [[s[0]] + rest[0]] + rest[1..]
  }

  /** A string without separators is a single part. */
  lemma {:induction false} SplitWithoutSeparator(s: string, sep: Sep)
    requires forall i :: 0 <= i < |s| ==> !IsSep(sep, s[i])
    ensures Split(s, sep) == [s]
    decreases |s|
  {
    if |s| > 0 {
      SplitWithoutSeparator(s[1..], sep);
      assert s == [s[0]] + s[1..];
    }
  }

  /** The first separator ends the first part. */
  lemma {:induction false} SplitAtSeparator(a: string, c: char, b: string, sep: Sep)
    requires forall i :: 0 <= i < |a| ==> !IsSep(sep, a[i])
    requires IsSep(sep, c)
    ensures Split(a + [c] + b, sep) == [a] + Split(b, sep)
    decreases |a|
  {
    var s := a + [c] + b;
    if |a| == 0 {
      assert s[1..] == b;
    } else {
      assert s[1..] == a[1..] + [c] + b;
      SplitAtSeparator(a[1..], c, b, sep);
      assert a == [a[0]] + a[1..];
    }
  }

  /** `parts.filter(p => p.length > n)`. */
  function LongerThan(parts: seq<string>, n: nat): (r: seq<string>)
    ensures forall i :: 0 <= i < |r| ==> |r[i]| > n && r[i] in parts
    ensures forall i :: 0 <= i < |parts| && |parts[i]| > n ==> parts[i] in r
    ensures |r| <= |parts|
  {
    if |parts| == 0 then []
    else if |parts[0]| > n then [parts[0]] + LongerThan(parts[1..], n)
    else LongerThan(parts[1..], n)
  }

  /** The tokens `s.split(sep).filter(w => w.length > n)`. */
  function Words(s: string, sep: Sep, n: nat): seq<string> {
    LongerThan(Split(s, sep), n)
  }

  /** No part produced by `Split` contains a separator. */
  lemma {:induction false} SplitPartsHaveNoSeparator(s: string, sep: Sep)
    ensures forall i, k :: 0 <= i < |Split(s, sep)| && 0 <= k < |Split(s, sep)[i]| ==>
              !IsSep(sep, Split(s, sep)[i][k])
    decreases |s|
  {
    if |s| > 0 {
      SplitPartsHaveNoSeparator(s[1..], sep);
    }
  }

  /** The parts of a lower-case string are lower case. */
  lemma {:induction false} SplitPartsLower(s: string, sep: Sep)
    requires IsLower(s)
    ensures forall i :: 0 <= i < |Split(s, sep)| ==> IsLower(Split(s, sep)[i])
    decreases |s|
  {
    if |s| > 0 {
      SplitPartsLower(s[1..], sep);
    }
  }

  /** Every token of `Words` is longer than `n` and free of separators. */
  lemma WordsShape(s: string, sep: Sep, n: nat)
    ensures forall i :: 0 <= i < |Words(s, sep, n)| ==>
              |Words(s, sep, n)[i]| > n &&
              forall k :: 0 <= k < |Words(s, sep, n)[i]| ==> !IsSep(sep, Words(s, sep, n)[i][k])
  {
    SplitPartsHaveNoSeparator(s, sep);
  }

  /** `parts.join(sep)`; the empty list joins to the empty string. */
  function Join(parts: seq<string>, sep: string): string
    decreases |parts|
  {
    if |parts| == 0 then ""
    else if |parts| == 1 then parts[0]
    else parts[0] + sep + Join(parts[1..], sep)
  }

  /** Splitting on the space and joining with a space gives back the string. */
  lemma {:induction false} SplitSpaceJoinRoundTrip(s: string)
    ensures Join(Split(s, Space), " ") == s
    decreases |s|
  {
    if |s| > 0 {
      var rest := Split(s[1..], Space);
      SplitSpaceJoinRoundTrip(s[1..]);
      if s[0] == ' ' {
        assert Split(s, Space) == [""] + rest;
        assert ([""] + rest)[1..] == rest;
      } else {
        var parts := Split(s, Space);
        assert parts == [[s[0]] + rest[0]] + rest[1..];
        if |rest| == 1 {
          assert Join(parts, " ") == [s[0]] + rest[0];
        } else {
          assert parts[1..] == rest[1..];
          assert Join(rest, " ") == rest[0] + " " + Join(rest[1..], " ");
          assert Join(parts, " ") == ([s[0]] + rest[0]) + " " + Join(rest[1..], " ");
        }
        assert s == [s[0]] + s[1..];
      }
    }
  }

  predicate StartsWith(s: string, prefix: string) {
    |prefix| <= |s| && s[..|prefix|] == prefix
  }

  /** `s.includes(p)`; every string includes the empty string. */
  predicate Contains(s: string, p: string)
    decreases |s|
  {
    StartsWith(s, p) || (|s| > 0 && Contains(s[1..], p))
  }

  /** `p` occurs in `s` starting at offset `i`. */
  predicate OccursAt(s: string, p: string, i: int) {
    0 <= i <= |s| - |p| && s[i..i + |p|] == p
  }

  /** `Contains` holds exactly when `p` occurs at some offset of `s`. */
  lemma {:induction false} ContainsAtOffset(s: string, p: string)
    ensures Contains(s, p) <==> exists i :: OccursAt(s, p, i)
    decreases |s|
  {
    if StartsWith(s, p) {
      assert OccursAt(s, p, 0);
    } else if |s| > 0 {
      ContainsAtOffset(s[1..], p);
      if Contains(s[1..], p) {
        var i :| OccursAt(s[1..], p, i);
        assert s[i + 1..i + 1 + |p|] == s[1..][i..i + |p|];
        assert OccursAt(s, p, i + 1);
      }
      if exists i :: OccursAt(s, p, i) {
        var i :| OccursAt(s, p, i);
        assert i != 0;
        assert s[1..][i - 1..i - 1 + |p|] == s[i..i + |p|];
        assert OccursAt(s[1..], p, i - 1);
      }
    }
  }

  lemma ContainsEmpty(s: string)
    ensures Contains(s, "")
  {
  }

  /** `!s.trim()`: the string is empty once surrounding whitespace is removed. */
  predicate IsBlank(s: string) {
    forall i :: 0 <= i < |s| ==> IsSpaceChar(s[i])
  }

  /** `parts.map(n => n[0]).join('')`: an empty part has no first character
      and contributes nothing. */
  function FirstLetters(parts: seq<string>): (r: string)
    ensures |r| <= |parts|
    decreases |parts|
  {
    if |parts| == 0 then ""
    else (if parts[0] == "" then "" else [parts[0][0]]) + FirstLetters(parts[1..])
  }

  /** `s.split(' ').map(n => n[0]).join('')`. */
  function Initials(s: string): string {
    FirstLetters(Split(s, Space))
  }

  /** A single word's initials are its first letter; an empty string has none. */
  lemma InitialsOfWord(w: string)
    requires forall i :: 0 <= i < |w| ==> w[i] != ' '
    ensures Initials(w) == (if w == "" then "" else [w[0]])
  {
    SplitWithoutSeparator(w, Space);
    assert Split(w, Space)[1..] == [];
  }

  /** Initials distribute over a space: the first word contributes its first
      letter and the rest contributes its own initials. */
  lemma InitialsOfSpaced(a: string, b: string)
    requires forall i :: 0 <= i < |a| ==> a[i] != ' '
    ensures Initials(a + " " + b) == Initials(a) + Initials(b)
  {
    SplitAtSeparator(a, ' ', b, Space);
    InitialsOfWord(a);
    var parts := [a] + Split(b, Space);
    assert parts[1..] == Split(b, Space);
  }
}
